=== FILE: README.md ===
# Swedish patent-law assistant: a Dafny model of its core

The system answers questions about Swedish intellectual-property law
(patentlagen, mönsterskyddslagen and related acts) with retrieval-augmented
generation. An ETL pipeline prepares the documents. It downloads PDFs
(`etl/download_pdfs.py`), extracts and cleans their text page by page
(`etl/extract_text.py`), and rewrites the law texts so that chapter
("kap.") and paragraph ("§") references survive chunking
(`etl/preprocess_text.py`). The vector store (`app/vector_store.py`) does
three things. It flags important chunks when the index is built. It rewrites
each question around the chapter and paragraph it names. It answers from the
retrieved chunks through a language model and lists the sources it used.
The chatbot (`app/chatbot.py`) sends the vector store's answer and the user's
question to the chat model. It returns either an answer with sources or an
apology with the error.

The Dafny model is organised as follows:

- `outcomes.dfy` (`Outcomes`): `Option` and `Result`.
- `strings.dfy` (`Strings`): character classes (`\d`, `\s`, `\w`, case
  folding), `str.strip`, `"sep".join` and decimal formatting. It also
  defines the two relations most properties are stated with:
  - `IsSubseq`: "keeps every character, in order";
  - `NonSpace`: "the visible characters".
- `paths.dfy` (`Paths`): `os.path.basename`, `os.path.join`,
  `os.path.splitext`, and the directory listing filtered by extension.
- `patterns.dfy` (`Patterns`): every fixed regular expression of the core
  is a deterministic matcher at a position, with the same greediness and
  alternation order as Python's `re`. The file also models a
  `re.search` / `re.finditer` / `re.sub` engine over those matchers.
- `tagger.dfy` (`Tagger`): steps 1 to 7 of `preprocess_legal_text`.
- `law_definitions.dfy` (`LawDefinitions`): step 8, which prepends
  definition blocks.
- `legal_text.dfy` (`LegalText`): the whole legal-text preprocessing and
  its batch over a directory.
- `page_text.dfy` (`PageText`): page extraction, page cleaning, the
  per-PDF text file and the batch over a directory.
- `download.dfy` (`Download`): file names derived from URLs and
  timestamps, single, list and file downloads.
- `retrieval.dfy` (`Retrieval`): the vector store. This covers index
  creation with its flagging loop, the query rewrite, the answer and its
  fallbacks, and the formatted source list.
- `chat.dfy` (`Chat`): `Chatbot.get_response`.

Everything outside the program is a parameter:

- the file system: the listing, file contents, and which files can be
  written;
- the network: the outcome of each transfer;
- the clock: readings as parameters;
- the retriever, the generation model and the chat model: functions
  returning a `Result`, with their exceptions as `Failure`.

Loops and objects that change state are methods and classes, each proved
against a specification function:

- `VectorStore` and its nodes' `metadata`;
- `Downloader`;
- the batch loops;
- the step-7 tag insertion;
- the source-list loop;
- the history conversion.

## Model

| member | source | states |
|---|---|---|
| `Strings.LowerStr` | app/vector_store.py:184 | lower-casing keeps the length and maps each character by `Lower`, which keeps the word and space classes |
| `Strings.Strip` | etl/download_pdfs.py:120 | `str.strip()`: no whitespace at either end, every character comes from the input, and the result is empty exactly when the input is all whitespace |
| `Strings.NatToString` | app/vector_store.py:312 | the decimal rendering of a source's number is a non-empty run of digits |
| `Strings.NatToStringValue` | etl/download_pdfs.py:54 | a number below `10^w` rendered in decimal has at most `w` digits and reads back as the number |
| `Paths.Basename` | etl/preprocess_text.py:40 | `os.path.basename`: a suffix of the path containing no `/`, which is the whole path or follows a `/` |
| `Paths.JoinPath` | etl/preprocess_text.py:41 | `os.path.join`: ends with the second part; an absolute second part replaces the first; otherwise at most one `/` is inserted |
| `Paths.Stem` | etl/extract_text.py:127 | `os.path.splitext(...)[0]`: a prefix of the name that is either the whole name or ends just before the last `.` after the last `/` |
| `Paths.WithExtension` | etl/preprocess_text.py:200-202 | the listing filter keeps exactly the names whose lower-cased form ends with the extension, in listing order |
| `Patterns.ChapterHeadingAt` | etl/preprocess_text.py:50 | the step-1 pattern `(\d+)\s*kap\.\s*([^§]*)` at a position: a match of two groups starting there |
| `Patterns.ChapterHeadingShape` | etl/preprocess_text.py:50 | a step-1 match has a digit run as group 1 and no `§` in group 2, and stops at `§` or at the end. Its visible text is number + `kap.` + visible group 2 |
| `Patterns.ChapterMarkerAt` | etl/preprocess_text.py:61 | the pattern `(\d+)\s*kap\.` at a position: one group, a match starting there |
| `Patterns.ChapterMarkerShape` | etl/preprocess_text.py:132 | a chapter marker's group is a non-empty digit run, the match ends with `.`, and its visible text is number + `kap.` |
| `Patterns.ParagraphMarkerAt` | etl/preprocess_text.py:73 | the pattern `(\d+)\s*§` at a position: one group, a match starting there |
| `Patterns.ParagraphMarkerShape` | etl/preprocess_text.py:138 | a paragraph marker's group is a non-empty digit run and its visible text is number + `§` |
| `Patterns.KeyParagraphAt` | etl/preprocess_text.py:76-92 | the step-3 pattern `(N\s*kap\.\s*1\s*§)`: one group equal to the whole match |
| `Patterns.PhrasesAt` | etl/preprocess_text.py:95-99 | an alternation of literal phrases tried in order: the group is the whole match and one of the alternatives |
| `Patterns.WholeWordAt` | etl/preprocess_text.py:117 | `\b(term)\b` ignoring case: one group equal to the whole match |
| `Patterns.ChapterQueryAt` | app/vector_store.py:144-148 | the question's chapter pattern, case-insensitive, with three groups. `kap` is tried before `kapitel` as written; the flag tries `kapitel` first |
| `Patterns.ParagraphQueryAt` | app/vector_store.py:149-151 | digits then `§` or `paragraf`, ignoring case: one group, a match starting at the position |
| `Patterns.FirstChapterQueryAt` | app/vector_store.py:166-168 | `först` or `första` then `kapitel` or `kap`, ignoring case: a match starting at the position |
| `Patterns.ChapterParagraphAt` | app/vector_store.py:271 | `(\d+)\s*kap\.\s*(\d+)\s*§`: two groups |
| `Patterns.ImportantChunkAt` | app/vector_store.py:104-108 | `1 kap. 1 §` (any spacing), `ensamrätt` or `patenterbara`, ignoring case: a match starting at the position |
| `Patterns.DigitKapDigitLayout` | etl/preprocess_text.py:77 | `N\s*kap\.\s*M\s*§` matches exactly when the text reads `N`, `kap.`, `M` and `§` separated only by whitespace, and every such layout ends where the match ends |
| `Patterns.KeyParagraphAccepts` | etl/preprocess_text.py:76-92 | a step-3 pattern matches exactly at a `N kap. 1 §` layout with any whitespace, and its group is the whole layout |
| `Patterns.WholeWordAccepts` | etl/preprocess_text.py:117 | `\b(term)\b` ignoring case matches exactly where the term stands in any letter case with a word boundary on both sides, and the match has the term's length |
| `Patterns.FirstChapterQueryAccepts` | app/vector_store.py:166-168 | the first-chapter pattern matches exactly at `först`, an optional `a`, whitespace, then `kap` (which `kapitel` starts with), in any letter case |
| `Patterns.ImportantChunkAccepts` | app/vector_store.py:104-108 | the important-section pattern matches exactly at `1 kap. 1 §` with any whitespace and letter case, at `ensamrätt` or at `patenterbara` |
| `Patterns.SpaceRunAt` | etl/extract_text.py:87 | `\s+`: a match starting at the position |
| `Patterns.PageBarAt` | etl/extract_text.py:90 | a page footer of digits, a vertical bar and `Page`, at word boundaries: a match starting at the position |
| `Patterns.PageOfAt` | etl/extract_text.py:91 | `\bPage\s*\d+\s*of\s*\d+\b`: a match starting at the position |
| `Patterns.ConfidentialLineAt` | etl/extract_text.py:94 | `^.*CONFIDENTIAL.*$` in multi-line mode: a match starting at the position |
| `Patterns.DisallowedCharAt` | etl/extract_text.py:97 | the negated character class: a one-character match |
| `Patterns.HyphenSplitAt` | etl/extract_text.py:100 | `(\w+)-\s*(\w+)`: two groups |
| `Patterns.Search` | app/vector_store.py:99 | `re.search`: the leftmost position where the pattern matches, or none when it matches nowhere |
| `Patterns.FindAllFirst` | app/vector_store.py:278-279 | `re.findall`/`finditer` is empty exactly when `re.search` finds nothing; otherwise it starts with the leftmost match |
| `Patterns.SubNoMatch` | etl/preprocess_text.py:49-53 | `re.sub` leaves a text without any match unchanged |
| `Patterns.SubFirst` | etl/preprocess_text.py:49-53 | `re.sub` copies the text before the leftmost match, replaces that match, and continues after it |
| `Patterns.SubInserts` | etl/preprocess_text.py:76-80 | a substitution whose replacements contain their match in order keeps the whole input in order |
| `Patterns.SubDeletes` | etl/extract_text.py:90 | a substitution whose replacements are contained in their match only deletes characters |
| `Tagger.ChapterBannerVisible` | etl/preprocess_text.py:49-53 | a step-1 replacement shows the chapter number, `kap.` and the captured text, in order |
| `Tagger.MarkChaptersVisible` | etl/preprocess_text.py:49-53 | step 1 keeps every visible character of the text, in order |
| `Tagger.MarkChaptersFirst` | etl/preprocess_text.py:49-53 | step 1 copies the text before the first chapter heading and puts `--- KAPITEL N ---` before it, with `N` the heading's own digit run, then `N kap. ` and the captured text; a text without a heading is unchanged |
| `Tagger.LastChapterIsNearest` | etl/preprocess_text.py:60-65 | the latest chapter before a paragraph is None exactly when the text has no chapter marker; otherwise it is the number of the nearest marker, which is unique |
| `Tagger.NearestChapterUnique` | etl/preprocess_text.py:60-65 | there is only one nearest chapter marker |
| `Tagger.LinkedParagraphVisible` | etl/preprocess_text.py:66-70 | both step-2 replacements show the paragraph number followed by `§` |
| `Tagger.LinkParagraphsVisible` | etl/preprocess_text.py:57-73 | step 2 keeps every visible character of the text, in order |
| `Tagger.LinkParagraphsFirst` | etl/preprocess_text.py:57-73 | step 2 replaces the first paragraph reference `M §` by `M § (i C kap.) M §`, with `C` the last chapter marker before it, or by `M § M §` when there is none; the text before it is copied, and a text without a reference is unchanged |
| `Tagger.EmphasizeKeyParagraphsInserts` | etl/preprocess_text.py:76-92 | the three step-3 substitutions only insert text |
| `Tagger.EmphasizeKeyParagraphFirst` | etl/preprocess_text.py:76-92 | one step-3 substitution frames the first `N kap. 1 §` reference, kept as written, with the `VIKTIG PARAGRAF` banner and its chapter and title; a text without one is unchanged |
| `Tagger.MarkHeadersInserts` | etl/preprocess_text.py:95-128 | steps 4 and 6 only insert text, and leave a text without any of their headers unchanged |
| `Tagger.MarkSectionsFirst` | etl/preprocess_text.py:95-99 | step 4 puts `--- AVSNITT ---` before the first header, which is one of the listed phrases standing at that position; a text without a header is unchanged |
| `Tagger.MarkSubsectionsFirst` | etl/preprocess_text.py:124-128 | step 6 puts `--- SEKTION ---` before the first section name, which is one of the listed phrases standing at that position; a text without a section name is unchanged |
| `Tagger.RepeatLegalTerms` | etl/preprocess_text.py:115-121 | the step-5 loop over the nine terms computes the term-by-term repetition |
| `Tagger.RepeatTermFirst` | etl/preprocess_text.py:116-121 | one step-5 pass replaces the first whole-word occurrence `x` of the term, in whatever letter case it is written, by `x x` after a blank line |
| `Tagger.RepeatTermsInserts` | etl/preprocess_text.py:103-121 | step 5 only inserts text |
| `Tagger.TermRepetitionGrows` | etl/preprocess_text.py:117-118 | each whole-word occurrence is replaced by a longer text that contains it |
| `Tagger.RepeatTermGrows` | etl/preprocess_text.py:115-121 | a term that occurs makes the text strictly longer |
| `Tagger.RepeatTermFoundAgain` | etl/preprocess_text.py:115-121 | a term that occurs still occurs as a whole word after its repetition |
| `Tagger.InsertParagraphTags` | etl/preprocess_text.py:138-148 | the inner step-7 loop inserts one tag per paragraph in the 500-character window, only where the position lies inside the text |
| `Tagger.AddChapterParagraphTags` | etl/preprocess_text.py:132-148 | step 7: for each chapter marker of the text as it was before step 7, tags are inserted into the text as it has grown so far |
| `Tagger.InsertTagsInserts` | etl/preprocess_text.py:138-148 | the tags of one chapter only insert text |
| `Tagger.TagChaptersInserts` | etl/preprocess_text.py:132-148 | step 7 only inserts text |
| `LawDefinitions.Banner` | etl/preprocess_text.py:169 | the banner has the law type in upper case at a fixed offset, and a length fixed by the law type |
| `LawDefinitions.PrependDefinition` | etl/preprocess_text.py:166-177 | one law: the text ends the result. A text with the trigger contains the block afterwards. The block is prepended exactly when the trigger is present and the block is not |
| `LawDefinitions.PrependDefinitions` | etl/preprocess_text.py:166-177 | after every round the original text still ends the result |
| `LawDefinitions.PrependAll` | etl/preprocess_text.py:166-177 | the loop over the laws applies the rounds in order |
| `LawDefinitions.AddDefinitions` | etl/preprocess_text.py:152-177 | step 8 with the three laws of the source |
| `LawDefinitions.LaterRoundsPrefix` | etl/preprocess_text.py:166-177 | later rounds only prepend |
| `LawDefinitions.OnlyPrefix` | etl/preprocess_text.py:166-177 | step 8 keeps the text whole, in order |
| `LawDefinitions.BlockPresent` | etl/preprocess_text.py:167-177 | when a law's trigger is in the text, its block is in the result |
| `LawDefinitions.FiresOnce` | etl/preprocess_text.py:176-177 | a law whose opening sentence was in the text its round looked at, whether from the original text or from an earlier block, would not fire again on the result |
| `LawDefinitions.FiredOnce` | etl/preprocess_text.py:176-177 | a law that fired would not fire again on the result |
| `LawDefinitions.BlockCarriesPatternTrigger` | etl/preprocess_text.py:170 | every block contains the design-right trigger "Den som har skapat ett mönster" |
| `LawDefinitions.ChainedBlock` | etl/preprocess_text.py:166-177 | a block that contains a later law's trigger makes that later law fire too |
| `LawDefinitions.DefinitionsAdded` | etl/preprocess_text.py:152-177 | for each of the three laws whose trigger is present, the result keeps the text, contains the block, and would not fire that law again |
| `LawDefinitions.PatentTextGetsDesignBlock` | etl/preprocess_text.py:153-177 | a patent text gets the patent block and, through it, the design-right block as well; the design-right law would not fire again on the result |
| `LawDefinitions.BlockShape` | etl/preprocess_text.py:168-175 | a block's length and its opening banner line |
| `LawDefinitions.DesignBlockAbsent` | etl/preprocess_text.py:159-177 | the product-design block followed by the product trigger does not contain the design-right block |
| `LawDefinitions.OnlyThirdFires` | etl/preprocess_text.py:166-177 | with only the third trigger present, step 8 prepends exactly the third block |
| `LawDefinitions.SecondRoundLengthens` | etl/preprocess_text.py:166-177 | a second law that fires lengthens the text |
| `LawDefinitions.FirstRunOnProductText` | etl/preprocess_text.py:159-177 | on the product-design sentence alone, step 8 prepends exactly the design block |
| `LawDefinitions.RerunAddsBlock` | etl/preprocess_text.py:166-177 | step 8 is not idempotent: run again on its own output for a product-design text, it prepends a further block |
| `LegalText.InsertingStepsKeepText` | etl/preprocess_text.py:76-177 | steps 3 to 8 only insert text |
| `LegalText.TaggedKeepsVisibleText` | etl/preprocess_text.py:49-177 | steps 1 to 8 keep every visible character, in order |
| `LegalText.Preprocessed` | etl/preprocess_text.py:28-188 | a file gives a result exactly when it can be read and the output written. The output path is the output directory joined with the basename, and the output keeps every visible character of the input in order |
| `LegalText.PreprocessLegalText` | etl/preprocess_text.py:28-188 | the method runs the eight steps in order and computes `Preprocessed` |
| `LegalText.ProcessAllTextFiles` | etl/preprocess_text.py:190-219 | the batch loop returns the successful output paths in listing order |
| `LegalText.ProcessedPathsAreOutputs` | etl/preprocess_text.py:197-219 | at most one path per `.txt` file. Each path is the output of a readable text file, and every readable, writable text file's output is listed |
| `PageText.CollapseSpaces` | etl/extract_text.py:87 | whitespace collapsing keeps the visible characters exactly and leaves no two adjacent spaces and no other whitespace |
| `PageText.CollapseKeepsVisible` | etl/extract_text.py:87 | `re.sub(r"\s+", " ")` keeps the visible text |
| `PageText.DropPageNumbers` | etl/extract_text.py:90-91 | removing page numbers only deletes characters |
| `PageText.BarFooterRemoved` | etl/extract_text.py:90 | a footer of digits, a vertical bar and `Page`, with any spacing, is removed entirely |
| `PageText.PageOfFooterRemoved` | etl/extract_text.py:91 | a `Page N of M` footer is removed entirely |
| `PageText.NoBarNoChange` | etl/extract_text.py:90 | a text without a vertical bar is untouched by the first page-number pattern |
| `PageText.PageBarNeedsBar` | etl/extract_text.py:90 | the first page-number pattern only matches a text containing a vertical bar |
| `PageText.DropConfidential` | etl/extract_text.py:94 | removing CONFIDENTIAL lines only deletes characters |
| `PageText.OneLineConfidential` | etl/extract_text.py:94 | a one-line text is emptied exactly when it mentions CONFIDENTIAL |
| `PageText.ConfidentialMatchMentions` | etl/extract_text.py:94 | a CONFIDENTIAL-line match implies the text mentions CONFIDENTIAL |
| `PageText.BlankDisallowed` | etl/extract_text.py:97 | the character filter keeps the length and replaces each disallowed character by a space |
| `PageText.BlankShowsNothingNew` | etl/extract_text.py:97 | the filter shows no visible character that was not there |
| `PageText.JoinHyphenated` | etl/extract_text.py:100 | joining hyphenated words only deletes characters |
| `PageText.RejoinedDeletes` | etl/extract_text.py:100 | each replacement `\1\2` is contained in its match |
| `PageText.SplitWordJoined` | etl/extract_text.py:100 | `word- word` becomes `wordword` |
| `PageText.CleanPage` | etl/extract_text.py:73-102 | an empty or missing page gives `""`. The result has no surrounding whitespace, and all its characters are allowed word, space or punctuation characters |
| `PageText.CleanPageKeepsOnlyInputText` | etl/extract_text.py:73-102 | cleaning shows only visible characters of the page, in order |
| `PageText.ConfidentialPageVanishes` | etl/extract_text.py:87-102 | a page mentioning CONFIDENTIAL after whitespace collapsing and page-number removal is cleaned to `""`, since collapsing leaves a single line |
| `PageText.ExtractedPagesAre` | etl/extract_text.py:30-71 | an unreadable PDF gives no pages. Every page kept is a non-empty extracted text, and every non-empty extracted text is kept |
| `PageText.ExtractTextFromPdf` | etl/extract_text.py:30-71 | the page loop computes the extracted pages |
| `PageText.LayoutPlacesPage` | etl/extract_text.py:131-135 | page k appears framed as `--- Page k+1 ---` at its offset in the written file |
| `PageText.LayoutPrefix` | etl/extract_text.py:131-135 | the file for the first pages is a prefix of the whole file |
| `PageText.LayoutEmpty` | etl/extract_text.py:131-135 | the file is empty exactly when there are no pages |
| `PageText.WritePages` | etl/extract_text.py:131-135 | the writing loop produces the page layout |
| `PageText.TextPath` | etl/extract_text.py:125-128 | the output path ends with the PDF's stem + `.txt` |
| `PageText.PdfResult` | etl/extract_text.py:104-142 | a PDF gives a file exactly when it has extracted text and the output can be written. The file is at the text path and holds the laid-out cleaned pages |
| `PageText.ProcessPdf` | etl/extract_text.py:104-142 | the method computes `PdfResult` |
| `PageText.ProcessAllPdfs` | etl/extract_text.py:144-173 | the batch loop returns the successful text paths in listing order |
| `PageText.ProcessedPdfsAreOutputs` | etl/extract_text.py:151-173 | at most one path per `.pdf` file, and each path is the text path of a PDF with text |
| `PageText.EveryPdfWithTextProcessed` | etl/extract_text.py:164-170 | a PDF with text whose output can be written is in the result |
| `Download.Split` | etl/download_pdfs.py:46 | `str.split("/")`: at least one piece and no separator in any piece |
| `Download.SplitJoin` | etl/download_pdfs.py:46 | joining the pieces with the separator gives the text back |
| `Download.Lines` | etl/download_pdfs.py:119 | reading lines in text mode: no piece contains a line break |
| `Download.NetlocEnd` | etl/download_pdfs.py:45 | the network location ends at the first `/`, `?` or `#` |
| `Download.DropParams` | etl/download_pdfs.py:45 | `urlparse` drops `;params` from the last path segment: a prefix of the path, unchanged without `;` |
| `Download.UrlPath` | etl/download_pdfs.py:45 | `urlparse(url).path` of the sanitised URL contains neither `?` nor `#` |
| `Download.BlanksEnd` | etl/download_pdfs.py:45 | where the leading control characters and spaces that `urlsplit` strips end: all before it are such characters, and the one there is not |
| `Download.RemoveUnsafeChars` | etl/download_pdfs.py:45 | deleting tabs, carriage returns and line feeds keeps exactly the other characters |
| `Download.RemoveUnsafeConcat` | etl/download_pdfs.py:45 | the deletion works part by part on a concatenation |
| `Download.RemoveUnsafeKeeps` | etl/download_pdfs.py:45 | a text without tabs or line breaks is left unchanged |
| `Download.LeadingBlanksIgnored` | etl/download_pdfs.py:45 | leading control characters and spaces make no difference to the path |
| `Download.SanitizedIdempotent` | etl/download_pdfs.py:45 | sanitising an already sanitised URL changes nothing |
| `Download.HttpsUrlPath` | etl/download_pdfs.py:45 | for `https://host/path?query#fragment` the path is `/path` with any tabs and line breaks deleted |
| `Download.HttpsScheme` | etl/download_pdfs.py:45 | an `https://` URL splits into the scheme and the rest |
| `Download.LastNonEmpty` | etl/download_pdfs.py:47-49 | the last non-empty path piece, or none exactly when all pieces are empty |
| `Download.UrlName` | etl/download_pdfs.py:45-49 | the name taken from a URL is non-empty and contains no `/` |
| `Download.UrlNameIsLastSegment` | etl/download_pdfs.py:45-49 | the name is the last non-empty path segment, or `document.pdf` when there is none |
| `Download.WithPdfSuffix` | etl/download_pdfs.py:52-53 | the name ends with `.pdf` and starts with the original name; it is unchanged exactly when it already ended with `.pdf` |
| `Download.Padded` | etl/download_pdfs.py:54 | zero-padded fields are digits only |
| `Download.PaddedValue` | etl/download_pdfs.py:54 | a zero-padded field has the requested width and reads back as the number |
| `Download.TimestampRoundTrip` | etl/download_pdfs.py:54 | `%Y%m%d%H%M%S` gives 14 digits from which the six fields read back |
| `Download.DerivedNameShape` | etl/download_pdfs.py:44-55 | a derived name is timestamp + `_` + the URL's name, with `.pdf` appended when it lacked one |
| `Download.GivenNameVerbatim` | etl/download_pdfs.py:44 | a non-empty given file name is used as is; an empty or missing one is derived |
| `Download.UrlOutcome` | etl/download_pdfs.py:25-83 | a request failure gives None and any other failure propagates. A saved download gives a path ending with the file name |
| `Download.SuccessesAre` | etl/download_pdfs.py:95-106 | at most one path per URL. Each path is the derived output of a URL whose transfer was saved, and every saved URL's output is listed |
| `Download.UrlsOfAre` | etl/download_pdfs.py:119-120 | the URLs of a file are exactly its non-blank lines, stripped |
| `Download.Downloader.constructor` | etl/download_pdfs.py:15-23 | the output directory is the given one, or the configured one when none or `""` is given |
| `Download.Downloader.DownloadFromUrl` | etl/download_pdfs.py:25-83 | the method computes `UrlOutcome` in the downloader's directory |
| `Download.Downloader.DownloadFromList` | etl/download_pdfs.py:85-106 | the loop returns the successful downloads in URL order, catching every failure |
| `Download.Downloader.DownloadFromFile` | etl/download_pdfs.py:108-127 | an unreadable file gives `[]`; otherwise the list download of its non-blank stripped lines |
| `Retrieval.Reference` | app/vector_store.py:144-173 | the chapter and paragraph read from a question are digit runs, and the paragraph may be empty |
| `Retrieval.ReferenceFound` | app/vector_store.py:154-173 | there is a reference exactly when the chapter pattern matches, or the paragraph pattern and a "första kapitlet" phrase both match |
| `Retrieval.RewriteQuery` | app/vector_store.py:142-173 | the rewritten question ends with the question. It is unchanged exactly when there is no reference; otherwise it is `c kap. p § ` or `c kap. ` followed by the question |
| `Retrieval.ChapterQueryNumbers` | app/vector_store.py:144-158 | groups 1 and 3 of a chapter-query match are digit runs, group 3 possibly empty |
| `Retrieval.ParagraphQueryNumber` | app/vector_store.py:149-164 | the paragraph-query group is a digit run |
| `Retrieval.KapitelFirstAgrees` | app/vector_store.py:144-148 | on a question without the word "kapitel", the corrected rewrite equals the rewrite as written |
| `Retrieval.RewriteAtStart` | app/vector_store.py:154-161 | a chapter match at the start of the question determines the rewrite |
| `Retrieval.KapitelAsWrittenRewrite` | app/vector_store.py:144-161 | as written, a question `N kapitel ...` is rewritten as `N kap. ` + question |
| `Retrieval.KapitelLosesParagraph` | app/vector_store.py:144-161 | as written, `c kapitel p §...` is rewritten without its paragraph number |
| `Retrieval.KapitelFirstRewrite` | app/vector_store.py:144-161 | with `kapitel` tried first, `N kapitel M ...` is rewritten as `N kap. M § ` + question |
| `Retrieval.KapitelKeepsParagraph` | app/vector_store.py:144-161 | with `kapitel` tried first, `c kapitel p §...` keeps both numbers |
| `Retrieval.ConceptsIn` | app/vector_store.py:175-185 | the key concepts found are exactly the listed ones occurring in the question ignoring case, in list order |
| `Retrieval.ContextHasEveryHit` | app/vector_store.py:204-215 | the context contains every retrieved text, and is the fixed notice when nothing was retrieved |
| `Retrieval.ChapterOf` | app/vector_store.py:271-291 | the chapter shown for a source is a digit run |
| `Retrieval.ParagraphOf` | app/vector_store.py:271-296 | the paragraph shown for a source is a digit run |
| `Retrieval.ChapterParagraphNumbers` | app/vector_store.py:271 | both groups of the combined pattern are digit runs |
| `Retrieval.MarkerNumber` | app/vector_store.py:278-279 | a chapter or paragraph marker captures a digit run |
| `Retrieval.SeparateLocationFirst` | app/vector_store.py:277-309 | the branches on separate matches show the first chapter and the first paragraph found |
| `Retrieval.LocationReference` | app/vector_store.py:270-309 | a source's location is the text for the combined match, or for the first chapter and first paragraph. The "exactly one chapter" branch changes nothing |
| `Retrieval.LocationEmpty` | app/vector_store.py:270-309 | no location is shown exactly when the text has neither a chapter nor a paragraph marker |
| `Retrieval.Excerpt` | app/vector_store.py:317 | a text of at most 150 characters is shown whole; a longer one as its first 150 characters followed by `...` |
| `Retrieval.SourceLinesShape` | app/vector_store.py:256-318 | two lines per source, in order: the heading `Källa k` and its excerpt |
| `Retrieval.FormatSources` | app/vector_store.py:253-320 | the loop builds the source list, which starts with the first source's heading |
| `Retrieval.SourcesTextStart` | app/vector_store.py:312-320 | a non-empty source list starts with the heading `Källa 1` |
| `Retrieval.FormattedSources` | app/vector_store.py:245-348 | a bare message has no source list. An enhanced answer gives the text of its source list, which is the fixed notice without sources and otherwise starts with the first heading. A fallback gives the fixed note that no document context was used |
| `Retrieval.Recover` | app/vector_store.py:324-354 | the `except` branch: a fallback exactly when there is a model and the direct question succeeds, carrying the model's text; otherwise `Error processing query: ` + the error |
| `Retrieval.FlaggedChanges` | app/vector_store.py:104-112 | a node is flagged `important` exactly when it has metadata and an important passage. Nothing else in its metadata changes and no flag is ever cleared |
| `Retrieval.FlaggedIdempotent` | app/vector_store.py:104-112 | flagging twice is flagging once |
| `Retrieval.CountFound` | app/vector_store.py:98-108 | a count never exceeds the number of chunks |
| `Retrieval.CountFoundExtremes` | app/vector_store.py:98-108 | a count is 0 exactly when no chunk matches, and the number of chunks exactly when all match |
| `Retrieval.ImportantChunkFound` | app/vector_store.py:104-110 | the importance pattern matches a chunk exactly when `1 kap. 1 §` with any whitespace, `ensamrätt` or `patenterbara` occurs in it, in any letter case |
| `Retrieval.VectorStore.constructor` | app/vector_store.py:23-43 | a new store has no index before an index is loaded or created, and a model exactly when an API key is set |
| `Retrieval.VectorStore.CreateIndex` | app/vector_store.py:62-124 | without files or documents nothing changes. Otherwise the three counts are those of the chunk texts, the index holds the chunks, and each chunk's metadata is flagged. The model is untouched |
| `Retrieval.VectorStore.Inspect` | app/vector_store.py:98-112 | the three tests of one chunk, and its metadata flagged |
| `Retrieval.VectorStore.Query` | app/vector_store.py:135-354 | the question is rewritten as written, with `kap` tried before `kapitel`. No index: the fixed index message. Retrieval fails: the `except` branch on its error. Retrieval succeeds without a model: the fixed model message. Generation succeeds: an enhanced answer with its text and the retrieved hits. Generation fails: the `except` branch on its error. A fallback comes exactly when there is an index and a model, the direct question succeeds, and retrieval or grounded generation fails |
| `Chat.Window` | app/chatbot.py:109-111 | `history[-5:]`: the last min(n, 5) entries |
| `Chat.Converted` | app/chatbot.py:112-118 | `user` stays `user` and `assistant` becomes `model`. Any other role is dropped, and the content, `""` when missing, is the only part |
| `Chat.ChatHistoryRoles` | app/chatbot.py:109-118 | the converted history has roles `user`/`model` only, each from a matching entry, and converts every user and assistant entry |
| `Chat.ChatPrompt` | app/chatbot.py:121 | the message starts with `Context: ` + context and ends with the question |
| `Chat.SourcesFieldEmpty` | app/chatbot.py:139-145 | the `sources` field is empty exactly when the vector store returned a bare message |
| `Chat.Chatbot.constructor` | app/chatbot.py:66-79 | the chatbot gets a new vector store, with no index before an index is loaded or created, and a model exactly when the key is set |
| `Chat.Chatbot.HistoryMessages` | app/chatbot.py:98-118 | the loop converts the last five history entries |
| `Chat.Chatbot.GetResponse` | app/chatbot.py:81-153 | without a key: the apology with the missing-key error. Otherwise the chat model gets the store's answer as context and the question. Its text comes back with the store's source list, and its failure as the apology with the error. The response time is the clock difference |

## Left out

- Everything llama_index does is left out. This covers `SimpleDirectoryReader`, the `SentenceSplitter` chunking, embeddings, similarity ranking, `VectorStoreIndex`, `persist_index`, `load_or_create_index` and `refresh_index`. Chunks and retrieval results are parameters.
- Gemini, PyPDF2, the file system, HTTP requests and the clock are outside the program. Their results are parameters.
- The prompt wording is not modelled. The prompts are the `Prompt` datatype: the retrieved context with the question, or the question alone. The Swedish instructions around them are not modelled.
- Retrieval scores are floats printed with two decimals. The model carries them as already-formatted strings.
- `response_time` is the difference of two integer clock readings, not a float.
- The logging is not modelled. It also covers the key concepts, which only reach the log.
- The content-type warning in `download_from_url` is not modelled.
- The download timeout and the streamed chunking of the response are not modelled. A transfer is saved, fails with a request error, or fails otherwise.
- The Prometheus metrics (`initialize_metrics`) and the token estimate in `get_response` are not modelled.
- `Chat.Chatbot.GetResponse` computes the converted history but, like the source, never sends it: the chat is started empty.
- `VectorStore.CreateIndex` does not model the exceptions it re-raises; an error inside llama_index is outside the model.
- `Download.UrlPath` models `urlparse` for the leading strip of control characters and spaces, the deletion of tabs and line breaks, the scheme, the network location, `;params`, query and fragment only. IPv6 brackets and the scheme-character rules for unusual schemes are not modelled.
- `Download.TimestampRoundTrip` covers years 1000 to 9999, where `%Y` gives four digits.
- Character classes are ASCII digits for `\d`, and the Latin-1 word and whitespace characters for `\w` and `\s`. Case folding covers ASCII and Latin-1 only. Other Unicode letters and digits are not modelled.
- `LawDefinitions.AddDefinitions` models step 8 as written. It is not idempotent (`LawDefinitions.RerunAddsBlock`), because every block's body quotes the design-right trigger. The model keeps this behaviour.
- `main.py`, `config.py`, `tools/`, `generate_metadata_csv` and `copy_existing_text_files` are not part of this model.

## Findings

| source | as written | input that shows it | evidently intended | confidence | as-written member | corrected member |
|---|---|---|---|---|---|---|
| app/vector_store.py:144-148 | the alternation of `kap` (optional dot) and `kapitel` tries `kap` first. On `kapitel`, `kap` matches, the optional paragraph group cannot match at `itel`, and the search succeeds with no paragraph | the question `"2 kapitel 3 § ..."` is rewritten to `"2 kap. "` followed by the question, instead of `"2 kap. 3 § "` followed by the question | the chapter and paragraph numbers of a question written with `kapitel` both reach the rewritten question (try `kapitel` before `kap`) | high; not executed | `Retrieval.KapitelLosesParagraph` | `Retrieval.KapitelKeepsParagraph` |

`Retrieval.VectorStore.Query` rewrites the question as written
(`Retrieval.RewriteQuery` with the flag off), so a question written with
`kapitel` loses its paragraph number there. The corrected rewrite is
`Retrieval.RewriteQuery` with the flag on; `Retrieval.KapitelKeepsParagraph`
and `Retrieval.KapitelFirstRewrite` are proved about it. On every question
that does not contain "kapitel", the corrected and as-written rewrites agree
(`Retrieval.KapitelFirstAgrees`).

=== FILE: chat.dfy ===
/** `Chatbot.get_response`: the answer to a user question, grounded on what
    the vector store returns for it. The chat model is a parameter that
    answers a message or fails with an error message; the clock readings
    are parameters too. */
module Chat {
  import opened Outcomes
  import opened Strings
  import opened Paths
  import opened Retrieval

  /** A conversation-history entry: its `role` and `content` keys, either of
      which may be missing. */
  datatype Message = Message(role: Option<string>, content: Option<string>)

  /** A history entry in the chat model's format. */
  datatype ChatMessage = ChatMessage(role: string, parts: seq<string>)

  /** The dictionary `get_response` returns: `answer`, `sources` and
      `response_time` on success; `answer`, `error` and `response_time` on
      failure. */
  datatype Reply =
    | Answered(answer: string, sources: string, responseTime: int)
    | Failed(answer: string, error: string, responseTime: int)

  const Apology := "I'm sorry, I encountered an error processing your request."
  const NoKeyError := "Gemini API key not found in environment variables"

  /** `history[-5:]`: the last five entries, or all of them when there are
      fewer. */
  function Window(history: seq<Message>): (r: seq<Message>)
    ensures |r| == if |history| < 5 then |history| else 5
    ensures r == history[|history| - |r|..]
  {
    if |history| <= 5 then history else history[|history| - 5..]
  }

  function ValueOr(o: Option<string>, default: string): string {
    match o
    case Some(v) => v
    case None => default
  }

  /** One entry in the chat model's format: `user` stays `user`,
      `assistant` becomes `model`, any other or missing role is dropped;
      missing content is the empty string. */
  function Converted(m: Message): (r: Option<ChatMessage>)
    ensures r.Some? <==> m.role == Some("user") || m.role == Some("assistant")
    ensures r.Some? ==> r.value.parts == [ValueOr(m.content, "")]
    ensures r.Some? ==> (r.value.role == "user" <==> m.role == Some("user"))
    ensures r.Some? ==> (r.value.role == "model" <==> m.role == Some("assistant"))
  {
    var role := ValueOr(m.role, "");
    var content := ValueOr(m.content, "");
    if role == "user" then Some(ChatMessage("user", [content]))
    else if role == "assistant" then Some(ChatMessage("model", [content]))
    else None
  }

  /** The converted entries, in history order. */
  function ChatHistory(entries: seq<Message>): seq<ChatMessage> {
    Somes(Map(Converted, entries))
  }

  /** Every converted entry has role `user` or `model` and comes from an
      entry with the matching role; every `user` and `assistant` entry is
      converted. */
  lemma ChatHistoryRoles(entries: seq<Message>)
    ensures |ChatHistory(entries)| <= |entries|
    ensures forall c :: c in ChatHistory(entries) ==>
      (c.role == "user" || c.role == "model") && exists k :: 0 <= k < |entries| && Converted(entries[k]) == Some(c)
    ensures forall k :: 0 <= k < |entries| && (entries[k].role == Some("user") || entries[k].role == Some("assistant")) ==>
      Converted(entries[k]).value in ChatHistory(entries)
  {
    forall c | c in ChatHistory(entries)
      ensures (c.role == "user" || c.role == "model") && exists k :: 0 <= k < |entries| && Converted(entries[k]) == Some(c)
    {
      SomesOfMap(Converted, entries, c);
    }
  }

  /** One more entry appends its conversion, if any: the order is kept. */
  lemma ChatHistorySnoc(entries: seq<Message>, i: nat)
    requires i < |entries|
    ensures ChatHistory(entries[..i + 1]) ==
      ChatHistory(entries[..i]) + (if Converted(entries[i]).Some? then [Converted(entries[i]).value] else [])
  {
    MapSnoc(Converted, entries, i);
    SomesSnoc(Map(Converted, entries[..i]), Converted(entries[i]));
  }

  /** The message sent to the chat model. */
  function ChatPrompt(context: string, query: string): (r: string)
    ensures StartsWith(r, "Context: " + context)
    ensures EndsWith(r, "\n\nQuestion: " + query)
  {
    var r := "Context: " + context + "\n\nQuestion: " + query;
    assert r == ("Context: " + context) + ("\n\nQuestion: " + query);
    r
  }

  /** The `sources` entry of a successful reply: the vector-store answer's
      source list, or the empty string for a bare message. */
  function SourcesField(a: Answer): string {
    match FormattedSources(a)
    case Some(s) => s
    case None => ""
  }

  /** The `sources` entry is empty exactly when the vector store returned a
      bare message. */
  lemma SourcesFieldEmpty(a: Answer)
    ensures SourcesField(a) == "" <==> a.Plain?
  {
    assert |FallbackNote| > 0 && |NoSources| > 0;
  }

  class Chatbot {
    const store: VectorStore
    const apiKey: string

    /** The chatbot with its own vector store, configured from the same
        API key. */
    constructor(apiKey: string)
      ensures this.apiKey == apiKey
      ensures fresh(store) && store.index == None && store.model == (apiKey != "")
    {
      this.apiKey := apiKey;
      store := new VectorStore(apiKey);
    }

    /** The conversion `get_response` makes of the last five history
        entries. The chat is started with an empty history, so the result
        is never sent. */
    static method HistoryMessages(history: seq<Message>) returns (messages: seq<ChatMessage>)
      ensures messages == ChatHistory(Window(history))
    {
      var window := Window(history);
      messages := [];
      for i := 0 to |window|
        invariant messages == ChatHistory(window[..i])
      {
        var m := window[i];
        var role := ValueOr(m.role, "");
        var content := ValueOr(m.content, "");
        ChatHistorySnoc(window, i);
        if role == "user" {
          messages := messages + [ChatMessage("user", [content])];
        } else if role == "assistant" {
          messages := messages + [ChatMessage("model", [content])];
        }
      }
      assert window[..|window|] == window;
    }

    /** `get_response`: without an API key, the fixed apology with the
        missing-key error, and the vector store is not asked. Otherwise the
        vector store's answer is the context of the message sent to the
        chat model; the model's text is the answer and the store's source
        list the sources, or, when the model fails, the apology with its
        error. `retrieve` and `llm` are what the vector store uses, `chat`
        the chatbot's own model; `start` and `finish` are the clock
        readings. */
    method GetResponse(query: string, history: Option<seq<Message>>,
                       retrieve: string -> Result<seq<Hit>>, llm: Prompt -> Result<string>,
                       chat: string -> Result<string>, start: int, finish: int) returns (r: Reply)
      ensures r.Failed? ==> r.answer == Apology && r.responseTime == finish - start
      ensures apiKey == "" ==> r == Failed(Apology, NoKeyError, finish - start)
      ensures apiKey != "" ==>
        var answer := store.Query(query, retrieve, llm);
        var sent := chat(ChatPrompt(AnswerText(answer), query));
        && (sent.Success? ==> r == Answered(sent.value, SourcesField(answer), finish - start))
        && (sent.Failure? ==> r == Failed(Apology, sent.error, finish - start))
    {
      var entries := if history.None? then [] else history.value;
      if apiKey == "" {
        return Failed(Apology, NoKeyError, finish - start);
      }
      var answer := store.Query(query, retrieve, llm);
      var context := AnswerText(answer);
      var unsent := HistoryMessages(entries);
      var prompt := "Context: " + context + "\n\nQuestion: " + query;
      match chat(prompt)
      case Failure(e) =>
        r := Failed(Apology, e, finish - start);
      case Success(text) =>
        var sources := match FormattedSources(answer) case Some(s) => s case None => "";
        r := Answered(text, sources, finish - start);
    }
  }
}

=== FILE: download.dfy ===
/** `PDFDownloader`: the file name a download is saved under, one download,
    and the two batch entry points (a list of URLs, and a file holding one
    URL per line). The network, the disk and the clock are parameters: what a
    transfer does, the content a read of the URL file returns, and the time
    each download starts. */
module Download {
  import opened Outcomes
  import opened Strings
  import opened Paths

  // ---------------------------------------------------------------------
  // str.find, str.split and line iteration
  // ---------------------------------------------------------------------

  /** `s.find(c)`: the first occurrence of `c`. */
  function IndexOf(s: string, c: char): (r: Option<nat>)
    ensures r.Some? ==> r.value < |s| && s[r.value] == c && c !in s[..r.value]
    ensures r.None? <==> c !in s
  {
    if s == [] then None
    else if s[0] == c then Some(0)
    else
      var r := IndexOf(s[1..], c);
      if r.Some? then
        assert s[..r.value + 1] == [s[0]] + s[1..][..r.value];
        Some(r.value + 1)
      else None
  }

  /** `s.split(c, 1)[0]`: what precedes the first `c`. */
  function Before(s: string, c: char): (r: string)
    ensures c !in r
    ensures |r| <= |s| && r == s[..|r|]
    ensures c !in s ==> r == s
  {
    match IndexOf(s, c)
    case None => s
    case Some(i) => s[..i]
  }

  /** `s.split(c)`: the pieces between the occurrences of `c`. */
  function Split(s: string, c: char): (r: seq<string>)
    ensures |r| >= 1
    ensures forall k :: 0 <= k < |r| ==> c !in r[k]
    decreases |s|
  {
    match IndexOf(s, c)
    case None => [s]
    case Some(i) => [s[..i]] + Split(s[i + 1..], c)
  }

  /** Splitting and joining back with the same separator gives the text back. */
  lemma {:induction false} SplitJoin(s: string, c: char)
    ensures Join(Split(s, c), [c]) == s
    decreases |s|
  {
    match IndexOf(s, c)
    case None =>
    case Some(i) =>
      var rest := Split(s[i + 1..], c);
      SplitJoin(s[i + 1..], c);
      assert ([s[..i]] + rest)[1..] == rest;
      assert s == s[..i] + [c] + s[i + 1..];
  }

  /** Reading a file in text mode turns `\r\n` and a lone `\r` into `\n`. */
  function UniversalNewlines(s: string): (r: string)
    ensures '\r' !in r
    ensures forall k :: 0 <= k < |s| && s[k] != '\r' && s[k] != '\n' ==> s[k] in r
  {
    if s == [] then []
    else if s[0] == '\r' then
      if |s| >= 2 && s[1] == '\n' then "\n" + UniversalNewlines(s[2..]) else "\n" + UniversalNewlines(s[1..])
    else
      var rest := UniversalNewlines(s[1..]);
      assert forall k :: 1 <= k < |s| ==> s[k] == s[1..][k - 1];
      [s[0]] + rest
  }

  /** The lines a `for line in f` loop visits, without their line ends. */
  function Lines(text: string): (r: seq<string>)
    ensures forall k :: 0 <= k < |r| ==> '\n' !in r[k] && '\r' !in r[k]
  {
    var t := UniversalNewlines(text);
    var r := Split(t, '\n');
    forall k | 0 <= k < |r|
      ensures '\r' !in r[k]
    {
      SplitPiecesOf(t, '\n', k);
    }
    r
  }

  /** Every piece of a split is made of characters of the text. */
  lemma {:induction false} SplitPiecesOf(s: string, c: char, k: nat)
    requires k < |Split(s, c)|
    ensures forall x :: x in Split(s, c)[k] ==> x in s
    decreases |s|
  {
    match IndexOf(s, c)
    case None =>
    case Some(i) =>
      if k > 0 {
        SplitPiecesOf(s[i + 1..], c, k - 1);
      }
  }

  // ---------------------------------------------------------------------
  // urlparse(url).path
  // ---------------------------------------------------------------------

  predicate AsciiLetter(c: char) {
    'a' <= c <= 'z' || 'A' <= c <= 'Z'
  }

  /** A character `urlsplit` accepts in a scheme. */
  predicate SchemeChar(c: char) {
    AsciiLetter(c) || IsDigit(c) || c == '+' || c == '-' || c == '.'
  }

  /** The schemes whose last path segment may carry `;parameters`. */
  predicate UsesParams(scheme: string) {
    || scheme == "" || scheme == "ftp" || scheme == "hdl" || scheme == "prospero" || scheme == "http"
    || scheme == "imap" || scheme == "https" || scheme == "shttp" || scheme == "rtsp" || scheme == "rtspu"
    || scheme == "sip" || scheme == "sips" || scheme == "mms" || scheme == "sftp" || scheme == "tel"
    || scheme == "rtsps"
  }

  /** The scheme (lower-cased) and the rest: a scheme is a letter followed by
      scheme characters up to the first colon; otherwise there is none. */
  function SplitScheme(url: string): (string, string) {
    match IndexOf(url, ':')
    case None => ("", url)
    case Some(i) =>
      if i > 0 && AsciiLetter(url[0]) && forall k :: 0 <= k < i ==> SchemeChar(url[k])
      then (LowerStr(url[..i]), url[i + 1..])
      else ("", url)
  }

  /** The first index at or after `i` holding `/`, `?` or `#`, or `|s|`: where
      the network location ends. */
  function NetlocEnd(s: string, i: nat): (r: nat)
    requires i <= |s|
    ensures i <= r <= |s|
    ensures forall k :: i <= k < r ==> s[k] != '/' && s[k] != '?' && s[k] != '#'
    ensures r < |s| ==> s[r] == '/' || s[r] == '?' || s[r] == '#'
    decreases |s| - i
  {
    if i == |s| || s[i] == '/' || s[i] == '?' || s[i] == '#' then i else NetlocEnd(s, i + 1)
  }

  /** Cutting the `;parameters` off the last segment of a path. */
  function DropParams(p: string): (r: string)
    ensures |r| <= |p| && r == p[..|r|]
    ensures ';' !in p ==> r == p
  {
    match LastIndexOf(p, '/')
    case None => Before(p, ';')
    case Some(k) =>
      var tail := Before(p[k + 1..], ';');
      assert p[..k + 1] + tail == p[..k + 1 + |tail|];
      p[..k + 1] + tail
  }

  /** What follows the network location, when `rest` starts with `//`. */
  function AfterNetloc(rest: string): string {
    if |rest| >= 2 && rest[..2] == "//" then rest[NetlocEnd(rest, 2)..] else rest
  }

  /** The path of what follows the scheme: the network location, the
      fragment, the query and (for `scheme`s that have them) the parameters
      cut off. */
  function PathOf(scheme: string, rest: string): (r: string)
    ensures '?' !in r && '#' !in r
  {
    var path := Before(Before(AfterNetloc(rest), '#'), '?');
    if UsesParams(scheme) then
      var r := DropParams(path);
      assert forall x :: x in r ==> x in path;
      r
    else path
  }

  /** The C0 control characters and the space, which `urlsplit` strips
      from the start of a URL. */
  predicate ControlOrSpace(c: char) {
    c <= ' '
  }

  /** Tab, carriage return and line feed, which `urlsplit` deletes wherever
      they occur. */
  predicate UnsafeUrlChar(c: char) {
    c == '\t' || c == '\r' || c == '\n'
  }

  /** The first index at or after `i` that holds neither a control
      character nor a space, or `|s|`. */
  function BlanksEnd(s: string, i: nat): (r: nat)
    requires i <= |s|
    ensures i <= r <= |s|
    ensures forall k :: i <= k < r ==> ControlOrSpace(s[k])
    ensures r < |s| ==> !ControlOrSpace(s[r])
    decreases |s| - i
  {
    if i < |s| && ControlOrSpace(s[i]) then BlanksEnd(s, i + 1) else i
  }

  /** The URL without its leading control characters and spaces. */
  function LstripControls(s: string): string {
    s[BlanksEnd(s, 0)..]
  }

  /** A character as `urlsplit` keeps it: gone when it is unsafe. */
  function Kept(c: char): string {
    if UnsafeUrlChar(c) then [] else [c]
  }

  /** The URL with every tab, carriage return and line feed deleted. */
  function RemoveUnsafe(s: string): (r: string)
    ensures |r| <= |s|
    decreases |s|
  {
    if s == [] then [] else Kept(s[0]) + RemoveUnsafe(s[1..])
  }

  /** Deleting keeps exactly the characters that are not unsafe. */
  lemma {:induction false} RemoveUnsafeChars(s: string)
    ensures forall x :: x in RemoveUnsafe(s) <==> x in s && !UnsafeUrlChar(x)
    decreases |s|
  {
    if s != [] {
      RemoveUnsafeChars(s[1..]);
      assert forall x :: x in s <==> x == s[0] || x in s[1..];
    }
  }

  /** What `urlsplit` parses: the URL stripped at the start, then cleared of
      tabs and line breaks. */
  function Sanitized(url: string): string {
    RemoveUnsafe(LstripControls(url))
  }

  /** `urlparse(url).path`. */
  function UrlPath(url: string): (r: string)
    ensures '?' !in r && '#' !in r
  {
    var (scheme, rest) := SplitScheme(Sanitized(url));
    PathOf(scheme, rest)
  }

  /** Deleting tabs and line breaks from two texts in a row deletes them
      from each. */
  lemma {:induction false} RemoveUnsafeConcat(a: string, b: string)
    ensures RemoveUnsafe(a + b) == RemoveUnsafe(a) + RemoveUnsafe(b)
    decreases |a|
  {
    if a == [] {
      assert a + b == b;
    } else {
      assert (a + b)[0] == a[0] && (a + b)[1..] == a[1..] + b;
      RemoveUnsafeConcat(a[1..], b);
    }
  }

  /** A first character that is not deleted stays first. */
  lemma RemoveUnsafeHead(s: string)
    requires s != [] && !UnsafeUrlChar(s[0])
    ensures RemoveUnsafe(s) != [] && RemoveUnsafe(s)[0] == s[0]
  {
    assert Kept(s[0]) == [s[0]];
  }

  /** A text without tabs or line breaks is left as it is. */
  lemma {:induction false} RemoveUnsafeKeeps(s: string)
    requires forall k :: 0 <= k < |s| ==> !UnsafeUrlChar(s[k])
    ensures RemoveUnsafe(s) == s
    decreases |s|
  {
    if s != [] {
      RemoveUnsafeKeeps(s[1..]);
      assert [s[0]] + s[1..] == s;
    }
  }

  /** Leading control characters and spaces make no difference to the path. */
  lemma LeadingBlanksIgnored(pad: string, url: string)
    requires forall k :: 0 <= k < |pad| ==> ControlOrSpace(pad[k])
    ensures UrlPath(pad + url) == UrlPath(url)
  {
    LstripSkipsPad(pad, url);
  }

  /** Stripping skips the whole padding. */
  lemma LstripSkipsPad(pad: string, url: string)
    requires forall k :: 0 <= k < |pad| ==> ControlOrSpace(pad[k])
    ensures LstripControls(pad + url) == LstripControls(url)
  {
    var s := pad + url;
    var e := BlanksEnd(url, 0);
    forall k | 0 <= k < |pad| + e
      ensures ControlOrSpace(s[k])
    {
      if k >= |pad| {
        assert s[k] == url[k - |pad|];
      }
    }
    if |pad| + e < |s| {
      assert s[|pad| + e] == url[e];
    }
    BlanksEndIs(s, 0, |pad| + e);
    assert s[|pad| + e..] == url[e..];
  }

  /** The end of a run of control characters and spaces is where the scan
      stops. */
  lemma {:induction false} BlanksEndIs(s: string, i: nat, r: nat)
    requires i <= r <= |s|
    requires forall k :: i <= k < r ==> ControlOrSpace(s[k])
    requires r < |s| ==> !ControlOrSpace(s[r])
    ensures BlanksEnd(s, i) == r
    decreases r - i
  {
    if i < r {
      BlanksEndIs(s, i + 1, r);
    }
  }

  /** Sanitising a sanitised URL changes nothing. */
  lemma SanitizedIdempotent(url: string)
    ensures Sanitized(Sanitized(url)) == Sanitized(url)
  {
    var s := LstripControls(url);
    var c := RemoveUnsafe(s);
    if s != [] {
      assert !UnsafeUrlChar(s[0]) by {
        assert !ControlOrSpace(s[0]);
      }
      assert c == [s[0]] + RemoveUnsafe(s[1..]);
      assert BlanksEnd(c, 0) == 0;
    }
    assert LstripControls(c) == c;
    assert forall k :: 0 <= k < |c| ==> !UnsafeUrlChar(c[k]) by {
      RemoveUnsafeChars(s);
      forall k | 0 <= k < |c|
        ensures !UnsafeUrlChar(c[k])
      {
        assert c[k] in c;
      }
    }
    RemoveUnsafeKeeps(c);
  }

  /** For a URL made of `https://`, a host, a path and a query or fragment,
      the path is exactly the part written between them, without any tabs
      or line breaks. */
  lemma HttpsUrlPath(host: string, path: string, tail: string)
    requires forall k :: 0 <= k < |host| ==> host[k] != '/' && host[k] != '?' && host[k] != '#'
    requires path == [] || path[0] == '/'
    requires '?' !in path && '#' !in path && ';' !in path
    requires tail == [] || tail[0] == '?' || tail[0] == '#'
    ensures UrlPath("https://" + host + path + tail) == RemoveUnsafe(path)
  {
    var h, p, t := RemoveUnsafe(host), RemoveUnsafe(path), RemoveUnsafe(tail);
    SanitizedHttps(host, path, tail);
    assert forall k :: 0 <= k < |h| ==> h[k] != '/' && h[k] != '?' && h[k] != '#' by {
      RemoveUnsafeChars(host);
      forall k | 0 <= k < |h|
        ensures h[k] != '/' && h[k] != '?' && h[k] != '#'
      {
        assert h[k] in host;
      }
    }
    assert '?' !in p && '#' !in p && ';' !in p by {
      RemoveUnsafeChars(path);
    }
    if path != [] {
      RemoveUnsafeHead(path);
    }
    if tail != [] {
      RemoveUnsafeHead(tail);
    }
    SanitizedHttpsPath(h, p, t);
  }

  /** Sanitising an `https://` URL sanitises each of its parts. */
  lemma SanitizedHttps(host: string, path: string, tail: string)
    ensures Sanitized("https://" + host + path + tail)
            == "https://" + RemoveUnsafe(host) + RemoveUnsafe(path) + RemoveUnsafe(tail)
  {
    var a := "https://";
    var b := a + host;
    var c := b + path;
    var url := c + tail;
    assert LstripControls(url) == url by {
      assert url[0] == 'h';
    }
    assert RemoveUnsafe(url) == RemoveUnsafe(c) + RemoveUnsafe(tail) by {
      RemoveUnsafeConcat(c, tail);
    }
    assert RemoveUnsafe(c) == RemoveUnsafe(b) + RemoveUnsafe(path) by {
      RemoveUnsafeConcat(b, path);
    }
    assert RemoveUnsafe(b) == a + RemoveUnsafe(host) by {
      RemoveUnsafeConcat(a, host);
      SchemeHasNoUnsafe();
    }
  }

  /** `https://` has no character to delete. */
  lemma SchemeHasNoUnsafe()
    ensures RemoveUnsafe("https://") == "https://"
  {
    var a := "https://";
    forall k | 0 <= k < |a|
      ensures !UnsafeUrlChar(a[k])
    {
      assert ' ' < a[k];
    }
    RemoveUnsafeKeeps(a);
  }

  /** `HttpsUrlPath` once the URL is sanitised. */
  lemma SanitizedHttpsPath(host: string, path: string, tail: string)
    requires forall k :: 0 <= k < |host| ==> host[k] != '/' && host[k] != '?' && host[k] != '#'
    requires path == [] || path[0] == '/'
    requires '?' !in path && '#' !in path && ';' !in path
    requires tail == [] || tail[0] == '?' || tail[0] == '#'
    ensures var (scheme, rest) := SplitScheme("https://" + host + path + tail); PathOf(scheme, rest) == path
  {
    var after := path + tail;
    var rest := "//" + (host + after);
    HttpsScheme(host + after);
    assert "https://" + host + path + tail == "https://" + (host + after);
    assert AfterNetloc(rest) == after by {
      NetlocEndAt(rest, host, after);
      assert rest[2 + |host|..] == after;
    }
    assert PathOf("https", rest) == path by {
      QueryCut(path, tail);
      assert UsesParams("https");
    }
  }

  /** A path followed by a query or a fragment loses exactly that. */
  lemma QueryCut(path: string, tail: string)
    requires '?' !in path && '#' !in path
    requires tail == [] || tail[0] == '?' || tail[0] == '#'
    ensures Before(Before(path + tail, '#'), '?') == path
  {
    if tail == [] {
      assert path + tail == path;
    } else if tail[0] == '#' {
      BeforeAt(path, tail, '#');
    } else {
      var b := Before(tail, '#');
      BeforeAt(path, tail, '#');
      assert b != [] && b[0] == '?';
      BeforeAt(path, b, '?');
    }
  }

  /** The scheme of an `https://` URL. */
  lemma HttpsScheme(rest: string)
    ensures SplitScheme("https://" + rest) == ("https", "//" + rest)
  {
    var url := "https://" + rest;
    assert url[..6] == "https:";
    assert IndexOf(url, ':') == Some(5) by {
      assert url[5] == ':' && ':' !in url[..5];
    }
    assert url[..5] == "https";
    assert LowerStr("https") == "https";
    assert url[6..] == "//" + rest;
  }

  /** The network location of `//host/...` ends where the host does. */
  lemma NetlocEndAt(rest: string, host: string, after: string)
    requires rest == "//" + host + after
    requires forall k :: 0 <= k < |host| ==> host[k] != '/' && host[k] != '?' && host[k] != '#'
    requires after == [] || after[0] == '/' || after[0] == '?' || after[0] == '#'
    ensures NetlocEnd(rest, 2) == 2 + |host|
  {
    forall k | 2 <= k < 2 + |host|
      ensures rest[k] != '/' && rest[k] != '?' && rest[k] != '#'
    {
      assert rest[k] == host[k - 2];
    }
    if after != [] {
      assert rest[2 + |host|] == after[0];
    }
    NetlocEndIs(rest, 2, 2 + |host|);
  }

  /** The scan for the end of the network location stops at the first
      delimiter. */
  lemma {:induction false} NetlocEndIs(s: string, i: nat, e: nat)
    requires i <= e <= |s|
    requires forall k :: i <= k < e ==> s[k] != '/' && s[k] != '?' && s[k] != '#'
    requires e == |s| || s[e] == '/' || s[e] == '?' || s[e] == '#'
    ensures NetlocEnd(s, i) == e
    decreases e - i
  {
    if i < e {
      NetlocEndIs(s, i + 1, e);
    }
  }

  /** Cutting at `c` when the head has no `c`: the head survives whole. */
  lemma BeforeAt(head: string, tail: string, c: char)
    requires c !in head
    ensures Before(head + tail, c) == head + Before(tail, c)
    ensures tail != [] && tail[0] == c ==> Before(head + tail, c) == head
  {
    var s := head + tail;
    match IndexOf(tail, c)
    case None =>
      assert c !in s;
    case Some(i) =>
      assert s[|head| + i] == c;
      assert s[..|head| + i] == head + tail[..i];
      assert IndexOf(s, c) == Some(|head| + i);
  }

  // ---------------------------------------------------------------------
  // The file name
  // ---------------------------------------------------------------------

  /** `parts[k]` is the last non-empty one of `parts`. */
  predicate LastNonEmptyAt(parts: seq<string>, k: int) {
    0 <= k < |parts| && parts[k] != [] && forall j :: k < j < |parts| ==> parts[j] == []
  }

  /** Where the last non-empty part is, scanning the parts from the end. */
  function LastNonEmpty(parts: seq<string>): (r: Option<nat>)
    ensures r.None? <==> forall k :: 0 <= k < |parts| ==> parts[k] == []
    ensures r.Some? ==> LastNonEmptyAt(parts, r.value)
  {
    if parts == [] then None
    else if parts[|parts| - 1] != [] then Some(|parts| - 1)
    else
      var init := parts[..|parts| - 1];
      assert forall k :: 0 <= k < |init| ==> init[k] == parts[k];
      LastNonEmpty(init)
  }

  /** The name used when the URL path has no non-empty segment. */
  const DefaultName: string := "document.pdf"

  lemma DefaultNameShape()
    ensures DefaultName != [] && '/' !in DefaultName && EndsWith(DefaultName, ".pdf")
  {
  }

  /** The last non-empty part, or `document.pdf` when there is none. */
  function LastName(parts: seq<string>): string {
    match LastNonEmpty(parts)
    case None => DefaultName
    case Some(k) => parts[k]
  }

  /** `name` is the last non-empty part, or `document.pdf` with every part
      empty. */
  ghost predicate IsLastName(parts: seq<string>, name: string) {
    || (name == DefaultName && forall k :: 0 <= k < |parts| ==> parts[k] == [])
    || (exists k :: LastNonEmptyAt(parts, k) && parts[k] == name)
  }

  /** The name is the last non-empty part, and `document.pdf` only when
      every part is empty. */
  lemma LastNameIs(parts: seq<string>)
    ensures IsLastName(parts, LastName(parts))
  {
    match LastNonEmpty(parts)
    case None =>
    case Some(k) =>
      assert LastNonEmptyAt(parts, k) && parts[k] == LastName(parts);
  }

  /** A part list without `/` gives a non-empty name without `/`. */
  lemma LastNameNoSlash(parts: seq<string>)
    requires forall k :: 0 <= k < |parts| ==> '/' !in parts[k]
    ensures LastName(parts) != [] && '/' !in LastName(parts)
  {
    DefaultNameShape();
    match LastNonEmpty(parts)
    case None =>
    case Some(k) =>
      assert '/' !in parts[k];
  }

  /** The name taken from the URL: the last non-empty segment of its path,
      or `document.pdf` when the path has none. */
  function UrlName(url: string): (r: string)
    ensures r != [] && '/' !in r
  {
    var parts := Split(UrlPath(url), '/');
    LastNameNoSlash(parts);
    LastName(parts)
  }

  /** The URL's name is its path's last non-empty segment, and
      `document.pdf` only when every segment is empty. */
  lemma UrlNameIsLastSegment(url: string)
    ensures IsLastName(Split(UrlPath(url), '/'), UrlName(url))
  {
    LastNameIs(Split(UrlPath(url), '/'));
  }

  /** `.pdf` is appended to a name that does not already end with it. */
  function WithPdfSuffix(name: string): (r: string)
    ensures EndsWith(r, ".pdf") && StartsWith(r, name)
    ensures r == name <==> EndsWith(name, ".pdf")
    ensures |r| <= |name| + 4
  {
    if EndsWith(name, ".pdf") then name else name + ".pdf"
  }

  /** The local time a download starts, as `datetime.now()` gives it. */
  datatype DateTime = DateTime(year: nat, month: nat, day: nat, hour: nat, minute: nat, second: nat)

  /** A time every field of which is in its calendar range, with a
      four-digit year. */
  predicate InRange(t: DateTime) {
    1000 <= t.year <= 9999 && 1 <= t.month <= 12 && 1 <= t.day <= 31
    && t.hour < 24 && t.minute < 60 && t.second < 60
  }

  function Zeros(n: nat): (r: string)
    ensures |r| == n && forall k :: 0 <= k < n ==> r[k] == '0'
  {
    if n == 0 then [] else Zeros(n - 1) + "0"
  }

  /** A number written in decimal with leading zeros up to `width` digits,
      as the `strftime` directives `%Y`, `%m`, `%d`, `%H`, `%M`, `%S` do. */
  function Padded(n: nat, width: nat): (r: string)
    ensures forall k :: 0 <= k < |r| ==> IsDigit(r[k])
  {
    var digits := NatToString(n);
    if |digits| < width then Zeros(width - |digits|) + digits else digits
  }

  /** `strftime("%Y%m%d%H%M%S")`. */
  function Timestamp(t: DateTime): string {
    Padded(t.year, 4) + Padded(t.month, 2) + Padded(t.day, 2)
    + Padded(t.hour, 2) + Padded(t.minute, 2) + Padded(t.second, 2)
  }

  /** Leading zeros do not change the value. */
  lemma {:induction false} ZerosValue(z: nat, s: string)
    ensures DigitsValue(Zeros(z) + s) == DigitsValue(s)
    decreases |s|, z
  {
    if s == [] {
      if z > 0 {
        assert (Zeros(z) + s)[..z - 1] == Zeros(z - 1) + s;
        ZerosValue(z - 1, s);
      }
    } else {
      var t := Zeros(z) + s;
      assert t[..|t| - 1] == Zeros(z) + s[..|s| - 1];
      ZerosValue(z, s[..|s| - 1]);
    }
  }

  /** A number that fits in `width` digits is written in exactly `width`
      digits, and reads back as itself. */
  lemma PaddedValue(n: nat, width: nat)
    requires 1 <= width && n < Pow10(width)
    ensures |Padded(n, width)| == width
    ensures DigitsValue(Padded(n, width)) == n
  {
    var digits := NatToString(n);
    assert |digits| <= width && DigitsValue(digits) == n by {
      NatToStringValue(n, width);
    }
    if |digits| < width {
      assert Padded(n, width) == Zeros(width - |digits|) + digits;
      ZerosValue(width - |digits|, digits);
    } else {
      assert Padded(n, width) == digits;
    }
  }

  /** A time in range gives a 14-digit timestamp, and reading its fields back
      (`%Y%m%d%H%M%S` in `strptime`) recovers the time. */
  lemma TimestampRoundTrip(t: DateTime)
    requires InRange(t)
    ensures |Timestamp(t)| == 14
    ensures forall k :: 0 <= k < 14 ==> IsDigit(Timestamp(t)[k])
    ensures var s := Timestamp(t);
      DateTime(DigitsValue(s[..4]), DigitsValue(s[4..6]), DigitsValue(s[6..8]),
               DigitsValue(s[8..10]), DigitsValue(s[10..12]), DigitsValue(s[12..14])) == t
  {
    assert Pow10(2) == 100;
    assert Pow10(4) == 10000;
    PaddedValue(t.year, 4);
    PaddedValue(t.month, 2);
    PaddedValue(t.day, 2);
    PaddedValue(t.hour, 2);
    PaddedValue(t.minute, 2);
    PaddedValue(t.second, 2);
    SixFields(Padded(t.year, 4), Padded(t.month, 2), Padded(t.day, 2),
              Padded(t.hour, 2), Padded(t.minute, 2), Padded(t.second, 2));
  }

  /** Where each field of a fixed-width record of six digit fields sits. */
  lemma SixFields(a: string, b: string, c: string, d: string, e: string, f: string)
    requires |a| == 4 && |b| == 2 && |c| == 2 && |d| == 2 && |e| == 2 && |f| == 2
    requires forall k :: 0 <= k < |a| ==> IsDigit(a[k])
    requires forall k :: 0 <= k < |b| ==> IsDigit(b[k])
    requires forall k :: 0 <= k < |c| ==> IsDigit(c[k])
    requires forall k :: 0 <= k < |d| ==> IsDigit(d[k])
    requires forall k :: 0 <= k < |e| ==> IsDigit(e[k])
    requires forall k :: 0 <= k < |f| ==> IsDigit(f[k])
    ensures var s := a + b + c + d + e + f;
      && |s| == 14 && (forall k :: 0 <= k < 14 ==> IsDigit(s[k]))
      && s[..4] == a && s[4..6] == b && s[6..8] == c && s[8..10] == d && s[10..12] == e && s[12..14] == f
  {
    var s := a + b + c + d + e + f;
    forall k | 0 <= k < 14
      ensures IsDigit(s[k])
    {
      if k < 4 { assert s[k] == a[k]; }
      else if k < 6 { assert s[k] == b[k - 4]; }
      else if k < 8 { assert s[k] == c[k - 6]; }
      else if k < 10 { assert s[k] == d[k - 8]; }
      else if k < 12 { assert s[k] == e[k - 10]; }
      else { assert s[k] == f[k - 12]; }
    }
  }

  /** The name `download_from_url` makes up when it is given none: the
      timestamp, an underscore, and the URL's name with `.pdf` ensured. */
  function DerivedName(url: string, now: DateTime): string {
    Timestamp(now) + "_" + WithPdfSuffix(UrlName(url))
  }

  /** The name a download is saved under: a given non-empty name as it is,
      otherwise the derived one. */
  function FileName(url: string, filename: Option<string>, now: DateTime): string {
    if filename.Some? && filename.value != [] then filename.value else DerivedName(url, now)
  }

  /** A derived name is the timestamp, `_`, and a name without `/` ending in
      `.pdf` that is the URL's last non-empty path segment (or
      `document.pdf`), with `.pdf` appended exactly when it was missing. */
  lemma DerivedNameShape(url: string, now: DateTime)
    ensures var n := DerivedName(url, now);
      exists base ::
        && n == Timestamp(now) + "_" + base
        && EndsWith(base, ".pdf") && '/' !in base
        && (base == UrlName(url) <==> EndsWith(UrlName(url), ".pdf"))
        && (base != UrlName(url) ==> base == UrlName(url) + ".pdf")
  {
    var name := UrlName(url);
    var base := WithPdfSuffix(name);
    assert '/' !in base by {
      if base != name {
        assert base == name + ".pdf";
        assert '/' !in ".pdf";
      }
    }
    assert DerivedName(url, now) == Timestamp(now) + "_" + base;
  }

  /** A given name is used as it is: no timestamp, no `.pdf` added. */
  lemma GivenNameVerbatim(url: string, name: string, now: DateTime)
    requires name != []
    ensures FileName(url, Some(name), now) == name
    ensures FileName(url, Some(""), now) == FileName(url, None, now) == DerivedName(url, now)
  {
  }

  // ---------------------------------------------------------------------
  // Downloads
  // ---------------------------------------------------------------------

  /** What the network and the disk do with one download: the file is
      saved; the request fails (a connection error, a timeout or an HTTP
      error status, all `RequestException`s); or another exception, such as
      a failed write, escapes. */
  datatype Transfer = Saved | RequestFailed(message: string) | OtherFailure(message: string)

  /** `download_from_url`: the output path when the file is saved, `None`
      when the request fails, and the exception otherwise. */
  function UrlOutcome(outputDir: string, url: string, filename: Option<string>, now: DateTime, transfer: Transfer)
    : (r: Result<Option<string>>)
    ensures r.Failure? <==> transfer.OtherFailure?
    ensures r == Success(None) <==> transfer.RequestFailed?
    ensures r.Success? && r.value.Some? ==>
      r.value.value != [] && EndsWith(r.value.value, FileName(url, filename, now))
  {
    match transfer
    case Saved => Success(Some(JoinPath(outputDir, FileName(url, filename, now))))
    case RequestFailed(_) => Success(None)
    case OtherFailure(message) => Failure(message)
  }

  /** What the list loop keeps of one URL: the path of a saved file; a
      failed request and an escaping exception alike leave nothing. */
  function ListOutcome(outputDir: string, url: string, now: DateTime, transfer: Transfer): Option<string> {
    if transfer.Saved? then Some(JoinPath(outputDir, DerivedName(url, now))) else None
  }

  /** The outcome of every URL of the list, in order; the `k`-th download
      starts at `clock(k)` and its transfer does `net(k)`. */
  function Attempts(outputDir: string, urls: seq<string>, clock: nat -> DateTime, net: nat -> Transfer): (r: seq<Option<string>>)
    ensures |r| == |urls|
  {
    seq(|urls|, k requires 0 <= k < |urls| => ListOutcome(outputDir, urls[k], clock(k), net(k)))
  }

  lemma AttemptsSnoc(outputDir: string, urls: seq<string>, clock: nat -> DateTime, net: nat -> Transfer, i: nat)
    requires i < |urls|
    ensures Attempts(outputDir, urls[..i + 1], clock, net)
      == Attempts(outputDir, urls[..i], clock, net) + [ListOutcome(outputDir, urls[i], clock(i), net(i))]
  {
  }

  /** What `download_from_list` returns. */
  function Successes(outputDir: string, urls: seq<string>, clock: nat -> DateTime, net: nat -> Transfer): seq<string> {
    Somes(Attempts(outputDir, urls, clock, net))
  }

  /** The list's result has at most one path per URL; each is the path of a
      URL whose file was saved; and every saved file is there, whatever
      failed before or after it. */
  lemma SuccessesAre(outputDir: string, urls: seq<string>, clock: nat -> DateTime, net: nat -> Transfer)
    ensures |Successes(outputDir, urls, clock, net)| <= |urls|
    ensures forall p :: p in Successes(outputDir, urls, clock, net) ==>
      exists k :: 0 <= k < |urls| && net(k).Saved? && p == JoinPath(outputDir, DerivedName(urls[k], clock(k)))
    ensures forall k :: 0 <= k < |urls| && net(k).Saved? ==>
      JoinPath(outputDir, DerivedName(urls[k], clock(k))) in Successes(outputDir, urls, clock, net)
  {
    var os := Attempts(outputDir, urls, clock, net);
    forall p | p in Successes(outputDir, urls, clock, net)
      ensures exists k :: 0 <= k < |urls| && net(k).Saved? && p == JoinPath(outputDir, DerivedName(urls[k], clock(k)))
    {
      var k :| 0 <= k < |os| && os[k] == Some(p);
    }
    forall k | 0 <= k < |urls| && net(k).Saved?
      ensures JoinPath(outputDir, DerivedName(urls[k], clock(k))) in Successes(outputDir, urls, clock, net)
    {
      assert os[k].Some?;
    }
  }

  /** The URLs of a URL file: each line stripped, blank lines skipped. */
  function UrlLine(line: string): Option<string> {
    var url := Strip(line);
    if url != [] then Some(url) else None
  }

  /** A line that gives a URL gives its stripped, non-blank text. */
  lemma UrlLineIs(line: string, u: string)
    requires UrlLine(line) == Some(u)
    ensures u == Strip(line) && u != []
  {
  }

  /** The URLs of the lines of a URL file, in order. */
  function UrlsOf(lines: seq<string>): seq<string> {
    Somes(Map(UrlLine, lines))
  }

  /** Every URL read from the file is a non-blank line stripped, there is
      at most one per line, and no non-blank line is skipped. */
  lemma UrlsOfAre(lines: seq<string>)
    ensures |UrlsOf(lines)| <= |lines|
    ensures forall u :: u in UrlsOf(lines) ==>
      && u != []
      && (exists k :: 0 <= k < |lines| && u == Strip(lines[k]))
    ensures forall k :: 0 <= k < |lines| && Strip(lines[k]) != [] ==> Strip(lines[k]) in UrlsOf(lines)
  {
    forall u | u in UrlsOf(lines)
      ensures u != []
      ensures exists k :: 0 <= k < |lines| && u == Strip(lines[k])
    {
      SomesOfMap(UrlLine, lines, u);
      var k :| 0 <= k < |lines| && UrlLine(lines[k]) == Some(u);
      UrlLineIs(lines[k], u);
    }
    forall k | 0 <= k < |lines| && Strip(lines[k]) != []
      ensures Strip(lines[k]) in UrlsOf(lines)
    {
      assert Map(UrlLine, lines)[k] == Some(Strip(lines[k]));
    }
  }

  /** `PDFDownloader`: downloads into one output directory, the configured
      source directory when the caller names none. */
  class Downloader {
    const outputDir: string

    constructor (dir: Option<string>, configured: string)
      ensures outputDir == if dir.Some? && dir.value != [] then dir.value else configured
    {
      outputDir := if dir.Some? && dir.value != [] then dir.value else configured;
    }

    /** `download_from_url`. */
    method DownloadFromUrl(url: string, filename: Option<string>, now: DateTime, transfer: Transfer)
      returns (r: Result<Option<string>>)
      ensures r == UrlOutcome(outputDir, url, filename, now, transfer)
    {
      var name := if filename.Some? then filename.value else "";
      if name == [] {
        name := WithPdfSuffix(UrlName(url));
        name := Timestamp(now) + "_" + name;
      }
      var outputPath := JoinPath(outputDir, name);
      match transfer
      case Saved => r := Success(Some(outputPath));
      case RequestFailed(_) => r := Success(None);
      case OtherFailure(message) => r := Failure(message);
    }

    /** `download_from_list`: tries every URL in order and keeps the paths of
      the files it saved. */
    method DownloadFromList(urls: seq<string>, clock: nat -> DateTime, net: nat -> Transfer)
      returns (successful: seq<string>)
      ensures successful == Successes(outputDir, urls, clock, net)
    {
      successful := [];
      for i := 0 to |urls|
        invariant successful == Somes(Attempts(outputDir, urls[..i], clock, net))
      {
        var result := DownloadFromUrl(urls[i], None, clock(i), net(i));
        AttemptsSnoc(outputDir, urls, clock, net, i);
        SomesSnoc(Attempts(outputDir, urls[..i], clock, net), ListOutcome(outputDir, urls[i], clock(i), net(i)));
        if result.Success? && result.value.Some? && result.value.value != [] {
          successful := successful + [result.value.value];
        }
      }
      assert urls[..|urls|] == urls;
    }

    /** `download_from_file`: the URLs of the file, downloaded as a list; a
      file that cannot be read gives no downloads. */
    method DownloadFromFile(read: Option<string>, clock: nat -> DateTime, net: nat -> Transfer)
      returns (r: seq<string>)
      ensures read.None? ==> r == []
      ensures read.Some? ==> r == Successes(outputDir, UrlsOf(Lines(read.value)), clock, net)
    {
      if read.None? {
        return [];
      }
      var urls := UrlsOf(Lines(read.value));
      r := DownloadFromList(urls, clock, net);
    }
  }
}

=== FILE: law_definitions.dfy ===
/** Step 8 of the legal-text tagger (`LegalTextProcessor.preprocess_legal_text`):
    a law whose opening sentence occurs in the text gets a fixed definition
    block put in front of the text, unless that block is already there. */
module LawDefinitions {
  import opened Strings

  /** A row of `first_para_patterns` with the block it leads to: the opening
      sentence looked for and the text put in front of the document. */
  datatype Law = Law(trigger: string, block: string)

  const InventionTrigger := "Den som har gjort en uppfinning"
  const PatternTrigger := "Den som har skapat ett mönster"
  const ProductTrigger := "Den som formgivit en produkt"

  /** `--- {law_type.upper()} DEFINITION ---` */
  function Banner(name: string): (r: string)
    ensures |r| == |name| + 19
    ensures forall k :: 0 <= k < |name| ==> r[4 + k] == Upper(name[k])
  {
    "--- " + UpperStr(name) + " DEFINITION ---"
  }

  const DefinitionOpening := "(Kapitel 1, Paragraf 1) "

  /** Every block carries the first paragraph of the design protection law,
      whatever law it is for. */
  const DefinitionRest :=
    ", eller den till vilken " + "mönstret har övergått, " + "kan genom registrering få "
    + "ensamrätt till mönstret " + "enligt denna lag (mönsterrätt)." + "\n\nMönsterrätten ger "
    + "innehavaren ensamrätt att " + "yrkesmässigt utnyttja " + "mönstret enligt denna lag."

  const DefinitionBody := DefinitionOpening + PatternTrigger + DefinitionRest

  /** `first_para` for a law with this prefix and law type: a banner, the
      prefix, the definition and the banner again. */
  function Block(prefix: string, name: string): string {
    ("\n" + Banner(name) + "\n" + prefix) + DefinitionBody + ("\n" + Banner(name) + "\n\n")
  }

  const Patent := Law(InventionTrigger, Block("1 kap. 1 § PATENT: ", "patent"))
  const DesignRight := Law(PatternTrigger, Block("1 kap. 1 § MÖNSTERSKYDD: ", "mönsterskydd"))
  const ProductDesign := Law(ProductTrigger, Block("1 kap. 1 § DESIGNSKYDD: ", "designskydd"))

  /** The laws in the order the loop visits them. */
  const Laws := [Patent, DesignRight, ProductDesign]

  /** One round of the loop: the block goes in front when the law's opening
      sentence occurs and the block does not. The text is only ever prefixed,
      and afterwards the block is present whenever the sentence was. */
  function PrependDefinition(law: Law, t: string): (r: string)
    ensures EndsWith(r, t)
    ensures Contains(t, law.trigger) ==> Contains(r, law.block)
    ensures Contains(t, law.block) || !Contains(t, law.trigger) ==> r == t
    ensures Contains(t, law.trigger) && !Contains(t, law.block) ==> r == law.block + t
  {
    if Contains(t, law.trigger) && !Contains(t, law.block) then
      EndsWithPrefixed(law.block, t);
      ContainsMiddle([], law.block, t);
      assert [] + law.block + t == law.block + t;
      law.block + t
    else t
  }

  /** The loop after visiting `laws`, in order. */
  function PrependDefinitions(laws: seq<Law>, t: string): (r: string)
    ensures EndsWith(r, t)
    decreases |laws|
  {
    if laws == [] then
      EndsWithPrefixed([], t);
      assert [] + t == t;
      t
    else
      var before := PrependDefinitions(laws[..|laws| - 1], t);
      var r := PrependDefinition(laws[|laws| - 1], before);
      EndsWithTrans(r, before, t);
      r
  }

  /** Round `i` of the loop works on the text the earlier rounds produced. */
  lemma Round(laws: seq<Law>, i: nat, t: string)
    requires i < |laws|
    ensures PrependDefinitions(laws[..i + 1], t) == PrependDefinition(laws[i], PrependDefinitions(laws[..i], t))
  {
    assert laws[..i + 1][..i] == laws[..i];
  }

  /** The loop over all of `laws`. */
  lemma AllRounds(laws: seq<Law>)
    ensures laws[..|laws|] == laws
  {
  }

  /** Step 8. */
  function WithDefinitions(t: string): string {
    PrependDefinitions(Laws, t)
  }

  /** The loop of step 8 over `laws`: a block goes in front of the text for
      each law in turn whose opening sentence occurs and whose block does not. */
  method PrependAll(laws: seq<Law>, t: string) returns (r: string)
    ensures r == PrependDefinitions(laws, t)
  {
    r := t;
    for i := 0 to |laws|
      invariant r == PrependDefinitions(laws[..i], t)
    {
      var law := laws[i];
      if Contains(r, law.trigger) && !Contains(r, law.block) {
        r := law.block + r;
      }
      assert laws[..i + 1][..i] == laws[..i];
    }
    assert laws[..|laws|] == laws;
  }

  /** Step 8 as the source runs it, over the three laws. */
  method AddDefinitions(t: string) returns (r: string)
    ensures r == WithDefinitions(t)
  {
    r := PrependAll(Laws, t);
  }

  // ---------------------------------------------------------------------
  // What step 8 guarantees

  /** Every text visited later ends with the text of an earlier round. */
  lemma {:induction false} LaterRoundsPrefix(laws: seq<Law>, i: nat, t: string)
    requires i <= |laws|
    ensures EndsWith(PrependDefinitions(laws, t), PrependDefinitions(laws[..i], t))
    decreases |laws|
  {
    if i == |laws| {
      assert laws[..i] == laws;
      EndsWithPrefixed([], PrependDefinitions(laws, t));
      assert [] + PrependDefinitions(laws, t) == PrependDefinitions(laws, t);
    } else {
      var init := laws[..|laws| - 1];
      LaterRoundsPrefix(init, i, t);
      assert init[..i] == laws[..i];
      EndsWithTrans(PrependDefinitions(laws, t), PrependDefinitions(init, t), PrependDefinitions(laws[..i], t));
    }
  }

  /** The loop only puts text in front: the document itself is kept whole. */
  lemma OnlyPrefix(laws: seq<Law>, t: string)
    ensures IsSubseq(t, PrependDefinitions(laws, t))
  {
    var r := PrependDefinitions(laws, t);
    assert r == r[..|r| - |t|] + t;
    SubseqSuffix(r[..|r| - |t|], t);
  }

  /** The block of every law whose opening sentence occurs in the text is in
      the result. */
  lemma BlockPresent(laws: seq<Law>, k: nat, t: string)
    requires k < |laws| && Contains(t, laws[k].trigger)
    ensures Contains(PrependDefinitions(laws, t), laws[k].block)
  {
    var before := PrependDefinitions(laws[..k], t);
    ContainsViaSuffix(before, t, laws[k].trigger);
    assert laws[..k + 1][..k] == laws[..k];
    var after := PrependDefinitions(laws[..k + 1], t);
    assert after == PrependDefinition(laws[k], before);
    LaterRoundsPrefix(laws, k + 1, t);
    ContainsViaSuffix(PrependDefinitions(laws, t), after, laws[k].block);
  }

  /** Round `k` of the loop over `laws` puts its block in front of the text. */
  predicate Fires(laws: seq<Law>, k: nat, t: string)
    requires k < |laws|
  {
    var before := PrependDefinitions(laws[..k], t);
    Contains(before, laws[k].trigger) && !Contains(before, laws[k].block)
  }

  /** No block is put in twice: when the loop runs again on its own output, a
      law whose opening sentence was in the text its round looked at does not
      fire again. That covers every law that fired, whether the sentence came
      from the original text or from an earlier block. */
  lemma FiresOnce(laws: seq<Law>, k: nat, t: string)
    requires k < |laws| && Contains(PrependDefinitions(laws[..k], t), laws[k].trigger)
    ensures !Fires(laws, k, PrependDefinitions(laws, t))
  {
    var before := PrependDefinitions(laws[..k], t);
    assert laws[..k + 1][..k] == laws[..k];
    var after := PrependDefinitions(laws[..k + 1], t);
    assert after == PrependDefinition(laws[k], before);
    LaterRoundsPrefix(laws, k + 1, t);
    var r := PrependDefinitions(laws, t);
    ContainsViaSuffix(r, after, laws[k].block);
    ContainsViaSuffix(PrependDefinitions(laws[..k], r), r, laws[k].block);
  }

  /** A law that fired does not fire again on the loop's output. */
  lemma FiredOnce(laws: seq<Law>, k: nat, t: string)
    requires k < |laws| && Fires(laws, k, t)
    ensures !Fires(laws, k, PrependDefinitions(laws, t))
  {
    FiresOnce(laws, k, t);
  }

  /** Every block contains the opening sentence of the design protection law. */
  lemma BlockCarriesPatternTrigger(prefix: string, name: string)
    ensures Contains(Block(prefix, name), PatternTrigger)
  {
    ContainsMiddle(DefinitionOpening, PatternTrigger, DefinitionRest);
    ContainsMiddle("\n" + Banner(name) + "\n" + prefix, DefinitionBody, "\n" + Banner(name) + "\n\n");
    ContainsTrans(Block(prefix, name), DefinitionBody, PatternTrigger);
  }

  /** When an earlier law fires and its block carries a later law's opening
      sentence, the later law's block is in the result too, whether or not
      the original text had that sentence. */
  lemma ChainedBlock(laws: seq<Law>, j: nat, k: nat, t: string)
    requires j < k < |laws| && Contains(t, laws[j].trigger)
    requires Contains(laws[j].block, laws[k].trigger)
    ensures Contains(PrependDefinitions(laws, t), laws[k].block)
  {
    assert laws[..k][j] == laws[j];
    BlockPresent(laws[..k], j, t);
    var before := PrependDefinitions(laws[..k], t);
    ContainsTrans(before, laws[j].block, laws[k].trigger);
    assert laws[..k + 1][..k] == laws[..k];
    var after := PrependDefinitions(laws[..k + 1], t);
    assert after == PrependDefinition(laws[k], before);
    LaterRoundsPrefix(laws, k + 1, t);
    ContainsViaSuffix(PrependDefinitions(laws, t), after, laws[k].block);
  }

  /** Step 8 keeps the whole text and puts the block of each law whose opening
      sentence occurs in front of it, once. */
  lemma DefinitionsAdded(k: nat, t: string)
    requires k < |Laws| && Contains(t, Laws[k].trigger)
    ensures IsSubseq(t, WithDefinitions(t))
    ensures Contains(WithDefinitions(t), Laws[k].block)
    ensures !Fires(Laws, k, WithDefinitions(t))
  {
    OnlyPrefix(Laws, t);
    BlockPresent(Laws, k, t);
    ContainsViaSuffix(PrependDefinitions(Laws[..k], t), t, Laws[k].trigger);
    FiresOnce(Laws, k, t);
  }

  /** A patent text gets the MÖNSTERSKYDD block as well as the PATENT block:
      the PATENT block carries the design law's opening sentence, which the
      next round looks for. */
  lemma PatentTextGetsDesignBlock(t: string)
    requires Contains(t, InventionTrigger)
    ensures Contains(WithDefinitions(t), Patent.block)
    ensures Contains(WithDefinitions(t), DesignRight.block)
    ensures !Fires(Laws, 1, WithDefinitions(t))
  {
    BlockPresent(Laws, 0, t);
    BlockCarriesPatternTrigger("1 kap. 1 § PATENT: ", "patent");
    ChainedBlock(Laws, 0, 1, t);
    assert Laws[..1][0] == Laws[0];
    BlockPresent(Laws[..1], 0, t);
    ContainsTrans(PrependDefinitions(Laws[..1], t), Patent.block, DesignRight.trigger);
    FiresOnce(Laws, 1, t);
  }

  // ---------------------------------------------------------------------
  // Running step 8 again can still add a block

  /** A block starts with a line break, its banner and another line break,
      and its length depends on the prefix and the law type only. */
  lemma BlockShape(prefix: string, name: string)
    ensures |Block(prefix, name)| == |prefix| + 2 * |name| + 43 + |DefinitionBody|
    ensures forall j :: 0 <= j < |name| + 21 ==> Block(prefix, name)[j] == ("\n" + Banner(name) + "\n")[j]
  {
    var head := "\n" + Banner(name) + "\n";
    var front := head + prefix;
    var b := Block(prefix, name);
    assert b == front + DefinitionBody + ("\n" + Banner(name) + "\n\n");
    forall j | 0 <= j < |name| + 21
      ensures b[j] == head[j]
    {
      assert b[j] == front[j];
    }
  }

  /** The head of a block holds no capital letter beyond the `DEFINITION`
      of its banner when its law type is written in small ASCII letters. */
  lemma HeadLacks(c: char, name: string)
    requires forall k :: 0 <= k < |name| ==> 'a' <= name[k] <= 'z'
    requires !('A' <= c <= 'Z') && c !in "\n- "
    ensures c !in "\n" + Banner(name) + "\n"
  {
    assert c !in UpperStr(name);
  }

  /** The block for a law type whose second letter is `ö` cannot occur in
      a block for a law type in small ASCII letters followed by a text `t`
      when it could only start inside that block's head: its banner's
      capital `Ö` would have to fall there. */
  lemma BlockAbsent(p3: string, n3: string, p2: string, n2: string, t: string)
    requires forall k :: 0 <= k < |n3| ==> 'a' <= n3[k] <= 'z'
    requires |n2| > 1 && n2[1] == 'ö'
    requires |p3| + 2 * |n3| + |t| + 6 < |p2| + 2 * |n2| + |n3| + 21
    ensures !Contains(Block(p3, n3) + t, Block(p2, n2))
  {
    var r := Block(p3, n3) + t;
    HeadLacks('Ö', n3);
    BlockShape(p3, n3);
    BlockShape(p2, n2);
    BlockSeventhChar(p2, n2);
    forall i | 0 <= i <= |r| - |Block(p2, n2)|
      ensures !HasAt(r, i, Block(p2, n2))
    {
      assert r[i + 6] == ("\n" + Banner(n3) + "\n")[i + 6];
    }
  }

  /** The MÖNSTERSKYDD block does not occur in the DESIGNSKYDD block followed
      by the product law's opening sentence. */
  lemma DesignBlockAbsent()
    ensures !Contains(ProductDesign.block + ProductTrigger, DesignRight.block)
  {
    BlockAbsent("1 kap. 1 § DESIGNSKYDD: ", "designskydd", "1 kap. 1 § MÖNSTERSKYDD: ", "mönsterskydd", ProductTrigger);
  }

  /** The seventh character of a block is the upper case of the second
      character of its law type. */
  lemma BlockSeventhChar(prefix: string, name: string)
    requires |name| > 1
    ensures |Block(prefix, name)| > 6 && Block(prefix, name)[6] == Upper(name[1])
  {
    var b := Banner(name);
    assert b[5] == Upper(name[1]);
    assert ("\n" + b)[6] == b[5];
  }

  /** When, of three laws, only the third one's opening sentence occurs in
      the text, the loop puts that law's block in front and nothing else. */
  lemma OnlyThirdFires(laws: seq<Law>, t: string)
    requires |laws| == 3 && !Contains(t, laws[0].trigger) && !Contains(t, laws[1].trigger)
    requires Contains(t, laws[2].trigger) && !Contains(t, laws[2].block)
    ensures PrependDefinitions(laws, t) == laws[2].block + t
  {
    Round(laws, 0, t);
    Round(laws, 1, t);
    Round(laws, 2, t);
    AllRounds(laws);
  }

  /** A block is longer than its fixed parts. */
  lemma BlockLength(prefix: string, name: string)
    ensures |Block(prefix, name)| >= 43
  {
    BlockShape(prefix, name);
  }

  /** When round 1 finds its opening sentence and not its block, the loop
      lengthens the text, whatever round 0 did. */
  lemma SecondRoundLengthens(laws: seq<Law>, t: string)
    requires |laws| >= 2 && Contains(t, laws[1].trigger) && !Contains(t, laws[1].block)
    ensures |PrependDefinitions(laws, t)| > |t|
  {
    var a := PrependDefinitions(laws[..1], t);
    LaterRoundsPrefix(laws, 1, t);
    if a == t {
      Round(laws, 1, t);
      LaterRoundsPrefix(laws, 2, t);
    }
  }

  /** A text holding only the product law's opening sentence gets the
      DESIGNSKYDD block, and nothing else, from the first run. */
  lemma FirstRunOnProductText()
    ensures WithDefinitions(ProductTrigger) == ProductDesign.block + ProductTrigger
  {
    var t := ProductTrigger;
    assert !Contains(t, InventionTrigger) && !Contains(t, PatternTrigger);
    ContainsItself(t);
    BlockLength("1 kap. 1 § DESIGNSKYDD: ", "designskydd");
    OnlyThirdFires(Laws, t);
  }

  /** After the first run on the product law's opening sentence, the text
      holds the design law's opening sentence but not its block. */
  lemma DesignSentenceWithoutBlock()
    ensures Contains(ProductDesign.block + ProductTrigger, PatternTrigger)
    ensures !Contains(ProductDesign.block + ProductTrigger, DesignRight.block)
  {
    BlockCarriesPatternTrigger("1 kap. 1 § DESIGNSKYDD: ", "designskydd");
    ContainsInSuffixed(ProductDesign.block, ProductTrigger, PatternTrigger);
    DesignBlockAbsent();
  }

  /** Step 8 is not idempotent: on its own output for a text holding the
      product law's opening sentence, a second run puts in front another
      block, because the DESIGNSKYDD block carries the design law's opening
      sentence while the MÖNSTERSKYDD block is not yet there. */
  lemma RerunAddsBlock()
    ensures |WithDefinitions(WithDefinitions(ProductTrigger))| > |WithDefinitions(ProductTrigger)|
  {
    FirstRunOnProductText();
    DesignSentenceWithoutBlock();
    SecondRoundLengthens(Laws, WithDefinitions(ProductTrigger));
  }
}

=== FILE: legal_text.dfy ===
/** `LegalTextProcessor`: the eight rewriting steps applied to one text file,
    and the batch over every `.txt` file of the input directory. Reading and
    writing files are parameters: the content a read returns (or `None` when
    it fails) and whether the write succeeds. */
module LegalText {
  import opened Outcomes
  import opened Strings
  import opened Paths
  import opened Patterns
  import opened Tagger
  import opened LawDefinitions

  /** The text after steps 1 and 2, which rewrite chapter headings and
      paragraph references. */
  function Linked(s: string): string {
    LinkParagraphs(MarkChapters(s))
  }

  /** Steps 1 to 8, in the order the source applies them. */
  function Tagged(s: string): string {
    WithDefinitions(TagChapterParagraphs(MarkSubsections(RepeatTerms(LegalTerms, MarkSections(EmphasizeKeyParagraphs(Linked(s)))))))
  }

  /** Steps 3 to 8 keep every character of their input, in order. */
  lemma InsertingStepsKeepText(s: string)
    ensures IsSubseq(s, WithDefinitions(TagChapterParagraphs(MarkSubsections(RepeatTerms(LegalTerms, MarkSections(EmphasizeKeyParagraphs(s)))))))
  {
    var s3 := EmphasizeKeyParagraphs(s);
    EmphasizeKeyParagraphsInserts(s);
    var s4 := MarkSections(s3);
    MarkHeadersInserts(s3);
    SubseqTrans(s, s3, s4);
    var s5 := RepeatTerms(LegalTerms, s4);
    RepeatTermsInserts(LegalTerms, s4);
    SubseqTrans(s, s4, s5);
    var s6 := MarkSubsections(s5);
    MarkHeadersInserts(s5);
    SubseqTrans(s, s5, s6);
    var s7 := TagChapterParagraphs(s6);
    TagChaptersInserts(s6, FindAll(ChapterMarker, s6, 0));
    SubseqTrans(s, s6, s7);
    OnlyPrefix(Laws, s7);
    SubseqTrans(s, s7, WithDefinitions(s7));
  }

  /** The tagger never loses visible text: every non-whitespace character of
      the input survives, in order, in the output. */
  lemma TaggedKeepsVisibleText(s: string)
    ensures IsSubseq(NonSpace(s), NonSpace(Tagged(s)))
  {
    MarkChaptersVisible(s);
    LinkParagraphsVisible(MarkChapters(s));
    SubseqTrans(NonSpace(s), NonSpace(MarkChapters(s)), NonSpace(Linked(s)));
    InsertingStepsKeepText(Linked(s));
    NonSpaceSubseq(Linked(s), Tagged(s));
    SubseqTrans(NonSpace(s), NonSpace(Linked(s)), NonSpace(Tagged(s)));
  }

  /** The output of one successful run: where it is written and what. */
  datatype Written = Written(path: string, content: string)

  /** What `preprocess_legal_text` does with `filePath`, given the content a
      read returns and whether the write succeeds. */
  function Preprocessed(outputDir: string, filePath: string, read: Option<string>, writable: bool): (r: Option<Written>)
    ensures r.Some? <==> read.Some? && writable
    ensures r.Some? ==> r.value.path == JoinPath(outputDir, Basename(filePath))
    ensures r.Some? ==> IsSubseq(NonSpace(read.value), NonSpace(r.value.content))
  {
    if read.None? || !writable then None
    else
      TaggedKeepsVisibleText(read.value);
      Some(Written(JoinPath(outputDir, Basename(filePath)), Tagged(read.value)))
  }

  /** `preprocess_legal_text`: the output keeps the input's file name in the
      output directory, and holds the tagged text. */
  method PreprocessLegalText(outputDir: string, filePath: string, read: Option<string>, writable: bool)
    returns (r: Option<Written>)
    ensures r == Preprocessed(outputDir, filePath, read, writable)
  {
    var filename := Basename(filePath);
    var outputPath := JoinPath(outputDir, filename);
    if read.None? {
      return None;
    }
    var content := read.value;
    content := MarkChapters(content);
    content := LinkParagraphs(content);
    content := EmphasizeKeyParagraphs(content);
    content := MarkSections(content);
    content := RepeatLegalTerms(content);
    content := MarkSubsections(content);
    content := AddChapterParagraphTags(content);
    content := AddDefinitions(content);
    if !writable {
      return None;
    }
    TaggedKeepsVisibleText(read.value);
    r := Some(Written(outputPath, content));
  }

  /** The input directory as the batch sees it: the names it lists, the
      content of each readable path, and the output paths a write fails for. */
  datatype Disk = Disk(names: seq<string>, files: map<string, string>, readOnly: set<string>)

  /** Reading `path`. */
  function Read(disk: Disk, path: string): Option<string> {
    if path in disk.files then Some(disk.files[path]) else None
  }

  /** The outcome for the listed name `name`: the output path, when the
      run succeeds and the path is not empty. */
  function Outcome(inputDir: string, outputDir: string, disk: Disk, name: string): Option<string> {
    if JoinPath(inputDir, name) in disk.files && Writable(inputDir, outputDir, disk, name)
    then Some(OutputPath(inputDir, outputDir, name))
    else None
  }

  /** The outcomes of the text files of `names`, in order. */
  function FileOutcomes(inputDir: string, outputDir: string, disk: Disk, names: seq<string>): (r: seq<Option<string>>)
    ensures |r| == |names|
  {
    seq(|names|, k requires 0 <= k < |names| => Outcome(inputDir, outputDir, disk, names[k]))
  }

  /** One more file adds its outcome at the end. */
  lemma FileOutcomesSnoc(inputDir: string, outputDir: string, disk: Disk, names: seq<string>, i: nat)
    requires i < |names|
    ensures FileOutcomes(inputDir, outputDir, disk, names[..i + 1])
      == FileOutcomes(inputDir, outputDir, disk, names[..i]) + [Outcome(inputDir, outputDir, disk, names[i])]
  {
  }

  /** The paths `process_all_text_files` returns. */
  function ProcessedPaths(inputDir: string, outputDir: string, disk: Disk): seq<string> {
    Somes(FileOutcomes(inputDir, outputDir, disk, WithExtension(disk.names, ".txt")))
  }

  /** `process_all_text_files`: runs the tagger on every `.txt` file in
      listing order and collects the paths of the files it wrote. */
  method ProcessAllTextFiles(inputDir: string, outputDir: string, disk: Disk) returns (processed: seq<string>)
    ensures processed == ProcessedPaths(inputDir, outputDir, disk)
  {
    var textFiles := WithExtension(disk.names, ".txt");
    if textFiles == [] {
      return [];
    }
    processed := [];
    for i := 0 to |textFiles|
      invariant processed == Somes(FileOutcomes(inputDir, outputDir, disk, textFiles[..i]))
    {
      var inputPath := JoinPath(inputDir, textFiles[i]);
      var writable := OutputPath(inputDir, outputDir, textFiles[i]) !in disk.readOnly;
      var result := PreprocessLegalText(outputDir, inputPath, Read(disk, inputPath), writable);
      FileOutcomesSnoc(inputDir, outputDir, disk, textFiles, i);
      SomesSnoc(FileOutcomes(inputDir, outputDir, disk, textFiles[..i]), Outcome(inputDir, outputDir, disk, textFiles[i]));
      if result.Some? && result.value.path != [] {
        processed := processed + [result.value.path];
      }
    }
    assert textFiles[..|textFiles|] == textFiles;
  }

  /** Where the batch writes the output for the listed name `f`. */
  function OutputPath(inputDir: string, outputDir: string, f: string): string {
    JoinPath(outputDir, Basename(JoinPath(inputDir, f)))
  }

  /** A listed `.txt` file the batch can read. */
  predicate ReadableText(inputDir: string, disk: Disk, f: string) {
    f in disk.names && EndsWith(LowerStr(f), ".txt") && JoinPath(inputDir, f) in disk.files
  }

  /** The output path of `f` is not empty and its write succeeds. */
  predicate Writable(inputDir: string, outputDir: string, disk: Disk, f: string) {
    OutputPath(inputDir, outputDir, f) != [] && OutputPath(inputDir, outputDir, f) !in disk.readOnly
  }

  /** Every returned path is the output path of a readable `.txt` file of
      the listing, and every readable `.txt` file whose output can be written
      gets one. */
  lemma ProcessedPathsAreOutputs(inputDir: string, outputDir: string, disk: Disk)
    ensures |ProcessedPaths(inputDir, outputDir, disk)| <= |WithExtension(disk.names, ".txt")|
    ensures forall p :: p in ProcessedPaths(inputDir, outputDir, disk) ==>
      exists f :: ReadableText(inputDir, disk, f) && p == OutputPath(inputDir, outputDir, f)
    ensures forall f :: ReadableText(inputDir, disk, f) && Writable(inputDir, outputDir, disk, f) ==>
      OutputPath(inputDir, outputDir, f) in ProcessedPaths(inputDir, outputDir, disk)
  {
    forall p | p in ProcessedPaths(inputDir, outputDir, disk)
      ensures exists f :: ReadableText(inputDir, disk, f) && p == OutputPath(inputDir, outputDir, f)
    {
      ProcessedPathSource(inputDir, outputDir, disk, p);
    }
    forall f | ReadableText(inputDir, disk, f) && Writable(inputDir, outputDir, disk, f)
      ensures OutputPath(inputDir, outputDir, f) in ProcessedPaths(inputDir, outputDir, disk)
    {
      ProcessedPathPresent(inputDir, outputDir, disk, f);
    }
  }

  lemma ProcessedPathSource(inputDir: string, outputDir: string, disk: Disk, p: string)
    requires p in ProcessedPaths(inputDir, outputDir, disk)
    ensures exists f :: ReadableText(inputDir, disk, f) && p == OutputPath(inputDir, outputDir, f)
  {
    var fs := WithExtension(disk.names, ".txt");
    var os := FileOutcomes(inputDir, outputDir, disk, fs);
    assert Some(p) in os;
    var k :| 0 <= k < |os| && os[k] == Some(p);
    assert fs[k] in fs;
  }

  lemma ProcessedPathPresent(inputDir: string, outputDir: string, disk: Disk, f: string)
    requires ReadableText(inputDir, disk, f) && Writable(inputDir, outputDir, disk, f)
    ensures OutputPath(inputDir, outputDir, f) in ProcessedPaths(inputDir, outputDir, disk)
  {
    var fs := WithExtension(disk.names, ".txt");
    var os := FileOutcomes(inputDir, outputDir, disk, fs);
    assert f in fs;
    var k :| 0 <= k < |fs| && fs[k] == f;
    assert os[k] == Some(OutputPath(inputDir, outputDir, f));
    assert os[k].value in Somes(os);
  }
}

=== FILE: outcomes.dfy ===
/** Failure-carrying values used across the model: an absent value, and the
    result of a call that either returns or raises an exception. */
module Outcomes {

  datatype Option<+T> = None | Some(value: T)

  /** A call that returned `value`, or raised an exception whose `str()` is `error`. */
  datatype Result<+T> = Success(value: T) | Failure(error: string)
}

=== FILE: page_text.dfy ===
/** `PDFProcessor` (etl/extract_text.py): cleaning the text of one page,
    keeping the pages that yield text, laying the cleaned pages out in the
    output file, and the batch over every `.pdf` of the input directory.
    The PDF library and the file system are parameters: the text each page
    yields (`None` when extracting it raises), whether the file opens at
    all, and whether the output file can be written. */
module PageText {
  import opened Outcomes
  import opened Strings
  import opened Paths
  import opened Patterns

  // ---------------------------------------------------------------------
  // The cleaning passes of `preprocess_text`

  /** The replacement `" "`. */
  function OneSpace(j: nat, m: Match): string {
    " "
  }

  /** The replacement `""`. */
  function Erased(j: nat, m: Match): string {
    ""
  }

  /** The replacement `\1\2`. */
  function Rejoined(j: nat, m: Match): string {
    GroupText(m, 1) + GroupText(m, 2)
  }

  /** Every whitespace character is a plain space, and no two of them are
      next to each other. */
  predicate SingleSpaced(r: string) {
    && (forall k :: 0 <= k < |r| && IsSpace(r[k]) ==> r[k] == ' ')
    && (forall k :: 0 <= k < |r| - 1 ==> !IsSpace(r[k]) || !IsSpace(r[k + 1]))
  }

  /** A character the cleaner can output: a kept one, and among whitespace
      only the plain space. */
  predicate CleanChar(c: char) {
    Kept(c) && (IsSpace(c) ==> c == ' ')
  }

  /** `re.sub(r"\s+", " ", s)`: each run of whitespace becomes one space and
      nothing else changes. */
  function CollapseSpaces(s: string): (r: string)
    ensures NonSpace(r) == NonSpace(s)
    ensures SingleSpaced(r)
  {
    CollapseKeepsVisible(s);
    SpaceRunShape(s);
    SpacingFrom(SpaceRun, OneSpace, s, 0);
    Sub(SpaceRun, OneSpace, s)
  }

  /** What `\s+` matches: a whole run of whitespace. */
  lemma SpaceRunShape(s: string)
    ensures forall j :: 0 <= j < |s| && SpaceRun(s, j).Some? ==>
      IsSpace(s[j]) && OneSpace(j, SpaceRun(s, j).value) == " "
      && (SpaceRun(s, j).value.end == |s| || !IsSpace(s[SpaceRun(s, j).value.end]))
    ensures forall j :: 0 <= j < |s| && SpaceRun(s, j).None? ==> !IsSpace(s[j])
  {
  }

  /** The collapse keeps the visible characters exactly. */
  lemma CollapseKeepsVisible(s: string)
    ensures NonSpace(Sub(SpaceRun, OneSpace, s)) == NonSpace(s)
  {
    var r := Sub(SpaceRun, OneSpace, s);
    forall j | 0 <= j < |s| && SpaceRun(s, j).Some?
      ensures NonSpace(s[j..SpaceRun(s, j).value.end]) == []
    {
      RunSlice(Space, s, j, SpaceRun(s, j).value.end);
      NonSpaceOfBlank(s[j..SpaceRun(s, j).value.end]);
    }
    NonSpaceOfBlank(" ");
    SubInsertsVisible(SpaceRun, OneSpace, s, 0);
    SubDeletesVisible(SpaceRun, OneSpace, s, 0);
    assert s[0..] == s;
    SubseqLength(NonSpace(s), NonSpace(r));
    SubseqLength(NonSpace(r), NonSpace(s));
    SubseqSameLength(NonSpace(r), NonSpace(s));
  }

  /** A pass that puts one space in place of each match, where every match
      starts at whitespace and is followed by a non-space, and every
      unmatched character is a non-space, leaves single spaces only. */
  lemma {:induction false} SpacingFrom(p: Matcher, f: (nat, Match) -> string, s: string, i: nat)
    requires i <= |s|
    requires forall j :: i <= j < |s| && p(s, j).Some? ==>
      IsSpace(s[j]) && f(j, p(s, j).value) == " " && (p(s, j).value.end == |s| || !IsSpace(s[p(s, j).value.end]))
    requires forall j :: i <= j < |s| && p(s, j).None? ==> !IsSpace(s[j])
    ensures SingleSpaced(SubFrom(p, f, s, i))
    ensures i < |s| && !IsSpace(s[i]) ==> SubFrom(p, f, s, i) != [] && SubFrom(p, f, s, i)[0] == s[i]
    decreases |s| - i
  {
    if i < |s| {
      var r := SubFrom(p, f, s, i);
      var next := if p(s, i).Some? then p(s, i).value.end else i + 1;
      SpacingFrom(p, f, s, next);
      var rest := SubFrom(p, f, s, next);
      var c := if p(s, i).Some? then ' ' else s[i];
      assert r == [c] + rest;
      assert rest != [] ==> !IsSpace(c) || !IsSpace(rest[0]);
      forall k | 0 <= k < |r| - 1 ensures !IsSpace(r[k]) || !IsSpace(r[k + 1]) {
        if k > 0 {
          assert r[k] == rest[k - 1] && r[k + 1] == rest[k];
        }
      }
      forall k | 0 <= k < |r| && IsSpace(r[k]) ensures r[k] == ' ' {
        if k > 0 {
          assert r[k] == rest[k - 1];
        }
      }
    }
  }

  /** The two page-number removals: `"<d> | Page"` footers, then
      `"Page <d> of <d>"` footers. They only delete. */
  function DropPageNumbers(s: string): (r: string)
    ensures IsSubseq(r, s)
  {
    var s1 := Sub(PageBar, Erased, s);
    SubDeletes(PageBar, Erased, s, 0);
    SubDeletes(PageOf, Erased, s1, 0);
    assert s[0..] == s && s1[0..] == s1;
    SubseqTrans(Sub(PageOf, Erased, s1), s1, s);
    Sub(PageOf, Erased, s1)
  }

  /** `re.sub(r"^.*CONFIDENTIAL.*$", "", s, flags=re.MULTILINE)`: every line
      that mentions CONFIDENTIAL loses its text. It only deletes. */
  function DropConfidential(s: string): (r: string)
    ensures IsSubseq(r, s)
  {
    SubDeletes(ConfidentialLine, Erased, s, 0);
    assert s[0..] == s;
    Sub(ConfidentialLine, Erased, s)
  }

  /** A character as the blanking pass leaves it. */
  function Blanked(c: char): char {
    if Kept(c) then c else ' '
  }

  /** `re.sub(r'[^\w\s.,;:!?()\[\]{}\-–—\'\""]', " ", s)`: every character
      outside the kept set becomes a space, one for one. */
  function BlankDisallowed(s: string): (r: string)
    ensures |r| == |s|
    ensures forall k :: 0 <= k < |s| ==> r[k] == Blanked(s[k])
  {
    CharwiseFrom(DisallowedChar, OneSpace, s, 0, Blanked);
    Sub(DisallowedChar, OneSpace, s)
  }

  /** A pass whose matches are single characters, each replaced by its
      image under `g`, and which leaves alone only characters `g` fixes,
      maps `g` over the text. */
  lemma {:induction false} CharwiseFrom(p: Matcher, f: (nat, Match) -> string, s: string, i: nat, g: char -> char)
    requires i <= |s|
    requires forall j :: i <= j < |s| && p(s, j).Some? ==> p(s, j).value.end == j + 1 && f(j, p(s, j).value) == [g(s[j])]
    requires forall j :: i <= j < |s| && p(s, j).None? ==> g(s[j]) == s[j]
    ensures |SubFrom(p, f, s, i)| == |s| - i
    ensures forall k :: i <= k < |s| ==> SubFrom(p, f, s, i)[k - i] == g(s[k])
    decreases |s| - i
  {
    if i < |s| {
      CharwiseFrom(p, f, s, i + 1, g);
      var rest := SubFrom(p, f, s, i + 1);
      var r := SubFrom(p, f, s, i);
      assert r == [g(s[i])] + rest;
      forall k | i <= k < |s| ensures r[k - i] == g(s[k]) {
        if k > i {
          assert r[k - i] == rest[k - (i + 1)];
        }
      }
    }
  }

  /** `re.sub(r"(\w+)-\s*(\w+)", r"\1\2", s)`: the hyphen of a split word
      and the whitespace after it are dropped. It only deletes. */
  function JoinHyphenated(s: string): (r: string)
    ensures IsSubseq(r, s)
  {
    forall j | 0 <= j < |s| && HyphenSplit(s, j).Some?
      ensures IsSubseq(Rejoined(j, HyphenSplit(s, j).value), s[j..HyphenSplit(s, j).value.end])
    {
      RejoinedDeletes(s, j);
    }
    SubDeletes(HyphenSplit, Rejoined, s, 0);
    assert s[0..] == s;
    Sub(HyphenSplit, Rejoined, s)
  }

  /** The two halves of a split word are a subsequence of the match. */
  lemma RejoinedDeletes(s: string, j: nat)
    requires HyphenSplitAt(s, j).Some?
    ensures IsSubseq(Rejoined(j, HyphenSplitAt(s, j).value), s[j..HyphenSplitAt(s, j).value.end])
  {
    var w := RunEnd(Word, s, j);
    var k := RunEnd(Space, s, w + 1);
    var e := RunEnd(Word, s, k);
    assert HyphenSplitAt(s, j).value == Match(e, [s[j..e], s[j..w], s[k..e]]);
    SubseqRefl(s[j..w]);
    SubseqSuffix(s[w..k], s[k..e]);
    assert s[w..k] + s[k..e] == s[w..e];
    SubseqConcat(s[j..w], s[j..w], s[k..e], s[w..e]);
    assert s[j..w] + s[w..e] == s[j..e];
  }

  /** `preprocess_text`: nothing for a missing or empty text; otherwise the
      passes in the source's order, then `strip()`. The result has no
      whitespace at either end, its only whitespace is the plain space, and
      every character of it is a word character, a space or one of the kept
      punctuation marks. */
  function CleanPage(text: Option<string>): (r: string)
    ensures text.None? || text.value == [] ==> r == []
    ensures r == [] || (!IsSpace(r[0]) && !IsSpace(r[|r| - 1]))
    ensures forall k :: 0 <= k < |r| ==> CleanChar(r[k])
  {
    if text.None? || text.value == [] then ""
    else
      var s1 := CollapseSpaces(text.value);
      var s2 := DropPageNumbers(s1);
      var s3 := DropConfidential(s2);
      var s4 := BlankDisallowed(s3);
      var s5 := JoinHyphenated(s4);
      SubseqTrans(s3, s2, s1);
      CleanChars(s1, s3, s4, s5);
      Strip(s5)
  }

  /** Why every character left is a clean one: the collapse leaves only
      plain spaces, the deleting passes add nothing, and the blanking pass
      replaces everything outside the kept set by a space. */
  lemma CleanChars(s1: string, s3: string, s4: string, s5: string)
    requires SingleSpaced(s1) && IsSubseq(s3, s1)
    requires s4 == BlankDisallowed(s3) && IsSubseq(s5, s4)
    ensures forall c :: c in s5 ==> CleanChar(c)
  {
    forall k | 0 <= k < |s3| ensures IsSpace(s3[k]) ==> s3[k] == ' ' {
      SubseqMembers(s3, s1, k);
    }
    forall k | 0 <= k < |s4| ensures CleanChar(s4[k]) {
      assert s4[k] == Blanked(s3[k]);
    }
    forall k | 0 <= k < |s5| ensures CleanChar(s5[k]) {
      SubseqMembers(s5, s4, k);
    }
  }

  /** Cleaning never invents visible text: the non-whitespace characters of
      the result appear, in order, among those of the input. */
  lemma CleanPageKeepsOnlyInputText(text: string)
    ensures IsSubseq(NonSpace(CleanPage(Some(text))), NonSpace(text))
  {
    if text != [] {
      var s1 := CollapseSpaces(text);
      var s2 := DropPageNumbers(s1);
      var s3 := DropConfidential(s2);
      var s4 := BlankDisallowed(s3);
      var s5 := JoinHyphenated(s4);
      SubseqRefl(NonSpace(text));
      NonSpaceSubseq(s2, s1);
      NonSpaceSubseq(s3, s2);
      SubseqTrans(NonSpace(s3), NonSpace(s2), NonSpace(s1));
      BlankShowsNothingNew(s3);
      SubseqTrans(NonSpace(s4), NonSpace(s3), NonSpace(s1));
      NonSpaceSubseq(s5, s4);
      SubseqTrans(NonSpace(s5), NonSpace(s4), NonSpace(s1));
      StripSubseq(s5);
      NonSpaceSubseq(Strip(s5), s5);
      SubseqTrans(NonSpace(Strip(s5)), NonSpace(s5), NonSpace(s1));
    }
  }

  /** Blanking characters adds no visible character. */
  lemma BlankShowsNothingNew(s: string)
    ensures IsSubseq(NonSpace(BlankDisallowed(s)), NonSpace(s))
  {
    NonSpaceOfBlank(" ");
    SubDeletesVisible(DisallowedChar, OneSpace, s, 0);
    assert s[0..] == s;
  }

  // ---------------------------------------------------------------------
  // What the passes do to the texts they are written for

  /** A match of the CONFIDENTIAL pattern lies in a text that mentions it. */
  lemma ConfidentialMatchMentions(s: string, j: nat)
    requires ConfidentialLineAt(s, j).Some?
    ensures Contains(s, "CONFIDENTIAL")
  {
    var e := ConfidentialLineAt(s, j).value.end;
    ContainsAt(s, j, s[j..e]);
    ContainsTrans(s, s[j..e], "CONFIDENTIAL");
  }

  /** On a single line, the CONFIDENTIAL pass empties the whole text when
      the text mentions CONFIDENTIAL, and leaves it as it is otherwise. */
  lemma OneLineConfidential(s: string)
    requires '\n' !in s
    ensures DropConfidential(s) == if Contains(s, "CONFIDENTIAL") then "" else s
  {
    if Contains(s, "CONFIDENTIAL") {
      RunEndIs(Except('\n'), s, 0, |s|);
      assert s[0..|s|] == s;
      var m := ConfidentialLineAt(s, 0).value;
      assert m.end == |s|;
      assert SubFrom(ConfidentialLine, Erased, s, 0) == "" + SubFrom(ConfidentialLine, Erased, s, |s|);
    } else {
      forall j | 0 <= j <= |s| ensures ConfidentialLine(s, j).None? {
        if ConfidentialLine(s, j).Some? {
          ConfidentialMatchMentions(s, j);
        }
      }
      SubNoMatch(ConfidentialLine, Erased, s);
    }
  }

  /** After the collapse the page is one line, so a page whose collapsed,
      page-number-free text mentions CONFIDENTIAL cleans to nothing. */
  lemma ConfidentialPageVanishes(text: string)
    requires Contains(DropPageNumbers(CollapseSpaces(text)), "CONFIDENTIAL")
    ensures CleanPage(Some(text)) == ""
  {
    var s1 := CollapseSpaces(text);
    var s2 := DropPageNumbers(s1);
    forall k | 0 <= k < |s2| ensures s2[k] != '\n' {
      SubseqMembers(s2, s1, k);
    }
    OneLineConfidential(s2);
    assert DropConfidential(s2) == "";
    assert BlankDisallowed("") == "";
    assert JoinHyphenated("") == "";
  }

  /** Every character of `s` is in class `cl`. */
  predicate AllIn(cl: CharClass, s: string) {
    forall k :: 0 <= k < |s| ==> InClass(cl, s[k])
  }

  /** A pass whose pattern matches the whole text erases all of it. */
  lemma WholeMatchErased(p: Matcher, s: string)
    requires p(s, 0).Some? && p(s, 0).value.end == |s|
    ensures Sub(p, Erased, s) == ""
  {
    assert SubFrom(p, Erased, s, 0) == "" + SubFrom(p, Erased, s, |s|);
  }

  /** The footer pattern `\b\d+\s*\|\s*Page\b` matches a whole text made of
      digits up to `n1`, blanks up to the bar at `n2`, blanks up to `t` and
      "Page". */
  lemma BarFooterMatchesAt(s: string, n1: nat, n2: nat, t: nat)
    requires 0 < n1 <= n2 < t && t + 4 == |s|
    requires forall x :: 0 <= x < n1 ==> IsDigit(s[x])
    requires forall x :: n1 <= x < n2 ==> IsSpace(s[x])
    requires s[n2] == '|'
    requires forall x :: n2 < x < t ==> IsSpace(s[x])
    requires HasAt(s, t, "Page")
    ensures PageBarAt(s, 0).Some? && PageBarAt(s, 0).value.end == |s|
  {
    RunEndIs(Digit, s, 0, n1);
    RunEndIs(Space, s, n1, n2);
    RunEndIs(Space, s, n2 + 1, t);
  }

  lemma BarFooterMatches(d: string, g1: string, g2: string)
    requires d != [] && AllIn(Digit, d) && AllIn(Space, g1) && AllIn(Space, g2)
    ensures PageBarAt(d + g1 + "|" + g2 + "Page", 0).Some?
    ensures PageBarAt(d + g1 + "|" + g2 + "Page", 0).value.end == |d + g1 + "|" + g2 + "Page"|
  {
    var s := d + g1 + "|" + g2 + "Page";
    var n1 := |d|;
    var n2 := n1 + |g1|;
    var t := n2 + 1 + |g2|;
    assert forall x :: 0 <= x < n1 ==> s[x] == d[x];
    assert forall x :: n1 <= x < n2 ==> s[x] == g1[x - n1];
    assert forall x :: n2 < x < t ==> s[x] == g2[x - n2 - 1];
    assert s[n2] == '|' && s[t..] == "Page";
    BarFooterMatchesAt(s, n1, n2, t);
  }

  /** A `"<d> | Page"` footer disappears. */
  lemma BarFooterRemoved(d: string, g1: string, g2: string)
    requires d != [] && AllIn(Digit, d) && AllIn(Space, g1) && AllIn(Space, g2)
    ensures DropPageNumbers(d + g1 + "|" + g2 + "Page") == ""
  {
    BarFooterMatches(d, g1, g2);
    WholeMatchErased(PageBar, d + g1 + "|" + g2 + "Page");
    assert Sub(PageOf, Erased, "") == "";
  }

  /** The footer pattern `\bPage\s*\d+\s*of\s*\d+\b` matches a whole text
      made of "Page", blanks up to `k`, digits up to `d`, blanks up to `t`,
      "of", blanks up to `u` and digits. */
  lemma PageOfFooterMatchesAt(s: string, k: nat, d: nat, t: nat, u: nat)
    requires 4 <= k < d <= t && t + 2 <= u < |s|
    requires HasAt(s, 0, "Page") && HasAt(s, t, "of")
    requires forall x :: 4 <= x < k ==> IsSpace(s[x])
    requires forall x :: k <= x < d ==> IsDigit(s[x])
    requires forall x :: d <= x < t ==> IsSpace(s[x])
    requires forall x :: t + 2 <= x < u ==> IsSpace(s[x])
    requires forall x :: u <= x < |s| ==> IsDigit(s[x])
    ensures PageOfAt(s, 0).Some? && PageOfAt(s, 0).value.end == |s|
  {
    RunEndIs(Space, s, 4, k);
    RunEndIs(Digit, s, k, d);
    RunEndIs(Space, s, d, t);
    RunEndIs(Space, s, t + 2, u);
    RunEndIs(Digit, s, u, |s|);
  }

  lemma PageOfFooterMatches(g1: string, d1: string, g2: string, g3: string, d2: string)
    requires d1 != [] && d2 != [] && AllIn(Digit, d1) && AllIn(Digit, d2)
    requires AllIn(Space, g1) && AllIn(Space, g2) && AllIn(Space, g3)
    ensures PageOfAt("Page" + g1 + d1 + g2 + "of" + g3 + d2, 0).Some?
    ensures PageOfAt("Page" + g1 + d1 + g2 + "of" + g3 + d2, 0).value.end == |"Page" + g1 + d1 + g2 + "of" + g3 + d2|
  {
    var s := "Page" + g1 + d1 + g2 + "of" + g3 + d2;
    var k := 4 + |g1|;
    var d := k + |d1|;
    var t := d + |g2|;
    var u := t + 2 + |g3|;
    assert s[..4] == "Page" && s[t..t + 2] == "of";
    assert forall x :: 4 <= x < k ==> s[x] == g1[x - 4];
    assert forall x :: k <= x < d ==> s[x] == d1[x - k];
    assert forall x :: d <= x < t ==> s[x] == g2[x - d];
    assert forall x :: t + 2 <= x < u ==> s[x] == g3[x - t - 2];
    assert forall x :: u <= x < |s| ==> s[x] == d2[x - u];
    PageOfFooterMatchesAt(s, k, d, t, u);
  }

  /** The bar-footer pass leaves a text without a bar as it is. */
  lemma NoBarNoChange(s: string)
    requires '|' !in s
    ensures Sub(PageBar, Erased, s) == s
  {
    forall j | 0 <= j <= |s| ensures PageBar(s, j).None? {
      if PageBar(s, j).Some? {
        PageBarNeedsBar(s, j);
      }
    }
    SubNoMatch(PageBar, Erased, s);
  }

  /** A `"Page <d> of <d>"` footer disappears. */
  lemma PageOfFooterRemoved(g1: string, d1: string, g2: string, g3: string, d2: string)
    requires d1 != [] && d2 != [] && AllIn(Digit, d1) && AllIn(Digit, d2)
    requires AllIn(Space, g1) && AllIn(Space, g2) && AllIn(Space, g3)
    ensures DropPageNumbers("Page" + g1 + d1 + g2 + "of" + g3 + d2) == ""
  {
    var s := "Page" + g1 + d1 + g2 + "of" + g3 + d2;
    forall x | 0 <= x < |s| ensures s[x] != '|' {
      assert s[x] in "Page" || s[x] in g1 || s[x] in d1 || s[x] in g2 || s[x] in "of" || s[x] in g3 || s[x] in d2;
    }
    NoBarNoChange(s);
    PageOfFooterMatches(g1, d1, g2, g3, d2);
    WholeMatchErased(PageOf, s);
  }

  /** A `"<d> | Page"` footer needs a bar. */
  lemma PageBarNeedsBar(s: string, j: nat)
    requires PageBarAt(s, j).Some?
    ensures '|' in s
  {
    var d := RunEnd(Digit, s, j);
    var k := RunEnd(Space, s, d);
    assert s[k] == '|';
  }

  /** A word split by a hyphen and whitespace is joined back together. */
  lemma SplitWordJoined(w1: string, g: string, w2: string)
    requires w1 != [] && w2 != [] && AllIn(Word, w1) && AllIn(Word, w2) && AllIn(Space, g)
    ensures JoinHyphenated(w1 + "-" + g + w2) == w1 + w2
  {
    var s := w1 + "-" + g + w2;
    var w := |w1|;
    var k := w + 1 + |g|;
    assert forall x :: 0 <= x < w ==> s[x] == w1[x];
    assert forall x :: w + 1 <= x < k ==> s[x] == g[x - w - 1];
    assert forall x :: k <= x < |s| ==> s[x] == w2[x - k];
    assert s[w] == '-';
    RunEndIs(Word, s, 0, w);
    RunEndIs(Space, s, w + 1, k);
    RunEndIs(Word, s, k, |s|);
    assert s[0..w] == w1 && s[k..|s|] == w2;
    assert HyphenSplitAt(s, 0) == Some(Match(|s|, [s[0..|s|], w1, w2]));
    assert Sub(HyphenSplit, Rejoined, s) == w1 + w2 + SubFrom(HyphenSplit, Rejoined, s, |s|);
  }

  // ---------------------------------------------------------------------
  // extract_text_from_pdf

  /** A page's extraction result as the page loop treats it: kept when it
      produced non-empty text, skipped when it produced none or raised. */
  function Usable(x: Option<string>): Option<string> {
    if x.Some? && x.value != [] then x else None
  }

  /** The results of the pages `results`, each kept or skipped. */
  function Usables(results: seq<Option<string>>): (r: seq<Option<string>>)
    ensures |r| == |results|
  {
    seq(|results|, k requires 0 <= k < |results| => Usable(results[k]))
  }

  /** The pages `extract_text_from_pdf` returns, given what each page of the
      file yields, or `None` when the file cannot be opened or parsed. */
  function ExtractedPages(read: Option<seq<Option<string>>>): seq<string> {
    if read.None? then [] else Somes(Usables(read.value))
  }

  /** The pages kept are exactly the non-empty texts the pages yielded (in
      page order, as `Somes` keeps them), at most one per page, and none
      when the file cannot be read. */
  lemma ExtractedPagesAre(read: Option<seq<Option<string>>>)
    ensures read.None? ==> ExtractedPages(read) == []
    ensures forall p :: p in ExtractedPages(read) ==> p != [] && read.Some? && Some(p) in read.value
    ensures read.Some? ==> forall k :: 0 <= k < |read.value| && read.value[k].Some? && read.value[k].value != [] ==>
      read.value[k].value in ExtractedPages(read)
    ensures read.Some? ==> |ExtractedPages(read)| <= |read.value|
  {
    if read.Some? {
      var us := Usables(read.value);
      forall p | p in Somes(us) ensures p != [] && Some(p) in read.value {
        var k :| 0 <= k < |us| && us[k] == Some(p);
      }
      forall k | 0 <= k < |us| && read.value[k].Some? && read.value[k].value != []
        ensures read.value[k].value in Somes(us)
      {
        assert us[k] == read.value[k];
      }
    }
  }

  /** `extract_text_from_pdf`: the page loop. */
  method ExtractTextFromPdf(read: Option<seq<Option<string>>>) returns (pages: seq<string>)
    ensures pages == ExtractedPages(read)
  {
    if read.None? {
      return [];
    }
    var results := read.value;
    pages := [];
    for i := 0 to |results|
      invariant pages == Somes(Usables(results[..i]))
    {
      assert Usables(results[..i + 1]) == Usables(results[..i]) + [Usable(results[i])];
      SomesSnoc(Usables(results[..i]), Usable(results[i]));
      if results[i].Some? {
        var text := results[i].value;
        if text != [] {
          pages := pages + [text];
        }
      }
    }
    assert results[..|results|] == results;
  }

  // ---------------------------------------------------------------------
  // The output file of process_pdf

  /** What `process_pdf` writes for the page numbered `n`. */
  function PageFrame(n: nat, page: string): string {
    "--- Page " + NatToString(n) + " ---\n" + page + "\n\n"
  }

  /** The content of the output file for the cleaned `pages`. */
  function Layout(pages: seq<string>): string {
    if pages == [] then ""
    else Layout(pages[..|pages| - 1]) + PageFrame(|pages|, pages[|pages| - 1])
  }

  /** The layout of the first pages is where the layout of all pages starts. */
  lemma {:induction false} LayoutPrefix(pages: seq<string>, j: nat)
    requires j <= |pages|
    ensures |Layout(pages[..j])| <= |Layout(pages)|
    ensures Layout(pages)[..|Layout(pages[..j])|] == Layout(pages[..j])
    decreases |pages|
  {
    if j == |pages| {
      assert pages[..j] == pages;
    } else {
      var init := pages[..|pages| - 1];
      LayoutPrefix(init, j);
      assert init[..j] == pages[..j];
    }
  }

  /** Page `k` (from 0) sits, framed with the number `k + 1`, right after the
      frames of the pages before it: the pages appear in order, numbered
      from 1. */
  lemma LayoutPlacesPage(pages: seq<string>, k: nat)
    requires k < |pages|
    ensures HasAt(Layout(pages), |Layout(pages[..k])|, PageFrame(k + 1, pages[k]))
  {
    LayoutPrefix(pages, k + 1);
    var before := pages[..k + 1];
    assert before[..k] == pages[..k];
    assert Layout(before) == Layout(pages[..k]) + PageFrame(k + 1, pages[k]);
  }

  /** The layout is empty exactly when there are no pages. */
  lemma LayoutEmpty(pages: seq<string>)
    ensures Layout(pages) == [] <==> pages == []
  {
  }

  /** The write loop of `process_pdf`. */
  method WritePages(pages: seq<string>) returns (content: string)
    ensures content == Layout(pages)
  {
    content := "";
    for i := 0 to |pages|
      invariant content == Layout(pages[..i])
    {
      assert pages[..i + 1][..i] == pages[..i];
      content := content + "--- Page " + NatToString(i + 1) + " ---\n";
      content := content + pages[i];
      content := content + "\n\n";
    }
    assert pages[..|pages|] == pages;
  }

  /** The text file `process_pdf` wrote: its path and its content. */
  datatype TextFile = TextFile(path: string, content: string)

  /** Where the text of `pdfPath` is written: its base name with the
      extension replaced by `.txt`, in the output directory. */
  function TextPath(outputDir: string, pdfPath: string): (r: string)
    ensures EndsWith(r, Stem(Basename(pdfPath)) + ".txt") && EndsWith(r, ".txt")
  {
    var name := Stem(Basename(pdfPath)) + ".txt";
    var r := JoinPath(outputDir, name);
    assert r[|r| - 4..] == name[|name| - 4..];
    r
  }

  /** Every page of the file, cleaned. */
  function CleanedPages(pages: seq<string>): (r: seq<string>)
    ensures |r| == |pages|
  {
    seq(|pages|, k requires 0 <= k < |pages| => CleanPage(Some(pages[k])))
  }

  /** What `process_pdf` does: no file when no page yields text or the
      write fails; otherwise the cleaned pages, framed and numbered, at the
      text path. */
  function PdfResult(outputDir: string, pdfPath: string, read: Option<seq<Option<string>>>, writable: bool): (r: Option<TextFile>)
    ensures r.Some? <==> ExtractedPages(read) != [] && writable
    ensures r.Some? ==> r.value == TextFile(TextPath(outputDir, pdfPath), Layout(CleanedPages(ExtractedPages(read))))
  {
    var pages := ExtractedPages(read);
    if pages == [] || !writable then None
    else Some(TextFile(TextPath(outputDir, pdfPath), Layout(CleanedPages(pages))))
  }

  /** `process_pdf`. */
  method ProcessPdf(outputDir: string, pdfPath: string, read: Option<seq<Option<string>>>, writable: bool)
    returns (r: Option<TextFile>)
    ensures r == PdfResult(outputDir, pdfPath, read, writable)
  {
    var pages := ExtractTextFromPdf(read);
    if pages == [] {
      return None;
    }
    var processedPages := seq(|pages|, k requires 0 <= k < |pages| => CleanPage(Some(pages[k])));
    var pdfFilename := Basename(pdfPath);
    var txtFilename := Stem(pdfFilename) + ".txt";
    var outputPath := JoinPath(outputDir, txtFilename);
    if !writable {
      return None;
    }
    var content := WritePages(processedPages);
    r := Some(TextFile(outputPath, content));
  }

  // ---------------------------------------------------------------------
  // process_all_pdfs

  /** The input directory as the batch sees it: the names it lists, what
      the pages of each readable PDF yield, and the output paths a write
      fails for. */
  datatype PdfFolder = PdfFolder(names: seq<string>, pdfs: map<string, seq<Option<string>>>, readOnly: set<string>)

  /** Opening and parsing the PDF at `path`. */
  function Open(folder: PdfFolder, path: string): Option<seq<Option<string>>> {
    if path in folder.pdfs then Some(folder.pdfs[path]) else None
  }

  /** The outcome for the listed name `name`: the path of the text file
      written for it, if any. */
  function PdfOutcome(inputDir: string, outputDir: string, folder: PdfFolder, name: string): Option<string> {
    var pdfPath := JoinPath(inputDir, name);
    if ExtractedPages(Open(folder, pdfPath)) != [] && TextPath(outputDir, pdfPath) !in folder.readOnly
    then Some(TextPath(outputDir, pdfPath))
    else None
  }

  /** The outcomes of `names`, in order. */
  function PdfOutcomes(inputDir: string, outputDir: string, folder: PdfFolder, names: seq<string>): (r: seq<Option<string>>)
    ensures |r| == |names|
  {
    Map(OutcomeOf(inputDir, outputDir, folder), names)
  }

  /** `PdfOutcome` as a function of the name alone. */
  function OutcomeOf(inputDir: string, outputDir: string, folder: PdfFolder): string -> Option<string> {
    name => PdfOutcome(inputDir, outputDir, folder, name)
  }

  /** One more file adds its outcome at the end. */
  lemma PdfOutcomesSnoc(inputDir: string, outputDir: string, folder: PdfFolder, names: seq<string>, i: nat)
    requires i < |names|
    ensures PdfOutcomes(inputDir, outputDir, folder, names[..i + 1])
      == PdfOutcomes(inputDir, outputDir, folder, names[..i]) + [PdfOutcome(inputDir, outputDir, folder, names[i])]
  {
    MapSnoc(OutcomeOf(inputDir, outputDir, folder), names, i);
  }

  /** The paths `process_all_pdfs` returns. */
  function ProcessedPdfs(inputDir: string, outputDir: string, folder: PdfFolder): seq<string> {
    Somes(PdfOutcomes(inputDir, outputDir, folder, WithExtension(folder.names, ".pdf")))
  }

  /** `process_all_pdfs`: runs `process_pdf` on every `.pdf` of the listing,
      in order, and collects the paths of the files it wrote. */
  method ProcessAllPdfs(inputDir: string, outputDir: string, folder: PdfFolder) returns (processedFiles: seq<string>)
    ensures processedFiles == ProcessedPdfs(inputDir, outputDir, folder)
  {
    var pdfFiles := WithExtension(folder.names, ".pdf");
    if pdfFiles == [] {
      return [];
    }
    processedFiles := [];
    for i := 0 to |pdfFiles|
      invariant processedFiles == Somes(PdfOutcomes(inputDir, outputDir, folder, pdfFiles[..i]))
    {
      var pdfPath := JoinPath(inputDir, pdfFiles[i]);
      var writable := TextPath(outputDir, pdfPath) !in folder.readOnly;
      var result := ProcessPdf(outputDir, pdfPath, Open(folder, pdfPath), writable);
      PdfOutcomesSnoc(inputDir, outputDir, folder, pdfFiles, i);
      SomesSnoc(PdfOutcomes(inputDir, outputDir, folder, pdfFiles[..i]), PdfOutcome(inputDir, outputDir, folder, pdfFiles[i]));
      if result.Some? && result.value.path != [] {
        processedFiles := processedFiles + [result.value.path];
      }
    }
    assert pdfFiles[..|pdfFiles|] == pdfFiles;
  }

  /** A listed `.pdf` file with at least one page of text. */
  predicate HasText(inputDir: string, folder: PdfFolder, f: string) {
    f in folder.names && EndsWith(LowerStr(f), ".pdf") && ExtractedPages(Open(folder, JoinPath(inputDir, f))) != []
  }

  /** The text file written for the listed name `f`. */
  function PdfTextPath(inputDir: string, outputDir: string, f: string): string {
    TextPath(outputDir, JoinPath(inputDir, f))
  }

  /** At most one path per candidate, and every returned path is the text
      path of a listed `.pdf` with text. */
  lemma ProcessedPdfsAreOutputs(inputDir: string, outputDir: string, folder: PdfFolder)
    ensures |ProcessedPdfs(inputDir, outputDir, folder)| <= |WithExtension(folder.names, ".pdf")|
    ensures forall p :: p in ProcessedPdfs(inputDir, outputDir, folder) ==>
      exists f :: HasText(inputDir, folder, f) && p == PdfTextPath(inputDir, outputDir, f)
  {
    var fs := WithExtension(folder.names, ".pdf");
    var os := PdfOutcomes(inputDir, outputDir, folder, fs);
    forall p | p in ProcessedPdfs(inputDir, outputDir, folder)
      ensures exists f :: HasText(inputDir, folder, f) && p == PdfTextPath(inputDir, outputDir, f)
    {
      assert Some(p) in os;
      var k :| 0 <= k < |os| && os[k] == Some(p);
      assert fs[k] in fs;
      assert HasText(inputDir, folder, fs[k]);
    }
  }

  /** Every listed `.pdf` with text whose output can be written gets its
      text path returned. */
  lemma EveryPdfWithTextProcessed(inputDir: string, outputDir: string, folder: PdfFolder, f: string)
    requires HasText(inputDir, folder, f) && PdfTextPath(inputDir, outputDir, f) !in folder.readOnly
    ensures PdfTextPath(inputDir, outputDir, f) in ProcessedPdfs(inputDir, outputDir, folder)
  {
    var fs := WithExtension(folder.names, ".pdf");
    var os := PdfOutcomes(inputDir, outputDir, folder, fs);
    assert f in fs;
    var k :| 0 <= k < |fs| && fs[k] == f;
    assert os[k] == Some(PdfTextPath(inputDir, outputDir, f));
  }
}

=== FILE: paths.dfy ===
/** The parts of `os.path` (POSIX flavour) the batch loops use, the
    extension filter over a directory listing, and the bookkeeping of
    "successes only, in order" that every batch loop shares. */
module Paths {
  import opened Strings
  import opened Outcomes

  /** The index of the last occurrence of `c` in `s`, as `str.rfind`. */
  function LastIndexOf(s: string, c: char): (r: Option<nat>)
    ensures r.Some? ==> r.value < |s| && s[r.value] == c && c !in s[r.value + 1..]
    ensures r.None? <==> c !in s
  {
    if s == [] then None
    else if s[|s| - 1] == c then Some(|s| - 1)
    else
      var r := LastIndexOf(s[..|s| - 1], c);
      assert s == s[..|s| - 1] + [s[|s| - 1]];
      if r.Some? then
        assert s[r.value + 1..] == s[..|s| - 1][r.value + 1..] + [s[|s| - 1]];
        r
      else r
  }

  /** `os.path.basename(p)`: everything after the last `/`. */
  function Basename(p: string): (r: string)
    ensures EndsWith(p, r) && '/' !in r
    ensures r == p || p[|p| - |r| - 1] == '/'
  {
    match LastIndexOf(p, '/')
    case None => p
    case Some(k) => p[k + 1..]
  }

  /** `os.path.join(a, b)`: an absolute `b` replaces `a`; otherwise one `/`
      separates them unless `a` is empty or already ends with one. */
  function JoinPath(a: string, b: string): (r: string)
    ensures EndsWith(r, b)
    ensures StartsWith(b, "/") ==> r == b
    ensures !StartsWith(b, "/") ==> r == a + b || r == a + "/" + b
  {
    if StartsWith(b, "/") then b
    else if a == [] || a[|a| - 1] == '/' then a + b
    else a + "/" + b
  }

  /** `os.path.splitext(p)[0]`: `p` without its extension. The extension
      starts at the last `.` of the last path component, and does not exist
      when that component is only dots up to that point (".bashrc"). */
  function Stem(p: string): (r: string)
    ensures |r| <= |p| && r == p[..|r|]
    ensures r != p ==> p[|r|] == '.' && '.' !in p[|r| + 1..] && '/' !in p[|r|..]
  {
    var start := match LastIndexOf(p, '/') case None => 0 case Some(k) => k + 1;
    match LastIndexOf(p, '.')
    case None => p
    case Some(d) =>
      if start <= d && exists k :: start <= k < d && p[k] != '.' then
        assert p[d..] == p[start..][d - start..];
        p[..d]
      else p
  }

  /** The names of a directory listing whose lower-cased form ends with
      `ext`, in listing order (`[f for f in names if f.lower().endswith(ext)]`). */
  function WithExtension(names: seq<string>, ext: string): (r: seq<string>)
    ensures forall f :: f in r <==> f in names && EndsWith(LowerStr(f), ext)
    ensures IsSubseq(r, names)
  {
    if names == [] then []
    else
      var rest := WithExtension(names[1..], ext);
      if EndsWith(LowerStr(names[0]), ext) then
        assert names == [names[0]] + names[1..];
        SubseqRefl([names[0]]);
        SubseqConcat([names[0]], [names[0]], rest, names[1..]);
        [names[0]] + rest
      else
        SubseqDropHead(rest, names);
        rest
  }

  /** `[f(x) for x in xs]`. */
  function Map<A, B>(f: A -> B, xs: seq<A>): (r: seq<B>)
    ensures |r| == |xs|
    ensures forall k :: 0 <= k < |xs| ==> r[k] == f(xs[k])
  {
    seq(|xs|, k requires 0 <= k < |xs| => f(xs[k]))
  }

  /** Mapping one more element appends its image. */
  lemma MapSnoc<A, B>(f: A -> B, xs: seq<A>, i: nat)
    requires i < |xs|
    ensures Map(f, xs[..i + 1]) == Map(f, xs[..i]) + [f(xs[i])]
  {
  }

  /** The values of the successful outcomes, in order: what every batch loop
      of the pipeline returns. */
  function Somes<T>(xs: seq<Option<T>>): (r: seq<T>)
    ensures |r| <= |xs|
    ensures forall k :: 0 <= k < |xs| && xs[k].Some? ==> xs[k].value in r
    ensures forall y :: y in r ==> Some(y) in xs
  {
    if xs == [] then []
    else
      var rest := Somes(xs[1..]);
      assert forall k :: 1 <= k < |xs| ==> xs[k] == xs[1..][k - 1];
      if xs[0].Some? then [xs[0].value] + rest else rest
  }

  /** A collected value comes from an element the function maps to it. */
  lemma SomesOfMap<A, B>(f: A -> Option<B>, xs: seq<A>, y: B)
    requires y in Somes(Map(f, xs))
    ensures exists k :: 0 <= k < |xs| && f(xs[k]) == Some(y)
  {
    var os := Map(f, xs);
    var k :| 0 <= k < |os| && os[k] == Some(y);
    assert f(xs[k]) == Some(y);
  }

  /** Collecting one more outcome appends its value, if it has one. */
  lemma {:induction false} SomesSnoc<T>(xs: seq<Option<T>>, x: Option<T>)
    ensures Somes(xs + [x]) == Somes(xs) + (if x.Some? then [x.value] else [])
  {
    if xs != [] {
      assert (xs + [x])[1..] == xs[1..] + [x];
      SomesSnoc(xs[1..], x);
    } else {
      assert xs + [x] == [x];
    }
  }
}

=== FILE: patterns.dfy ===
/** The fixed regular expressions of the pipeline, each written as the
    scanner Python's `re` engine amounts to for that pattern, and the three
    ways the source applies them: `re.search`, `re.finditer`/`re.findall`
    (non-overlapping, left to right) and `re.sub` (one left-to-right pass that
    replaces each match and copies everything else).

    Every quantifier in these patterns is greedy and, for these patterns,
    backtracking into a shorter run can never produce a match the longest run
    misses, so each matcher takes maximal runs and decides. */
module Patterns {
  import opened Strings
  import opened Outcomes

  /** A match ending at `end`; `groups[0]` is the matched text and
      `groups[k]` the text of capturing group k ("" when it did not take part). */
  datatype Match = Match(end: nat, groups: seq<string>)

  /** `match.group(k)`, with "" for a group the pattern does not have. */
  function GroupText(m: Match, k: nat): string {
    if k < |m.groups| then m.groups[k] else ""
  }

  /** Python's `pattern.match(s, i)` for one pattern: the match starting
      exactly at `i`, which is never empty for the patterns used here. */
  type Matcher = m: (string, nat) -> Option<Match>
    | forall s: string, i: nat :: m(s, i).Some? ==> i < m(s, i).value.end <= |s|
    witness (s: string, i: nat) => None

  /** A matcher's answer at `i` is a match of the text from `i` on, with `n` groups. */
  predicate MatchFrom(r: Option<Match>, s: string, i: nat, n: nat) {
    r.Some? ==> i < r.value.end <= |s| && |r.value.groups| == n + 1 && r.value.groups[0] == s[i..r.value.end]
  }

  /** A non-empty literal: an alternative of a phrase list or a legal term. */
  type Phrase = s: string | s != [] witness "-"

  /** `\b` at position `k`. */
  predicate Boundary(s: string, k: nat)
    requires k <= |s|
  {
    (k > 0 && IsWord(s[k - 1])) != (k < |s| && IsWord(s[k]))
  }

  /** Position after an optional character `c` at `k`. */
  function Optional(s: string, k: nat, c: char): (r: nat)
    requires k <= |s|
    ensures r == k || (k < |s| && r == k + 1 && s[k] == c)
    ensures r <= |s|
  {
    if k < |s| && s[k] == c then k + 1 else k
  }

  /** `(\d+)\s*kap\.` at `i`: the end of the digit run and the end of the match. */
  function ChapterMarkerEnds(s: string, i: nat): (r: Option<(nat, nat)>)
    ensures r.Some? ==> i < r.value.0 < r.value.1 <= |s|
  {
    if i > |s| then None
    else
      var d := RunEnd(Digit, s, i);
      var k := RunEnd(Space, s, d);
      if i < d && HasAt(s, k, "kap.") then Some((d, k + 4)) else None
  }

  /** `(\d+)\s*§` at `i`: the end of the digit run and the end of the match. */
  function ParagraphMarkerEnds(s: string, i: nat): (r: Option<(nat, nat)>)
    ensures r.Some? ==> i < r.value.0 < r.value.1 <= |s|
  {
    if i > |s| then None
    else
      var d := RunEnd(Digit, s, i);
      var k := RunEnd(Space, s, d);
      if i < d && k < |s| && s[k] == '§' then Some((d, k + 1)) else None
  }

  /** `kap.` at `k`, in any letter case when `ci`. */
  predicate KapAt(s: string, k: nat, ci: bool) {
    if ci then HasAtIgnoreCase(s, k, "kap.") else HasAt(s, k, "kap.")
  }

  /** `N\s*kap\.\s*M\s*§` for single characters N and M, letter case as `ci` says. */
  function DigitKapDigitEnd(s: string, i: nat, n: char, m: char, ci: bool): (r: Option<nat>)
    ensures r.Some? ==> i < r.value <= |s|
  {
    if i < |s| && s[i] == n then
      var k := RunEnd(Space, s, i + 1);
      if KapAt(s, k, ci) then
        var t := RunEnd(Space, s, k + 4);
        if t < |s| && s[t] == m then
          var u := RunEnd(Space, s, t + 1);
          if u < |s| && s[u] == '§' then Some(u + 1) else None
        else None
      else None
    else None
  }

  /** The first alternative, in list order, that occurs at `i`. */
  function FirstPhraseAt(alternatives: seq<Phrase>, s: string, i: nat): (r: Option<Phrase>)
    ensures r.Some? ==> r.value in alternatives && HasAt(s, i, r.value)
    ensures r.None? <==> forall a :: a in alternatives ==> !HasAt(s, i, a)
  {
    if alternatives == [] then None
    else if HasAt(s, i, alternatives[0]) then Some(alternatives[0])
    else FirstPhraseAt(alternatives[1..], s, i)
  }

  // ---------------------------------------------------------------------
  // The patterns

  /** `(\d+)\s*kap\.\s*([^§]*)`: a chapter number and everything up to the next `§`. */
  function ChapterHeadingAt(s: string, i: nat): (r: Option<Match>)
    ensures MatchFrom(r, s, i, 2)
  {
    match ChapterMarkerEnds(s, i)
    case None => None
    case Some((d, k)) =>
      var t := RunEnd(Space, s, k);
      var e := RunEnd(Except('§'), s, t);
      Some(Match(e, [s[i..e], s[i..d], s[t..e]]))
  }

  /** `(\d+)\s*kap\.`: a chapter reference. */
  function ChapterMarkerAt(s: string, i: nat): (r: Option<Match>)
    ensures MatchFrom(r, s, i, 1)
  {
    match ChapterMarkerEnds(s, i)
    case None => None
    case Some((d, e)) => Some(Match(e, [s[i..e], s[i..d]]))
  }

  /** `(\d+)\s*§`: a paragraph reference. */
  function ParagraphMarkerAt(s: string, i: nat): (r: Option<Match>)
    ensures MatchFrom(r, s, i, 1)
  {
    match ParagraphMarkerEnds(s, i)
    case None => None
    case Some((d, e)) => Some(Match(e, [s[i..e], s[i..d]]))
  }

  /** `(N\s*kap\.\s*1\s*§)`: the first paragraph of chapter N. */
  function KeyParagraphAt(n: char, s: string, i: nat): (r: Option<Match>)
    ensures MatchFrom(r, s, i, 1)
    ensures r.Some? ==> r.value.groups[1] == r.value.groups[0]
  {
    match DigitKapDigitEnd(s, i, n, '1', false)
    case None => None
    case Some(e) => Some(Match(e, [s[i..e], s[i..e]]))
  }

  /** `(A|B|...)`: the first listed phrase that occurs here. */
  function PhrasesAt(alternatives: seq<Phrase>, s: string, i: nat): (r: Option<Match>)
    ensures MatchFrom(r, s, i, 1)
    ensures r.Some? ==> r.value.groups[1] == r.value.groups[0] && r.value.groups[0] in alternatives
  {
    match FirstPhraseAt(alternatives, s, i)
    case None => None
    case Some(a) => Some(Match(i + |a|, [a, a]))
  }

  /** `\b(term)\b` with `re.IGNORECASE`: the term as a whole word, in any letter case. */
  function WholeWordAt(term: Phrase, s: string, i: nat): (r: Option<Match>)
    ensures MatchFrom(r, s, i, 1)
    ensures r.Some? ==> r.value.groups[1] == r.value.groups[0]
  {
    if i + |term| <= |s| && Boundary(s, i) && HasAtIgnoreCase(s, i, term) && Boundary(s, i + |term|) then
      var x := s[i..i + |term|];
      Some(Match(i + |term|, [x, x]))
    else None
  }

  /** The end of the chapter word `kap\.?|kapitel` at `k`, in any letter
      case, the alternatives tried in pattern order (swapped when `kapitelFirst`). */
  function ChapterWordEnd(kapitelFirst: bool, s: string, k: nat): (r: Option<nat>)
    ensures r.Some? ==> k < r.value <= |s|
  {
    if kapitelFirst then
      (if HasAtIgnoreCase(s, k, "kapitel") then Some(k + 7)
       else if HasAtIgnoreCase(s, k, "kap") then Some(Optional(s, k + 3, '.'))
       else None)
    else
      (if HasAtIgnoreCase(s, k, "kap") then Some(Optional(s, k + 3, '.'))
       else if HasAtIgnoreCase(s, k, "kapitel") then Some(k + 7)
       else None)
  }

  /** The end of the optional `\s*(?:§|paragraf)` at `u`, in any letter case. */
  function ParagraphWordEnd(s: string, u: nat): (r: nat)
    requires u <= |s|
    ensures u <= r <= |s|
  {
    if u < |s| && s[u] == '§' then u + 1
    else if HasAtIgnoreCase(s, u, "paragraf") then u + 8
    else u
  }

  /** `(\d+)\s*(kap\.?|kapitel)\.?\s*(\d+)?\s*(?:§|paragraf)?` with
      `re.IGNORECASE`, or with the two chapter words swapped when
      `kapitelFirst`; an absent paragraph number is group 3 = "". */
  function ChapterQueryAt(kapitelFirst: bool, s: string, i: nat): (r: Option<Match>)
    ensures MatchFrom(r, s, i, 3)
  {
    if i > |s| then None
    else
      var d := RunEnd(Digit, s, i);
      var k := RunEnd(Space, s, d);
      var w := ChapterWordEnd(kapitelFirst, s, k);
      if i == d || w.None? then None
      else
        var a := Optional(s, w.value, '.');
        var t := RunEnd(Space, s, a);
        var q := RunEnd(Digit, s, t);
        var u := RunEnd(Space, s, q);
        var e := ParagraphWordEnd(s, u);
        Some(Match(e, [s[i..e], s[i..d], s[k..w.value], s[t..q]]))
  }

  /** `(\d+)\s*(?:§|paragraf)` with `re.IGNORECASE`. */
  function ParagraphQueryAt(s: string, i: nat): (r: Option<Match>)
    ensures MatchFrom(r, s, i, 1)
  {
    if i > |s| then None
    else
      var d := RunEnd(Digit, s, i);
      var k := RunEnd(Space, s, d);
      if i == d then None
      else if k < |s| && s[k] == '§' then Some(Match(k + 1, [s[i..k + 1], s[i..d]]))
      else if HasAtIgnoreCase(s, k, "paragraf") then Some(Match(k + 8, [s[i..k + 8], s[i..d]]))
      else None
  }

  /** `först(?:a)?(?:\s*kapitel|\s*kap\.?)` with `re.IGNORECASE`. */
  function FirstChapterQueryAt(s: string, i: nat): (r: Option<Match>)
    ensures MatchFrom(r, s, i, 0)
  {
    if !HasAtIgnoreCase(s, i, "först") then None
    else
      var j := if i + 5 < |s| && Lower(s[i + 5]) == 'a' then i + 6 else i + 5;
      var k := RunEnd(Space, s, j);
      if HasAtIgnoreCase(s, k, "kapitel") then Some(Match(k + 7, [s[i..k + 7]]))
      else if HasAtIgnoreCase(s, k, "kap") then
        var e := Optional(s, k + 3, '.');
        Some(Match(e, [s[i..e]]))
      else None
  }

  /** `(\d+)\s*kap\.\s*(\d+)\s*§`: a chapter and a paragraph written together. */
  function ChapterParagraphAt(s: string, i: nat): (r: Option<Match>)
    ensures MatchFrom(r, s, i, 2)
  {
    match ChapterMarkerEnds(s, i)
    case None => None
    case Some((d, k)) =>
      var t := RunEnd(Space, s, k);
      var q := RunEnd(Digit, s, t);
      var u := RunEnd(Space, s, q);
      if t < q && u < |s| && s[u] == '§' then Some(Match(u + 1, [s[i..u + 1], s[i..d], s[t..q]])) else None
  }

  /** `1\s*kap\.\s*1\s*§|ensamrätt|patenterbara` with `re.IGNORECASE`. */
  function ImportantChunkAt(s: string, i: nat): (r: Option<Match>)
    ensures MatchFrom(r, s, i, 0)
  {
    match DigitKapDigitEnd(s, i, '1', '1', true)
    case Some(e) => Some(Match(e, [s[i..e]]))
    case None =>
      if HasAtIgnoreCase(s, i, "ensamrätt") then Some(Match(i + 9, [s[i..i + 9]]))
      else if HasAtIgnoreCase(s, i, "patenterbara") then Some(Match(i + 12, [s[i..i + 12]]))
      else None
  }

  /** `\s+`. */
  function SpaceRunAt(s: string, i: nat): (r: Option<Match>)
    ensures MatchFrom(r, s, i, 0)
  {
    if i > |s| then None
    else
      var e := RunEnd(Space, s, i);
      if i < e then Some(Match(e, [s[i..e]])) else None
  }

  /** `\b\d+\s*\|\s*Page\b`: a "12 | Page" footer. */
  function PageBarAt(s: string, i: nat): (r: Option<Match>)
    ensures MatchFrom(r, s, i, 0)
  {
    if i > |s| then None
    else
      var d := RunEnd(Digit, s, i);
      var k := RunEnd(Space, s, d);
      if Boundary(s, i) && i < d && k < |s| && s[k] == '|' then
        var t := RunEnd(Space, s, k + 1);
        if HasAt(s, t, "Page") && Boundary(s, t + 4) then Some(Match(t + 4, [s[i..t + 4]])) else None
      else None
  }

  /** `\bPage\s*\d+\s*of\s*\d+\b`: a "Page 3 of 9" footer. */
  function PageOfAt(s: string, i: nat): (r: Option<Match>)
    ensures MatchFrom(r, s, i, 0)
  {
    if i <= |s| && Boundary(s, i) && HasAt(s, i, "Page") then
      var k := RunEnd(Space, s, i + 4);
      var d := RunEnd(Digit, s, k);
      var t := RunEnd(Space, s, d);
      if k < d && HasAt(s, t, "of") then
        var u := RunEnd(Space, s, t + 2);
        var e := RunEnd(Digit, s, u);
        if u < e && Boundary(s, e) then Some(Match(e, [s[i..e]])) else None
      else None
    else None
  }

  /** `^.*CONFIDENTIAL.*$` with `re.MULTILINE`: a whole line (without its
      newline) that mentions CONFIDENTIAL. */
  function ConfidentialLineAt(s: string, i: nat): (r: Option<Match>)
    ensures MatchFrom(r, s, i, 0)
  {
    if i > |s| then None
    else
      var e := RunEnd(Except('\n'), s, i);
      if (i == 0 || s[i - 1] == '\n') && Contains(s[i..e], "CONFIDENTIAL") then
        assert i < e by {
          var j :| 0 <= j <= |s[i..e]| - 12 && HasAt(s[i..e], j, "CONFIDENTIAL");
        }
        Some(Match(e, [s[i..e]]))
      else None
  }

  /** Characters that the page cleaner keeps as they are. */
  predicate Kept(c: char) {
    || IsWord(c) || IsSpace(c)
    || c == '.' || c == ',' || c == ';' || c == ':' || c == '!' || c == '?'
    || c == '(' || c == ')' || c == '[' || c == ']' || c == '{' || c == '}'
    || c == '-' || c == '–' || c == '—' || c == '\'' || c == '"'
  }

  /** `[^\w\s.,;:!?()\[\]{}\-–—'"]`: one character outside the kept set. */
  function DisallowedCharAt(s: string, i: nat): (r: Option<Match>)
    ensures MatchFrom(r, s, i, 0)
  {
    if i < |s| && !Kept(s[i]) then Some(Match(i + 1, [s[i..i + 1]])) else None
  }

  /** `(\w+)-\s*(\w+)`: a word broken by a hyphen. */
  function HyphenSplitAt(s: string, i: nat): (r: Option<Match>)
    ensures MatchFrom(r, s, i, 2)
  {
    if i > |s| then None
    else
      var w := RunEnd(Word, s, i);
      if i < w && w < |s| && s[w] == '-' then
        var k := RunEnd(Space, s, w + 1);
        var e := RunEnd(Word, s, k);
        if k < e then Some(Match(e, [s[i..e], s[i..w], s[k..e]])) else None
      else None
  }

  // ---------------------------------------------------------------------
  // What the chapter and paragraph patterns match

  /** The visible part of "digits, blanks, a word, blanks, rest". */
  lemma VisibleParts(digits: string, gap1: string, word: string, gap2: string, rest: string)
    requires forall k :: 0 <= k < |digits| ==> IsDigit(digits[k])
    requires forall k :: 0 <= k < |word| ==> !IsSpace(word[k])
    requires forall k :: 0 <= k < |gap1| ==> IsSpace(gap1[k])
    requires forall k :: 0 <= k < |gap2| ==> IsSpace(gap2[k])
    ensures NonSpace(digits + gap1 + word + gap2 + rest) == digits + word + NonSpace(rest)
  {
    var a := digits + gap1;
    var b := a + word;
    var c := b + gap2;
    NonSpaceOfVisible(digits);
    NonSpaceOfBlank(gap1);
    NonSpaceConcat(digits, gap1);
    assert NonSpace(a) == digits;
    NonSpaceOfVisible(word);
    NonSpaceConcat(a, word);
    assert NonSpace(b) == digits + word;
    NonSpaceOfBlank(gap2);
    NonSpaceConcat(b, gap2);
    assert NonSpace(c) == digits + word;
    NonSpaceConcat(c, rest);
  }

  /** `(\d+)\s*kap\.\s*([^§]*)` matches a whole chapter number, `kap.` and
      the rest of the text up to (not including) the next `§`; apart from
      whitespace, the match is the number, `kap.` and that rest. */
  lemma ChapterHeadingShape(s: string, i: nat)
    requires ChapterHeadingAt(s, i).Some?
    ensures var m := ChapterHeadingAt(s, i).value;
      && m.groups[1] != [] && (forall k :: 0 <= k < |m.groups[1]| ==> IsDigit(m.groups[1][k]))
      && '§' !in m.groups[2]
      && (m.end == |s| || s[m.end] == '§')
      && NonSpace(m.groups[0]) == m.groups[1] + "kap." + NonSpace(m.groups[2])
  {
    var ends := ChapterMarkerEnds(s, i).value;
    var d, c := ends.0, ends.1;
    var t := RunEnd(Space, s, c);
    var e := RunEnd(Except('§'), s, t);
    assert ChapterHeadingAt(s, i).value == Match(e, [s[i..e], s[i..d], s[t..e]]);
    assert ChapterMarkerAt(s, i).value == Match(c, [s[i..c], s[i..d]]);
    ChapterMarkerShape(s, i);
    var rest := s[t..e];
    RunSlice(Except('§'), s, t, e);
    var gap := s[c..t];
    RunSlice(Space, s, c, t);
    SliceThree(s, i, c, t, e);
    NonSpaceSkipsBlank(s[i..c], gap, rest);
  }

  /** A chapter reference ends with the dot of `kap.`. */
  lemma ChapterMarkerEndsWithDot(s: string, i: nat)
    requires ChapterMarkerAt(s, i).Some?
    ensures s[ChapterMarkerAt(s, i).value.end - 1] == '.'
  {
    var k := RunEnd(Space, s, RunEnd(Digit, s, i));
    assert s[k..k + 4] == "kap.";
    assert s[k + 3] == "kap."[3];
  }

  /** `(\d+)\s*kap\.` matches a number followed by `kap.`, apart from whitespace. */
  lemma ChapterMarkerShape(s: string, i: nat)
    requires ChapterMarkerAt(s, i).Some?
    ensures var m := ChapterMarkerAt(s, i).value;
      && m.groups[1] != [] && (forall k :: 0 <= k < |m.groups[1]| ==> IsDigit(m.groups[1][k]))
      && s[m.end - 1] == '.'
      && NonSpace(m.groups[0]) == m.groups[1] + "kap."
  {
    var d := RunEnd(Digit, s, i);
    var k := RunEnd(Space, s, d);
    assert ChapterMarkerAt(s, i).value == Match(k + 4, [s[i..k + 4], s[i..d]]);
    assert s[k..k + 4] == "kap.";
    assert s[k + 3] == "kap."[3];
    assert s[i..k + 4] == s[i..d] + s[d..k] + "kap." + [] + [];
    VisibleParts(s[i..d], s[d..k], "kap.", [], []);
  }

  /** A chapter reference found after a digit extends to that digit: the
      pattern never matches the tail of a longer number on its own. */
  lemma ChapterMarkerExtends(s: string, j: nat)
    requires 0 < j && j - 1 < |s| && IsDigit(s[j - 1]) && ChapterMarkerAt(s, j).Some?
    ensures ChapterMarkerAt(s, j - 1).Some?
    ensures ChapterMarkerAt(s, j - 1).value.end == ChapterMarkerAt(s, j).value.end
  {
  }

  /** Inside a chapter reference, no other chapter reference starts except
      within its number. */
  lemma ChapterMarkerInside(s: string, j: nat, k: nat)
    requires ChapterMarkerAt(s, j).Some? && j < k < ChapterMarkerAt(s, j).value.end
    requires ChapterMarkerAt(s, k).Some?
    ensures IsDigit(s[k - 1])
  {
    var d := RunEnd(Digit, s, j);
    var n := RunEnd(Space, s, d);
    assert s[n..n + 4] == "kap.";
  }

  /** `(\d+)\s*§` matches a whole number followed by `§`, apart from whitespace. */
  lemma ParagraphMarkerShape(s: string, i: nat)
    requires ParagraphMarkerAt(s, i).Some?
    ensures var m := ParagraphMarkerAt(s, i).value;
      && m.groups[1] != [] && (forall k :: 0 <= k < |m.groups[1]| ==> IsDigit(m.groups[1][k]))
      && NonSpace(m.groups[0]) == m.groups[1] + "§"
  {
    var d := RunEnd(Digit, s, i);
    var k := RunEnd(Space, s, d);
    assert ParagraphMarkerAt(s, i).value == Match(k + 1, [s[i..k + 1], s[i..d]]);
    assert s[i..k + 1] == s[i..d] + s[d..k] + "§" + [] + [];
    VisibleParts(s[i..d], s[d..k], "§", [], []);
  }

  /** The patterns that start with `\d` never match a text without digits. */
  lemma NoDigitNoMatch(s: string, j: nat, n: char)
    requires forall k :: 0 <= k < |s| ==> !IsDigit(s[k])
    requires IsDigit(n)
    ensures ChapterHeadingAt(s, j).None? && ChapterMarkerAt(s, j).None?
    ensures ParagraphMarkerAt(s, j).None? && KeyParagraphAt(n, s, j).None?
  {
    if j < |s| {
      assert RunEnd(Digit, s, j) == j;
    }
  }

  /** A phrase list never matches a text that has none of the phrases' first
      characters. */
  lemma NoInitialNoMatch(alternatives: seq<Phrase>, s: string, j: nat)
    requires forall a :: a in alternatives ==> a[0] !in s
    ensures PhrasesAt(alternatives, s, j).None?
  {
    forall a | a in alternatives ensures !HasAt(s, j, a) {
    }
  }

  // ---------------------------------------------------------------------
  // What the key-paragraph, whole-word, first-chapter and important-chunk
  // patterns accept

  /** `s[a..b]` is whitespace only: one way for `\s*` to match from `a` to `b`. */
  predicate SpacesBetween(s: string, a: nat, b: nat) {
    a <= b <= |s| && forall k :: a <= k < b ==> IsSpace(s[k])
  }

  /** The text at `i` reads `N\s*kap\.\s*M\s*§` with `N` at `i`, `kap.` at
      `k` (in any letter case when `ci`), `M` at `t` and `§` at `u`. */
  predicate KapLayout(s: string, i: nat, n: char, m: char, ci: bool, k: nat, t: nat, u: nat) {
    && i < |s| && s[i] == n && SpacesBetween(s, i + 1, k)
    && KapAt(s, k, ci)
    && SpacesBetween(s, k + 4, t) && t < |s| && s[t] == m
    && SpacesBetween(s, t + 1, u) && u < |s| && s[u] == '§'
  }

  /** A whitespace run that stops at a character that is not whitespace
      is the whole run. */
  lemma SpacesUpTo(s: string, a: nat, b: nat)
    requires SpacesBetween(s, a, b) && b < |s| && !IsSpace(s[b])
    ensures RunEnd(Space, s, a) == b
  {
    RunEndIs(Space, s, a, b);
  }

  /** A `kap.` in any letter case starts with a character that is not whitespace. */
  lemma KapNotSpace(s: string, k: nat, ci: bool)
    requires KapAt(s, k, ci)
    ensures k < |s| && !IsSpace(s[k])
  {
    if ci {
      assert Lower(s[k + 0]) == Lower("kap."[0]);
    } else {
      assert s[k..k + 4][0] == s[k];
    }
  }

  /** Every `N\s*kap\.\s*M\s*§` layout at `i` is the one the scan finds. */
  lemma LayoutScanned(s: string, i: nat, n: char, m: char, ci: bool, k: nat, t: nat, u: nat)
    requires !IsSpace(m) && KapLayout(s, i, n, m, ci, k, t, u)
    ensures DigitKapDigitEnd(s, i, n, m, ci) == Some(u + 1)
  {
    KapNotSpace(s, k, ci);
    SpacesUpTo(s, i + 1, k);
    SpacesUpTo(s, k + 4, t);
    SpacesUpTo(s, t + 1, u);
    ScanSteps(s, i, n, m, ci, k, t, u);
  }

  /** The scan, given where each of its whitespace runs ends. */
  lemma ScanSteps(s: string, i: nat, n: char, m: char, ci: bool, k: nat, t: nat, u: nat)
    requires i < |s| && s[i] == n && RunEnd(Space, s, i + 1) == k && KapAt(s, k, ci)
    requires k + 4 <= |s| && RunEnd(Space, s, k + 4) == t && t < |s| && s[t] == m
    requires RunEnd(Space, s, t + 1) == u && u < |s| && s[u] == '§'
    ensures DigitKapDigitEnd(s, i, n, m, ci) == Some(u + 1)
  {
  }

  /** What the scan finds is such a layout. */
  lemma ScannedLayout(s: string, i: nat, n: char, m: char, ci: bool)
    requires DigitKapDigitEnd(s, i, n, m, ci).Some?
    ensures exists k: nat, t: nat, u: nat :: KapLayout(s, i, n, m, ci, k, t, u)
  {
    var k := RunEnd(Space, s, i + 1);
    var t := RunEnd(Space, s, k + 4);
    var u := RunEnd(Space, s, t + 1);
    assert i < |s| && s[i] == n;
    assert KapAt(s, k, ci);
    assert t < |s| && s[t] == m && u < |s| && s[u] == '§';
    assert SpacesBetween(s, i + 1, k) && SpacesBetween(s, k + 4, t) && SpacesBetween(s, t + 1, u);
    assert KapLayout(s, i, n, m, ci, k, t, u);
  }

  /** `N\s*kap\.\s*M\s*§` matches exactly when the text is laid out that
      way, and every such layout ends where the match does. */
  lemma DigitKapDigitLayout(s: string, i: nat, n: char, m: char, ci: bool)
    requires !IsSpace(m)
    ensures DigitKapDigitEnd(s, i, n, m, ci).Some? <==> exists k: nat, t: nat, u: nat :: KapLayout(s, i, n, m, ci, k, t, u)
    ensures forall k: nat, t: nat, u: nat :: KapLayout(s, i, n, m, ci, k, t, u) ==> DigitKapDigitEnd(s, i, n, m, ci) == Some(u + 1)
  {
    forall k: nat, t: nat, u: nat | KapLayout(s, i, n, m, ci, k, t, u)
      ensures DigitKapDigitEnd(s, i, n, m, ci) == Some(u + 1)
    {
      LayoutScanned(s, i, n, m, ci, k, t, u);
    }
    if DigitKapDigitEnd(s, i, n, m, ci).Some? {
      ScannedLayout(s, i, n, m, ci);
    }
  }

  /** `(N\s*kap\.\s*1\s*§)` matches at `i` exactly when the text there is
      `N`, `kap.`, `1` and `§` separated only by whitespace; the match is
      all of that. */
  lemma KeyParagraphAccepts(n: char, s: string, i: nat)
    ensures KeyParagraphAt(n, s, i).Some? <==> exists k: nat, t: nat, u: nat :: KapLayout(s, i, n, '1', false, k, t, u)
    ensures forall k: nat, t: nat, u: nat :: KapLayout(s, i, n, '1', false, k, t, u) ==>
      KeyParagraphAt(n, s, i) == Some(Match(u + 1, [s[i..u + 1], s[i..u + 1]]))
  {
    DigitKapDigitLayout(s, i, n, '1', false);
  }

  /** `\b(term)\b` ignoring case matches at `i` exactly when the term is
      there in some letter case with a word boundary on each side; the
      match is the text as written. */
  lemma WholeWordAccepts(term: Phrase, s: string, i: nat)
    ensures WholeWordAt(term, s, i).Some? <==>
      i + |term| <= |s| && Boundary(s, i) && HasAtIgnoreCase(s, i, term) && Boundary(s, i + |term|)
    ensures WholeWordAt(term, s, i).Some? ==> WholeWordAt(term, s, i).value.end == i + |term|
  {
  }

  /** `först(?:a)?(?:\s*kapitel|\s*kap\.?)` ignoring case matches at `i`
      exactly when `först`, an optional `a`, whitespace and `kap` follow
      each other there (`kapitel` starts with `kap`). */
  lemma FirstChapterQueryAccepts(s: string, i: nat)
    ensures FirstChapterQueryAt(s, i).Some? <==>
      exists j: nat, k: nat :: FirstChapterLayout(s, i, j, k)
  {
    if FirstChapterQueryAt(s, i).Some? {
      var j := if i + 5 < |s| && Lower(s[i + 5]) == 'a' then i + 6 else i + 5;
      var k := RunEnd(Space, s, j);
      if HasAtIgnoreCase(s, k, "kapitel") {
        KapitelStartsKap(s, k);
      }
      assert FirstChapterLayout(s, i, j, k);
    }
    forall j: nat, k: nat | FirstChapterLayout(s, i, j, k)
      ensures FirstChapterQueryAt(s, i).Some?
    {
      FirstChapterLayoutFound(s, i, j, k);
    }
  }

  /** `kapitel` starts with `kap`. */
  lemma KapitelStartsKap(s: string, k: nat)
    requires HasAtIgnoreCase(s, k, "kapitel")
    ensures HasAtIgnoreCase(s, k, "kap")
  {
    forall x | 0 <= x < 3
      ensures Lower(s[k + x]) == Lower("kap"[x])
    {
      assert "kap"[x] == "kapitel"[x];
    }
  }

  /** The text at `i` reads `först`, then `a` when `j` is `i + 6`, then
      whitespace up to `k`, then `kap`, all in any letter case. */
  predicate FirstChapterLayout(s: string, i: nat, j: nat, k: nat) {
    && HasAtIgnoreCase(s, i, "först")
    && (j == i + 5 || (j == i + 6 && i + 5 < |s| && Lower(s[i + 5]) == 'a'))
    && SpacesBetween(s, j, k) && HasAtIgnoreCase(s, k, "kap")
  }

  /** Every first-chapter layout is found by the matcher, whether or not it
      uses the optional `a`. */
  lemma FirstChapterLayoutFound(s: string, i: nat, j: nat, k: nat)
    requires FirstChapterLayout(s, i, j, k)
    ensures FirstChapterQueryAt(s, i).Some?
  {
    assert Lower(s[k + 0]) == Lower("kap"[0]);
    assert !IsSpace(s[k]) by {
      assert !IsSpace(Lower(s[k]));
    }
    SpacesUpTo(s, j, k);
    if j < k {
      // whitespace after `först` is not the optional `a`
      assert IsSpace(s[j]) && IsSpace(Lower(s[j]));
    }
    assert j == if i + 5 < |s| && Lower(s[i + 5]) == 'a' then i + 6 else i + 5;
  }

  /** At `i` the text reads `1 kap. 1 §` (any spacing), `ensamrätt` or
      `patenterbara`, in any letter case. */
  ghost predicate ImportantAt(s: string, i: nat) {
    || (exists k: nat, t: nat, u: nat :: KapLayout(s, i, '1', '1', true, k, t, u))
    || HasAtIgnoreCase(s, i, "ensamrätt")
    || HasAtIgnoreCase(s, i, "patenterbara")
  }

  /** `1\s*kap\.\s*1\s*§|ensamrätt|patenterbara` ignoring case matches at
      `i` exactly when one of the three is there. */
  lemma ImportantChunkAccepts(s: string, i: nat)
    ensures ImportantChunkAt(s, i).Some? <==>
      || (exists k: nat, t: nat, u: nat :: KapLayout(s, i, '1', '1', true, k, t, u))
      || HasAtIgnoreCase(s, i, "ensamrätt")
      || HasAtIgnoreCase(s, i, "patenterbara")
    ensures ImportantChunkAt(s, i).Some? <==> ImportantAt(s, i)
  {
    DigitKapDigitLayout(s, i, '1', '1', true);
  }

  const ChapterHeading: Matcher := ChapterHeadingAt
  const ChapterMarker: Matcher := ChapterMarkerAt
  const ParagraphMarker: Matcher := ParagraphMarkerAt
  const ChapterParagraph: Matcher := ChapterParagraphAt
  const ParagraphQuery: Matcher := ParagraphQueryAt
  const FirstChapterQuery: Matcher := FirstChapterQueryAt
  const ImportantChunk: Matcher := ImportantChunkAt
  const SpaceRun: Matcher := SpaceRunAt
  const PageBar: Matcher := PageBarAt
  const PageOf: Matcher := PageOfAt
  const ConfidentialLine: Matcher := ConfidentialLineAt
  const DisallowedChar: Matcher := DisallowedCharAt
  const HyphenSplit: Matcher := HyphenSplitAt

  function KeyParagraph(n: char): Matcher {
    (s: string, i: nat) => KeyParagraphAt(n, s, i)
  }

  function Phrases(alternatives: seq<Phrase>): Matcher {
    (s: string, i: nat) => PhrasesAt(alternatives, s, i)
  }

  function WholeWord(term: Phrase): Matcher {
    (s: string, i: nat) => WholeWordAt(term, s, i)
  }

  function ChapterQuery(kapitelFirst: bool): Matcher {
    (s: string, i: nat) => ChapterQueryAt(kapitelFirst, s, i)
  }

  // ---------------------------------------------------------------------
  // re.search and re.finditer

  /** Python's `p.search(s, i)`: the first position from `i` on where `p` matches. */
  function Search(p: Matcher, s: string, i: nat): (r: Option<nat>)
    requires i <= |s|
    ensures r.Some? ==> i <= r.value < |s| && p(s, r.value).Some?
    ensures r.Some? ==> forall j :: i <= j < r.value ==> p(s, j).None?
    ensures r.None? ==> forall j :: i <= j <= |s| ==> p(s, j).None?
    decreases |s| - i
  {
    if i == |s| then None
    else if p(s, i).Some? then Some(i)
    else Search(p, s, i + 1)
  }

  /** `re.search(p, s) is not None`. */
  predicate Found(p: Matcher, s: string) {
    Search(p, s, 0).Some?
  }

  /** Python's `re.finditer(p, s)` from position `i`: the non-overlapping
      matches, each searched for where the previous one ended. */
  function FindAll(p: Matcher, s: string, i: nat): (r: seq<Match>)
    requires i <= |s|
    decreases |s| - i
  {
    if i == |s| then []
    else match p(s, i)
      case Some(m) => [m] + FindAll(p, s, m.end)
      case None => FindAll(p, s, i + 1)
  }

  /** `finditer` finds something exactly when `search` does, and its first
      match is the one at the search position. */
  lemma {:induction false} FindAllFirst(p: Matcher, s: string, i: nat)
    requires i <= |s|
    ensures FindAll(p, s, i) == [] <==> Search(p, s, i).None?
    ensures Search(p, s, i).Some? ==> FindAll(p, s, i)[0] == p(s, Search(p, s, i).value).value
    decreases |s| - i
  {
    if i < |s| && p(s, i).None? {
      FindAllFirst(p, s, i + 1);
    }
  }

  // ---------------------------------------------------------------------
  // re.sub

  /** `re.sub` with a replacement function, from position `i`: every match is
      replaced by `f(start, match)`, every other character copied, and the
      scan resumes where the match ended. */
  function SubFrom(p: Matcher, f: (nat, Match) -> string, s: string, i: nat): string
    requires i <= |s|
    decreases |s| - i
  {
    if i == |s| then ""
    else match p(s, i)
      case Some(m) => f(i, m) + SubFrom(p, f, s, m.end)
      case None => [s[i]] + SubFrom(p, f, s, i + 1)
  }

  /** `re.sub(p, repl, s)`. A replacement template such as `\n\n\1 \1` is
      the function that builds that text from the match's groups. */
  function Sub(p: Matcher, repl: (nat, Match) -> string, s: string): string {
    SubFrom(p, repl, s, 0)
  }

  /** Text with no match in it is copied unchanged up to the next match. */
  lemma {:induction false} SubCopies(p: Matcher, f: (nat, Match) -> string, s: string, i: nat, j: nat)
    requires i <= j <= |s|
    requires forall k :: i <= k < j ==> p(s, k).None?
    ensures SubFrom(p, f, s, i) == s[i..j] + SubFrom(p, f, s, j)
    decreases j - i
  {
    if i < j {
      assert p(s, i).None?;
      assert SubFrom(p, f, s, i) == [s[i]] + SubFrom(p, f, s, i + 1);
      SubCopies(p, f, s, i + 1, j);
      assert s[i..j] == [s[i]] + s[i + 1..j];
    }
  }
  /** `re.sub` copies the text up to the first match, then puts in that
      match's replacement. */
  lemma SubFirst(p: Matcher, f: (nat, Match) -> string, s: string) returns (j: nat)
    requires Found(p, s)
    ensures j == Search(p, s, 0).value && j < |s| && p(s, j).Some?
    ensures SubFrom(p, f, s, 0) == s[..j] + f(j, p(s, j).value) + SubFrom(p, f, s, p(s, j).value.end)
  {
    j := Search(p, s, 0).value;
    SubCopies(p, f, s, 0, j);
    assert s[0..j] == s[..j];
  }


  /** Where the pattern never matches, `re.sub` returns its input. */
  lemma SubNoMatch(p: Matcher, f: (nat, Match) -> string, s: string)
    requires !Found(p, s)
    ensures SubFrom(p, f, s, 0) == s
  {
    SubCopies(p, f, s, 0, |s|);
  }

  /** A replacement that keeps the matched text (possibly among inserted text)
      makes the whole pass insert-only: the input is a subsequence of the output. */
  lemma {:induction false} SubInserts(p: Matcher, f: (nat, Match) -> string, s: string, i: nat)
    requires i <= |s|
    requires forall j :: i <= j < |s| && p(s, j).Some? ==>
               IsSubseq(s[j..p(s, j).value.end], f(j, p(s, j).value))
    ensures IsSubseq(s[i..], SubFrom(p, f, s, i))
    decreases |s| - i
  {
    if i < |s| {
      match p(s, i)
      case Some(m) =>
        SubInserts(p, f, s, m.end);
        SubseqConcat(s[i..m.end], f(i, m), s[m.end..], SubFrom(p, f, s, m.end));
        assert s[i..m.end] + s[m.end..] == s[i..];
      case None =>
        SubInserts(p, f, s, i + 1);
        SubseqRefl([s[i]]);
        SubseqConcat([s[i]], [s[i]], s[i + 1..], SubFrom(p, f, s, i + 1));
        assert [s[i]] + s[i + 1..] == s[i..];
    }
  }

  /** A replacement that keeps only part of the matched text makes the whole
      pass delete-only: the output is a subsequence of the input. */
  lemma {:induction false} SubDeletes(p: Matcher, f: (nat, Match) -> string, s: string, i: nat)
    requires i <= |s|
    requires forall j :: i <= j < |s| && p(s, j).Some? ==>
               IsSubseq(f(j, p(s, j).value), s[j..p(s, j).value.end])
    ensures IsSubseq(SubFrom(p, f, s, i), s[i..])
    decreases |s| - i
  {
    if i < |s| {
      match p(s, i)
      case Some(m) =>
        SubDeletes(p, f, s, m.end);
        SubseqConcat(f(i, m), s[i..m.end], SubFrom(p, f, s, m.end), s[m.end..]);
        assert s[i..m.end] + s[m.end..] == s[i..];
      case None =>
        SubDeletes(p, f, s, i + 1);
        SubseqRefl([s[i]]);
        SubseqConcat([s[i]], [s[i]], SubFrom(p, f, s, i + 1), s[i + 1..]);
        assert [s[i]] + s[i + 1..] == s[i..];
    }
  }

  /** Every character `re.sub` outputs was copied from the input at a position
      where no match starts, or comes from a replacement. */
  lemma {:induction false} SubOutputChars(p: Matcher, f: (nat, Match) -> string, s: string, i: nat, ok: char -> bool)
    requires i <= |s|
    requires forall j :: i <= j < |s| && p(s, j).None? ==> ok(s[j])
    requires forall j :: i <= j < |s| && p(s, j).Some? ==> forall c :: c in f(j, p(s, j).value) ==> ok(c)
    ensures forall c :: c in SubFrom(p, f, s, i) ==> ok(c)
    decreases |s| - i
  {
    if i < |s| {
      match p(s, i)
      case Some(m) =>
        SubOutputChars(p, f, s, m.end, ok);
      case None =>
        SubOutputChars(p, f, s, i + 1, ok);
    }
  }

  /** No match of `p` in `s` covers a character of `t`. */
  predicate Untouchable(p: Matcher, s: string, t: string) {
    forall j, k :: 0 <= j <= k < |s| && p(s, j).Some? && k < p(s, j).value.end ==> s[k] !in t
  }

  /** A piece of text whose characters no match can contain survives `re.sub`
      intact. */
  lemma {:induction false} SubKeepsUntouchable(p: Matcher, f: (nat, Match) -> string, s: string, i: nat, q: nat, t: string)
    requires i <= q && HasAt(s, q, t) && t != []
    requires Untouchable(p, s, t)
    ensures Contains(SubFrom(p, f, s, i), t)
    decreases |s| - i
  {
    if i == q {
      SubKeepsTail(p, f, s, q, q, t);
      assert SubFrom(p, f, s, q)[..|t|] == t;
      ContainsAt(SubFrom(p, f, s, q), 0, t);
    } else {
      match p(s, i)
      case Some(m) =>
        assert s[q] in t by {
          assert s[q..q + |t|][0] == t[0];
        }
        SubKeepsUntouchable(p, f, s, m.end, q, t);
        ContainsInPrefixed(f(i, m), SubFrom(p, f, s, m.end), t);
      case None =>
        SubKeepsUntouchable(p, f, s, i + 1, q, t);
        ContainsInPrefixed([s[i]], SubFrom(p, f, s, i + 1), t);
    }
  }

  lemma {:induction false} SubKeepsTail(p: Matcher, f: (nat, Match) -> string, s: string, q: nat, i: nat, t: string)
    requires HasAt(s, q, t) && q <= i <= q + |t|
    requires Untouchable(p, s, t)
    ensures |SubFrom(p, f, s, i)| >= q + |t| - i
    ensures SubFrom(p, f, s, i)[..q + |t| - i] == s[i..q + |t|]
    decreases q + |t| - i
  {
    if i < q + |t| {
      assert s[i] in t by {
        assert s[q..q + |t|][i - q] == s[i];
      }
      assert p(s, i).None?;
      SubKeepsTail(p, f, s, q, i + 1, t);
    }
  }
  /** A pass whose replacements keep the visible part of each match (possibly
      among inserted text) never loses a visible character of its input:
      apart from whitespace, it only inserts. */
  lemma {:induction false} SubInsertsVisible(p: Matcher, f: (nat, Match) -> string, s: string, i: nat)
    requires i <= |s|
    requires forall j :: i <= j < |s| && p(s, j).Some? ==>
               IsSubseq(NonSpace(s[j..p(s, j).value.end]), NonSpace(f(j, p(s, j).value)))
    ensures IsSubseq(NonSpace(s[i..]), NonSpace(SubFrom(p, f, s, i)))
    decreases |s| - i
  {
    if i < |s| {
      match p(s, i)
      case Some(m) =>
        SubInsertsVisible(p, f, s, m.end);
        SubseqConcat(NonSpace(s[i..m.end]), NonSpace(f(i, m)), NonSpace(s[m.end..]), NonSpace(SubFrom(p, f, s, m.end)));
        assert s[i..m.end] + s[m.end..] == s[i..];
        NonSpaceConcat(s[i..m.end], s[m.end..]);
        NonSpaceConcat(f(i, m), SubFrom(p, f, s, m.end));
      case None =>
        SubInsertsVisible(p, f, s, i + 1);
        SubseqRefl(NonSpace([s[i]]));
        SubseqConcat(NonSpace([s[i]]), NonSpace([s[i]]), NonSpace(s[i + 1..]), NonSpace(SubFrom(p, f, s, i + 1)));
        assert [s[i]] + s[i + 1..] == s[i..];
        NonSpaceConcat([s[i]], s[i + 1..]);
        NonSpaceConcat([s[i]], SubFrom(p, f, s, i + 1));
    }
  }

  /** A pass whose replacements show no visible character the match did not
      have never adds a visible character: apart from whitespace, it only
      deletes. */
  lemma {:induction false} SubDeletesVisible(p: Matcher, f: (nat, Match) -> string, s: string, i: nat)
    requires i <= |s|
    requires forall j :: i <= j < |s| && p(s, j).Some? ==>
               IsSubseq(NonSpace(f(j, p(s, j).value)), NonSpace(s[j..p(s, j).value.end]))
    ensures IsSubseq(NonSpace(SubFrom(p, f, s, i)), NonSpace(s[i..]))
    decreases |s| - i
  {
    if i < |s| {
      match p(s, i)
      case Some(m) =>
        SubDeletesVisible(p, f, s, m.end);
        SubseqConcat(NonSpace(f(i, m)), NonSpace(s[i..m.end]), NonSpace(SubFrom(p, f, s, m.end)), NonSpace(s[m.end..]));
        assert s[i..m.end] + s[m.end..] == s[i..];
        NonSpaceConcat(s[i..m.end], s[m.end..]);
        NonSpaceConcat(f(i, m), SubFrom(p, f, s, m.end));
      case None =>
        SubDeletesVisible(p, f, s, i + 1);
        SubseqRefl(NonSpace([s[i]]));
        SubseqConcat(NonSpace([s[i]]), NonSpace([s[i]]), NonSpace(SubFrom(p, f, s, i + 1)), NonSpace(s[i + 1..]));
        assert [s[i]] + s[i + 1..] == s[i..];
        NonSpaceConcat([s[i]], s[i + 1..]);
        NonSpaceConcat([s[i]], SubFrom(p, f, s, i + 1));
    }
  }

  /** An insert-only pass whose every replacement is longer than its match
      makes a text with a match strictly longer. */
  lemma SubGrows(p: Matcher, f: (nat, Match) -> string, s: string)
    requires forall j :: 0 <= j < |s| && p(s, j).Some? ==>
               IsSubseq(s[j..p(s, j).value.end], f(j, p(s, j).value))
               && |f(j, p(s, j).value)| > p(s, j).value.end - j
    requires Found(p, s)
    ensures |SubFrom(p, f, s, 0)| > |s|
  {
    var j := Search(p, s, 0).value;
    var m := p(s, j).value;
    SubCopies(p, f, s, 0, j);
    SubInserts(p, f, s, m.end);
    SubseqLength(s[m.end..], SubFrom(p, f, s, m.end));
  }
}

=== FILE: retrieval.dfy ===
/** `VectorStore`: the question rewrite that puts a canonical chapter and
    paragraph reference in front of a question, the key-concept filter, the
    retrieval context, the answer objects `query` returns (with the source
    list of `get_formatted_sources`), and the flagging loop of
    `create_index`. Retrieval, the language model and the chunker are
    parameters: the hits a search returns (or the exception it raises), the
    text a prompt is answered with (or the exception), and the chunks. */
module Retrieval {
  import opened Outcomes
  import opened Strings
  import opened Paths
  import opened Patterns

  /** A non-empty run of decimal digits. */
  predicate Number(s: string) {
    s != [] && forall k :: 0 <= k < |s| ==> IsDigit(s[k])
  }

  /** The text of a digit run of `s`, from `i` to where the run ends. */
  lemma DigitRunIsNumber(s: string, i: nat, e: nat)
    requires i < e <= |s|
    requires forall k :: i <= k < e ==> InClass(Digit, s[k])
    ensures Number(s[i..e])
  {
    assert forall k :: 0 <= k < e - i ==> s[i..e][k] == s[i + k];
  }

  // ---------------------------------------------------------------------
  // The question rewrite
  // ---------------------------------------------------------------------

  /** The canonical reference put in front of the question: `"<c> kap. <p> § "`,
      or `"<c> kap. "` when no paragraph number was captured. */
  function ChapterPrefix(c: string, p: string): string {
    if p != [] then c + " kap. " + p + " § " else c + " kap. "
  }

  /** The chapter and paragraph numbers `query` puts in front of a
      question. The first chapter reference (`<c> kap`, `<c> kap.` or
      `<c> kapitel`, optionally followed by a paragraph number) gives its
      own numbers; failing that, a paragraph reference together with a
      "first chapter" phrase gives chapter `1` and the paragraph's number.
      `kapitelFirst` selects the order in which the chapter words are tried
      (the source tries `kap` first). The paragraph number is empty when
      none was captured. */
  function Reference(kapitelFirst: bool, q: string): (r: Option<(string, string)>)
    ensures r.Some? ==> Number(r.value.0) && (r.value.1 == [] || Number(r.value.1))
  {
    match Search(ChapterQuery(kapitelFirst), q, 0)
    case Some(j) =>
      var m := ChapterQueryAt(kapitelFirst, q, j).value;
      ChapterQueryNumbers(kapitelFirst, q, j);
      Some((GroupText(m, 1), GroupText(m, 3)))
    case None =>
      match Search(ParagraphQuery, q, 0)
      case Some(j) =>
        if Found(FirstChapterQuery, q) then
          ParagraphQueryNumber(q, j);
          assert Number("1") by { assert "1"[0] == '1'; }
          Some(("1", GroupText(ParagraphQueryAt(q, j).value, 1)))
        else None
      case None => None
  }

  /** A reference is taken exactly when the question holds a chapter
      reference, or a paragraph reference together with a "first chapter"
      phrase. */
  lemma ReferenceFound(kapitelFirst: bool, q: string)
    ensures Reference(kapitelFirst, q).Some? <==>
      Found(ChapterQuery(kapitelFirst), q) || (Found(ParagraphQuery, q) && Found(FirstChapterQuery, q))
  {
  }

  /** The question as `query` sends it to retrieval: the canonical
      reference `"<c> kap. [<p> § ]"` in front of the question, or the
      question unchanged when it holds no reference. */
  function RewriteQuery(kapitelFirst: bool, q: string): (r: string)
    ensures EndsWith(r, q)
    ensures r == q <==> Reference(kapitelFirst, q).None?
    ensures Reference(kapitelFirst, q).Some? ==>
      r == ChapterPrefix(Reference(kapitelFirst, q).value.0, Reference(kapitelFirst, q).value.1) + q
  {
    match Reference(kapitelFirst, q)
    case None => q
    case Some((c, p)) =>
      assert |ChapterPrefix(c, p) + q| > |q|;
      ChapterPrefix(c, p) + q
  }

  /** The chapter number a chapter reference captures is a number, and so
      is its paragraph number when there is one. */
  lemma ChapterQueryNumbers(kapitelFirst: bool, q: string, j: nat)
    requires ChapterQueryAt(kapitelFirst, q, j).Some?
    ensures Number(GroupText(ChapterQueryAt(kapitelFirst, q, j).value, 1))
    ensures var p := GroupText(ChapterQueryAt(kapitelFirst, q, j).value, 3); p == [] || Number(p)
  {
    var d := RunEnd(Digit, q, j);
    DigitRunIsNumber(q, j, d);
    var k := RunEnd(Space, q, d);
    var w := ChapterWordEnd(kapitelFirst, q, k);
    var a := Optional(q, w.value, '.');
    var t := RunEnd(Space, q, a);
    var e := RunEnd(Digit, q, t);
    if t < e {
      DigitRunIsNumber(q, t, e);
    }
  }

  /** The number a paragraph reference captures is a number. */
  lemma ParagraphQueryNumber(q: string, j: nat)
    requires ParagraphQueryAt(q, j).Some?
    ensures Number(GroupText(ParagraphQueryAt(q, j).value, 1))
  {
    DigitRunIsNumber(q, j, RunEnd(Digit, q, j));
  }

  /** Trying `kapitel` first changes nothing for a question in which the
      word `kapitel` does not occur. */
  lemma KapitelFirstAgrees(q: string)
    requires forall k :: 0 <= k <= |q| ==> !HasAtIgnoreCase(q, k, "kapitel")
    ensures RewriteQuery(true, q) == RewriteQuery(false, q)
  {
    forall j | 0 <= j <= |q|
      ensures ChapterQuery(true)(q, j) == ChapterQuery(false)(q, j)
    {
      if j <= |q| {
        var d := RunEnd(Digit, q, j);
        var k := RunEnd(Space, q, d);
        assert ChapterWordEnd(true, q, k) == ChapterWordEnd(false, q, k);
      }
    }
    SearchAgrees(ChapterQuery(true), ChapterQuery(false), q, 0);
  }

  /** Two matchers that agree everywhere are found at the same place. */
  lemma {:induction false} SearchAgrees(p1: Matcher, p2: Matcher, s: string, i: nat)
    requires i <= |s|
    requires forall j :: i <= j <= |s| ==> p1(s, j) == p2(s, j)
    ensures Search(p1, s, i) == Search(p2, s, i)
    decreases |s| - i
  {
    if i < |s| && p1(s, i).None? {
      SearchAgrees(p1, p2, s, i + 1);
    }
  }

  /** The word `kapitel` at `n + 1`, in the letter case it is written in. */
  lemma KapitelWordAt(s: string, n: nat)
    requires n + 8 <= |s| && s[n + 1..n + 8] == "kapitel"
    ensures HasAtIgnoreCase(s, n + 1, "kap") && HasAtIgnoreCase(s, n + 1, "kapitel")
    ensures s[n + 4] == 'i'
  {
    assert forall k :: 0 <= k < 7 ==> s[n + 1 + k] == "kapitel"[k];
  }

  /** The chapter reference at the start of `<c> kapitel ...`, as the
      pattern is written: it stops after `kap`, so no paragraph number is
      captured. */
  lemma KapitelAsWrittenAt(s: string, n: nat)
    requires 0 < n && n + 8 < |s|
    requires forall k :: 0 <= k < n ==> IsDigit(s[k])
    requires s[n] == ' ' && s[n + 1..n + 8] == "kapitel"
    ensures ChapterQueryAt(false, s, 0) == Some(Match(n + 4, [s[0..n + 4], s[0..n], s[n + 1..n + 4], s[n + 4..n + 4]]))
  {
    RunEndIs(Digit, s, 0, n);
    RunEndIs(Space, s, n, n + 1);
    KapitelWordAt(s, n);
    assert ChapterWordEnd(false, s, n + 1) == Some(n + 4);
    RunEndIs(Space, s, n + 4, n + 4);
    RunEndIs(Digit, s, n + 4, n + 4);
    assert Lower(s[n + 4]) != Lower("paragraf"[0]);
    assert ParagraphWordEnd(s, n + 4) == n + 4;
  }

  /** The same reference with `kapitel` tried first: the paragraph number
      `s[n + 9..n + 9 + m]` is captured. */
  lemma KapitelFirstAt(s: string, n: nat, m: nat)
    requires 0 < n && 0 < m && n + 9 + m < |s|
    requires forall k :: 0 <= k < n ==> IsDigit(s[k])
    requires s[n] == ' ' && s[n + 8] == ' ' && s[n + 9 + m] == ' '
    requires s[n + 1..n + 8] == "kapitel"
    requires forall k :: n + 9 <= k < n + 9 + m ==> IsDigit(s[k])
    ensures ChapterQueryAt(true, s, 0).Some?
    ensures GroupText(ChapterQueryAt(true, s, 0).value, 1) == s[..n]
    ensures GroupText(ChapterQueryAt(true, s, 0).value, 3) == s[n + 9..n + 9 + m]
  {
    RunEndIs(Digit, s, 0, n);
    RunEndIs(Space, s, n, n + 1);
    KapitelWordAt(s, n);
    assert ChapterWordEnd(true, s, n + 1) == Some(n + 8);
    RunEndIs(Space, s, n + 8, n + 9);
    RunEndIs(Digit, s, n + 9, n + 9 + m);
  }

  /** The rewrite, as written, of a question laid out as `KapitelAsWrittenAt`
      describes. */
  lemma KapitelAsWrittenRewrite(s: string, n: nat)
    requires 0 < n && n + 8 < |s|
    requires forall k :: 0 <= k < n ==> IsDigit(s[k])
    requires s[n] == ' ' && s[n + 1..n + 8] == "kapitel"
    ensures RewriteQuery(false, s) == s[..n] + " kap. " + s
  {
    KapitelAsWrittenAt(s, n);
    RewriteAtStart(false, s);
  }

  /** For a question that starts `<c> kapitel <p> §`, the rewrite as written
      drops the paragraph number: the prefix is only `"<c> kap. "`. */
  lemma KapitelLosesParagraph(c: string, p: string, rest: string)
    requires Number(c) && Number(p)
    ensures var q := c + " kapitel " + p + " §" + rest;
      RewriteQuery(false, q) == c + " kap. " + q
  {
    var q := c + " kapitel " + p + " §" + rest;
    var n := |c|;
    assert q[..n] == c by {
      KapitelQuestion(c, p, rest);
    }
    assert RewriteQuery(false, q) == q[..n] + " kap. " + q by {
      KapitelQuestion(c, p, rest);
      KapitelAsWrittenRewrite(q, n);
    }
  }

  /** A question with a chapter reference at its very start is rewritten
      with that reference's numbers. */
  lemma RewriteAtStart(kapitelFirst: bool, q: string)
    requires ChapterQueryAt(kapitelFirst, q, 0).Some? && q != []
    ensures var m := ChapterQueryAt(kapitelFirst, q, 0).value;
      RewriteQuery(kapitelFirst, q) == ChapterPrefix(GroupText(m, 1), GroupText(m, 3)) + q
  {
    assert ChapterQuery(kapitelFirst)(q, 0).Some?;
    assert Search(ChapterQuery(kapitelFirst), q, 0) == Some(0);
  }

  /** The rewrite of a question laid out as `KapitelFirstAt` describes. */
  lemma KapitelFirstRewrite(s: string, n: nat, m: nat)
    requires 0 < n && 0 < m && n + 9 + m < |s|
    requires forall k :: 0 <= k < n ==> IsDigit(s[k])
    requires s[n] == ' ' && s[n + 8] == ' ' && s[n + 9 + m] == ' '
    requires s[n + 1..n + 8] == "kapitel"
    requires forall k :: n + 9 <= k < n + 9 + m ==> IsDigit(s[k])
    ensures RewriteQuery(true, s) == s[..n] + " kap. " + s[n + 9..n + 9 + m] + " § " + s
  {
    KapitelFirstAt(s, n, m);
    RewriteAtStart(true, s);
    assert s[n + 9..n + 9 + m] != [];
  }

  /** With `kapitel` tried first, the same question gets the full
      `"<c> kap. <p> § "` prefix. */
  lemma KapitelKeepsParagraph(c: string, p: string, rest: string)
    requires Number(c) && Number(p)
    ensures var q := c + " kapitel " + p + " §" + rest;
      RewriteQuery(true, q) == c + " kap. " + p + " § " + q
  {
    var q := c + " kapitel " + p + " §" + rest;
    var n, m := |c|, |p|;
    assert q[..n] == c && q[n + 9..n + 9 + m] == p by {
      KapitelQuestion(c, p, rest);
    }
    assert RewriteQuery(true, q) == q[..n] + " kap. " + q[n + 9..n + 9 + m] + " § " + q by {
      KapitelQuestion(c, p, rest);
      KapitelFirstRewrite(q, n, m);
    }
  }

  /** Where the parts of `<c> kapitel <p> §...` sit. */
  lemma KapitelQuestion(c: string, p: string, rest: string)
    requires Number(c) && Number(p)
    ensures var q := c + " kapitel " + p + " §" + rest; var n := |c|; var m := |p|;
      && n + 9 + m < |q|
      && (forall k :: 0 <= k < n ==> IsDigit(q[k]))
      && q[n] == ' ' && q[n + 8] == ' ' && q[n + 9 + m] == ' '
      && q[n + 1..n + 8] == "kapitel"
      && (forall k :: n + 9 <= k < n + 9 + m ==> IsDigit(q[k]))
      && q[..n] == c && q[n + 9..n + 9 + m] == p
  {
    var q := c + " kapitel " + p + " §" + rest;
    var n := |c|;
    var m := |p|;
    assert q == c + (" kapitel " + (p + (" §" + rest)));
    forall k | 0 <= k < n
      ensures q[k] == c[k]
    {
    }
    forall k | n + 9 <= k < n + 9 + m
      ensures q[k] == p[k - n - 9]
    {
    }
  }

  // ---------------------------------------------------------------------
  // Key concepts and the context
  // ---------------------------------------------------------------------

  /** The patent-law concepts `query` looks for, in the order it reports them. */
  const KeyConcepts: seq<string> := ["ensamrätt", "patent", "uppfinning", "patenterbar", "människokropp"]

  /** The concepts that occur in the question, ignoring letter case, in list order. */
  function ConceptsIn(concepts: seq<string>, q: string): (r: seq<string>)
    ensures IsSubseq(r, concepts)
    ensures forall c :: c in r <==> c in concepts && Contains(LowerStr(q), LowerStr(c))
  {
    if concepts == [] then []
    else
      var rest := ConceptsIn(concepts[1..], q);
      assert forall c :: c in concepts <==> c == concepts[0] || c in concepts[1..];
      if Contains(LowerStr(q), LowerStr(concepts[0])) then
        assert ([concepts[0]] + rest)[1..] == rest;
        [concepts[0]] + rest
      else
        SubseqDropHead(rest, concepts);
        rest
  }

  /** A retrieved chunk: its text, the `file_name` of its metadata (if
      any), and its relevance score as printed. */
  datatype Hit = Hit(text: string, fileName: Option<string>, score: string)

  function HitText(h: Hit): string {
    h.text
  }

  const NoDocuments := "No relevant documents found"

  /** The context handed to the model: the hit texts separated by blank
      lines, or a fixed note when retrieval found nothing. */
  function ContextOf(hits: seq<Hit>): string {
    if hits == [] then NoDocuments else Join(Map(HitText, hits), "\n\n")
  }

  /** Every part of a joined text occurs in it. */
  lemma {:induction false} JoinContains(parts: seq<string>, sep: string, k: nat)
    requires k < |parts|
    ensures Contains(Join(parts, sep), parts[k])
  {
    if |parts| == 1 {
      assert Join(parts, sep) == "" + parts[0] + "";
      ContainsMiddle("", parts[0], "");
    } else if k == 0 {
      ContainsMiddle("", parts[0], sep + Join(parts[1..], sep));
      assert "" + parts[0] + (sep + Join(parts[1..], sep)) == Join(parts, sep);
    } else {
      JoinContains(parts[1..], sep, k - 1);
      ContainsInPrefixed(parts[0] + sep, Join(parts[1..], sep), parts[k]);
    }
  }

  /** The context holds the text of every hit. */
  lemma ContextHasEveryHit(hits: seq<Hit>)
    ensures forall k :: 0 <= k < |hits| ==> Contains(ContextOf(hits), hits[k].text)
    ensures hits == [] ==> ContextOf(hits) == NoDocuments
  {
    forall k | 0 <= k < |hits|
      ensures Contains(ContextOf(hits), hits[k].text)
    {
      JoinContains(Map(HitText, hits), "\n\n", k);
    }
  }

  // ---------------------------------------------------------------------
  // Where a source chunk sits in the law
  // ---------------------------------------------------------------------

  /** The number a one-group marker captured. */
  function Captured(m: Match): string {
    GroupText(m, 1)
  }

  /** The location shown after a source's file name: the first combined
      `<c> kap. <p> §` reference if there is one; otherwise the first
      chapter and first paragraph markers, as `get_formatted_sources`
      combines them. */
  function Location(text: string): string {
    match Search(ChapterParagraph, text, 0)
    case Some(j) =>
      var m := ChapterParagraphAt(text, j).value;
      " (kapitel " + GroupText(m, 1) + ", § " + GroupText(m, 2) + ")"
    case None =>
      SeparateLocation(Map(Captured, FindAll(ChapterMarker, text, 0)), Map(Captured, FindAll(ParagraphMarker, text, 0)))
  }

  /** The location from the numbers of all chapter markers and of all
      paragraph markers, as `get_formatted_sources` combines them when the
      chunk has no combined reference. */
  function SeparateLocation(chapters: seq<string>, paragraphs: seq<string>): string {
    if |chapters| == 1 && paragraphs != [] then
      " (kapitel " + chapters[0] + ", § " + paragraphs[0] + ")"
    else
      var chapterInfo := if chapters != [] then "kapitel " + chapters[0] else "";
      var paragraphInfo := if paragraphs != [] then "§ " + paragraphs[0] else "";
      if chapterInfo != "" && paragraphInfo != "" then " (" + chapterInfo + ", " + paragraphInfo + ")"
      else if chapterInfo != "" then " (" + chapterInfo + ")"
      else if paragraphInfo != "" then " (" + paragraphInfo + ")"
      else ""
  }

  function First(xs: seq<string>): Option<string> {
    if xs == [] then None else Some(xs[0])
  }

  /** Only the first chapter and the first paragraph number matter. */
  lemma SeparateLocationFirst(chapters: seq<string>, paragraphs: seq<string>)
    ensures SeparateLocation(chapters, paragraphs) == LocationText(First(chapters), First(paragraphs))
  {
    if chapters != [] && paragraphs != [] {
      assert " (" + ("kapitel " + chapters[0]) + ", " + ("§ " + paragraphs[0]) + ")"
        == " (kapitel " + chapters[0] + ", § " + paragraphs[0] + ")";
    } else if chapters != [] {
      assert " (" + ("kapitel " + chapters[0]) + ")" == " (kapitel " + chapters[0] + ")";
    } else if paragraphs != [] {
      assert " (" + ("§ " + paragraphs[0]) + ")" == " (§ " + paragraphs[0] + ")";
    }
  }

  /** The first number `findall` reports is the one `search` captures. */
  lemma FindAllCapturedFirst(p: Matcher, text: string)
    ensures First(Map(Captured, FindAll(p, text, 0))) == FirstCaptured(p, text)
  {
    FindAllFirst(p, text, 0);
  }

  /** The location text for a chapter number and a paragraph number, each
      possibly absent. */
  function LocationText(chapter: Option<string>, paragraph: Option<string>): string {
    match (chapter, paragraph)
    case (Some(c), Some(p)) => " (kapitel " + c + ", § " + p + ")"
    case (Some(c), None) => " (kapitel " + c + ")"
    case (None, Some(p)) => " (§ " + p + ")"
    case (None, None) => ""
  }

  /** The number the first match of a one-group marker captured. */
  function FirstCaptured(p: Matcher, text: string): Option<string> {
    match Search(p, text, 0)
    case Some(j) => Some(Captured(p(text, j).value))
    case None => None
  }

  /** The chapter a chunk is placed in: the combined reference's, else the
      first chapter marker's. */
  function ChapterOf(text: string): (r: Option<string>)
    ensures r.Some? ==> Number(r.value)
  {
    match Search(ChapterParagraph, text, 0)
    case Some(j) =>
      ChapterParagraphNumbers(text, j);
      Some(GroupText(ChapterParagraphAt(text, j).value, 1))
    case None =>
      match Search(ChapterMarker, text, 0)
      case Some(j) =>
        MarkerNumber(ChapterMarker, text, j);
        Some(Captured(ChapterMarkerAt(text, j).value))
      case None => None
  }

  /** The paragraph a chunk is placed at: the combined reference's, else the
      first paragraph marker's. */
  function ParagraphOf(text: string): (r: Option<string>)
    ensures r.Some? ==> Number(r.value)
  {
    match Search(ChapterParagraph, text, 0)
    case Some(j) =>
      ChapterParagraphNumbers(text, j);
      Some(GroupText(ChapterParagraphAt(text, j).value, 2))
    case None =>
      match Search(ParagraphMarker, text, 0)
      case Some(j) =>
        MarkerNumber(ParagraphMarker, text, j);
        Some(Captured(ParagraphMarkerAt(text, j).value))
      case None => None
  }

  /** Both numbers of a combined reference are numbers. */
  lemma ChapterParagraphNumbers(text: string, j: nat)
    requires ChapterParagraphAt(text, j).Some?
    ensures Number(GroupText(ChapterParagraphAt(text, j).value, 1))
    ensures Number(GroupText(ChapterParagraphAt(text, j).value, 2))
  {
    var d := RunEnd(Digit, text, j);
    DigitRunIsNumber(text, j, d);
    var k := ChapterMarkerEnds(text, j).value.1;
    var t := RunEnd(Space, text, k);
    DigitRunIsNumber(text, t, RunEnd(Digit, text, t));
  }

  /** The number a chapter or paragraph marker captures is a number. */
  lemma MarkerNumber(p: Matcher, text: string, j: nat)
    requires p == ChapterMarker || p == ParagraphMarker
    requires p(text, j).Some?
    ensures Number(Captured(p(text, j).value))
  {
    DigitRunIsNumber(text, j, RunEnd(Digit, text, j));
  }

  /** The location is the chunk's chapter and paragraph, each the combined
      reference's or else the first marker's. In particular the test for
      exactly one chapter marker changes nothing: with several chapter
      markers and a paragraph marker the first of each is shown all the
      same. */
  lemma LocationReference(text: string)
    ensures Location(text) == LocationText(ChapterOf(text), ParagraphOf(text))
  {
    if Search(ChapterParagraph, text, 0).None? {
      var chapters := Map(Captured, FindAll(ChapterMarker, text, 0));
      var paragraphs := Map(Captured, FindAll(ParagraphMarker, text, 0));
      SeparateLocationFirst(chapters, paragraphs);
      FindAllCapturedFirst(ChapterMarker, text);
      FindAllCapturedFirst(ParagraphMarker, text);
      assert ChapterOf(text) == FirstCaptured(ChapterMarker, text);
      assert ParagraphOf(text) == FirstCaptured(ParagraphMarker, text);
    }
  }

  /** A chunk gets no location exactly when it has neither a chapter nor a
      paragraph marker. */
  lemma LocationEmpty(text: string)
    ensures Location(text) == "" <==> !Found(ChapterMarker, text) && !Found(ParagraphMarker, text)
  {
    LocationReference(text);
    match Search(ChapterParagraph, text, 0)
    case Some(j) =>
      assert ChapterMarker(text, j).Some?;
    case None =>
  }

  // ---------------------------------------------------------------------
  // The source list of an answer
  // ---------------------------------------------------------------------

  const NoSources := "Inga specifika källor matchade din fråga."
  const UnknownSource := "Okänd källa"

  /** The file name a hit is listed under. */
  function FileNameOf(h: Hit): string {
    match h.fileName
    case Some(name) => name
    case None => UnknownSource
  }

  /** The excerpt shown for a hit: its first 150 characters followed by
      `...` when it is longer than that, else the whole text. */
  function Excerpt(text: string): (r: string)
    ensures |text| <= 150 ==> r == text
    ensures |text| > 150 ==> |r| == 153 && r[..150] == text[..150] && EndsWith(r, "...")
  {
    if |text| > 150 then text[..150] + "..." else text
  }

  /** The heading line of the `n`-th source (counted from 1). */
  function Heading(n: nat, h: Hit): string {
    "Källa " + NatToString(n) + ": " + FileNameOf(h) + Location(h.text) + " (relevans: " + h.score + ")"
  }

  /** The excerpt line under a heading. */
  function ExcerptLine(h: Hit): string {
    "    Utdrag: \"" + Excerpt(h.text) + "\""
  }

  /** The lines of the source list, two per hit, in hit order. */
  function SourceLines(hits: seq<Hit>): seq<string>
    decreases |hits|
  {
    if hits == [] then []
    else
      var last := hits[|hits| - 1];
      SourceLines(hits[..|hits| - 1]) + [Heading(|hits|, last), ExcerptLine(last)]
  }

  /** Hit `k` gets lines `2k` (its heading, numbered `k + 1`) and `2k + 1`
      (its excerpt), and there are no other lines. */
  lemma {:induction false} SourceLinesShape(hits: seq<Hit>)
    ensures |SourceLines(hits)| == 2 * |hits|
    ensures forall k :: 0 <= k < |hits| ==>
      SourceLines(hits)[2 * k] == Heading(k + 1, hits[k]) && SourceLines(hits)[2 * k + 1] == ExcerptLine(hits[k])
    decreases |hits|
  {
    if hits != [] {
      var init := hits[..|hits| - 1];
      var last := hits[|hits| - 1];
      var a, b := Heading(|hits|, last), ExcerptLine(last);
      SourceLinesShape(init);
      var lines := SourceLines(hits);
      assert lines == SourceLines(init) + [a, b];
      forall k | 0 <= k < |hits|
        ensures lines[2 * k] == Heading(k + 1, hits[k]) && lines[2 * k + 1] == ExcerptLine(hits[k])
      {
        if k < |init| {
          assert hits[k] == init[k];
          assert lines[2 * k] == SourceLines(init)[2 * k];
          assert lines[2 * k + 1] == SourceLines(init)[2 * k + 1];
        } else {
          assert lines[2 * k] == a && lines[2 * k + 1] == b;
        }
      }
    }
  }

  /** The text `get_formatted_sources` returns for a list of hits. */
  function SourcesText(hits: seq<Hit>): string {
    if hits == [] then NoSources else Join(SourceLines(hits), "\n")
  }

  /** `EnhancedResponse.get_formatted_sources`: two lines per hit, built
      in a loop, joined by newlines. */
  method FormatSources(hits: seq<Hit>) returns (r: string)
    ensures r == SourcesText(hits)
    ensures hits != [] ==> StartsWith(r, Heading(1, hits[0]))
  {
    if hits == [] {
      return NoSources;
    }
    var formatted: seq<string> := [];
    for i := 0 to |hits|
      invariant formatted == SourceLines(hits[..i])
    {
      var h := hits[i];
      var heading := "Källa " + NatToString(i + 1) + ": " + FileNameOf(h) + Location(h.text) + " (relevans: " + h.score + ")";
      var excerpt := if |h.text| > 150 then h.text[..150] + "..." else h.text;
      formatted := formatted + [heading, "    Utdrag: \"" + excerpt + "\""];
      assert hits[..i + 1][..i] == hits[..i];
    }
    assert hits[..|hits|] == hits;
    r := Join(formatted, "\n");
    SourcesTextStart(hits);
  }

  /** The source list opens with the first hit's heading. */
  lemma SourcesTextStart(hits: seq<Hit>)
    ensures hits != [] ==> StartsWith(SourcesText(hits), Heading(1, hits[0]))
  {
    if hits != [] {
      SourceLinesShape(hits);
      JoinStartsWithFirst(SourceLines(hits), "\n");
    }
  }

  /** A joined text starts with its first part. */
  lemma JoinStartsWithFirst(parts: seq<string>, sep: string)
    requires parts != []
    ensures StartsWith(Join(parts, sep), parts[0])
  {
    if |parts| > 1 {
      assert Join(parts, sep) == parts[0] + (sep + Join(parts[1..], sep));
    }
  }

  // ---------------------------------------------------------------------
  // Answers
  // ---------------------------------------------------------------------

  const NoIndexMessage := "Sorry, the document index is not available right now."
  const NoModelMessage := "Sorry, the Gemini model is not available. Please check your API key."
  const ErrorPrefix := "Error processing query: "
  const FallbackNote := "Direkt svar från Gemini utan dokumentkontext på grund av indexeringsfel. Använder BGE inbäddningsmodell (BAAI/bge-small-en-v1.5)."

  /** What the language model is asked: to answer a question from the
      retrieved law text, or (the last resort) to answer it directly. */
  datatype Prompt = Grounded(context: string, question: string) | Direct(question: string)

  /** What `query` returns: a bare message, an `EnhancedResponse` (the
      model's text and the hits it was grounded on) or a `FallbackResponse`. */
  datatype Answer = Plain(message: string) | Enhanced(text: string, sources: seq<Hit>) | Fallback(text: string)

  /** `str()` of an answer. */
  function AnswerText(a: Answer): string {
    match a
    case Plain(message) => message
    case Enhanced(text, _) => text
    case Fallback(text) => text
  }

  /** `get_formatted_sources()` of an answer; a bare message has none. */
  function FormattedSources(a: Answer): (r: Option<string>)
    ensures r.None? <==> a.Plain?
    ensures a.Enhanced? && a.sources == [] ==> r == Some(NoSources)
    ensures a.Enhanced? && a.sources != [] ==> |r.value| > 0 && StartsWith(r.value, Heading(1, a.sources[0]))
    ensures a.Enhanced? ==> r == Some(SourcesText(a.sources))
    ensures a.Fallback? ==> r == Some(FallbackNote)
  {
    match a
    case Plain(_) => None
    case Enhanced(_, hits) =>
      SourcesTextStart(hits);
      Some(SourcesText(hits))
    case Fallback(_) => Some(FallbackNote)
  }

  /** The `except` branch of `query`: a direct question to the model when
      there is one, else the error message. */
  function Recover(hasModel: bool, question: string, error: string, llm: Prompt -> Result<string>): (r: Answer)
    ensures r.Fallback? <==> hasModel && llm(Direct(question)).Success?
    ensures r.Fallback? ==> llm(Direct(question)) == Success(r.text)
    ensures !r.Fallback? ==> r == Plain(ErrorPrefix + error)
  {
    if hasModel then
      match llm(Direct(question))
      case Success(text) => Fallback(text)
      case Failure(_) => Plain(ErrorPrefix + error)
    else Plain(ErrorPrefix + error)
  }

  // ---------------------------------------------------------------------
  // The vector store
  // ---------------------------------------------------------------------

  /** `re.search(r"Patent|patent|uppfinn", text)`. */
  const PatentMention: Matcher := Phrases(["Patent", "patent", "uppfinn"])

  /** A value in a chunk's metadata. */
  datatype MetaValue = Text(text: string) | Flag(flag: bool)

  /** A chunk made by the splitter: its text, whether it carries a
      `metadata` attribute, and that metadata. */
  class Node {
    const text: string
    const hasMetadata: bool
    var metadata: map<string, MetaValue>

    constructor(text: string, hasMetadata: bool, metadata: map<string, MetaValue>)
      ensures this.text == text && this.hasMetadata == hasMetadata && this.metadata == metadata
    {
      this.text := text;
      this.hasMetadata := hasMetadata;
      this.metadata := metadata;
    }
  }

  /** A chunk's metadata after `create_index` looked at it: `important` is
      set to true on a chunk with metadata whose text matches the
      important-section pattern. */
  function Flagged(hasMetadata: bool, text: string, md: map<string, MetaValue>): map<string, MetaValue> {
    if hasMetadata && Found(ImportantChunk, text) then md["important" := Flag(true)] else md
  }

  /** Flagging sets `important` to true exactly on a chunk with metadata
      whose text matches; nothing else changes, and nothing is ever set to
      false. */
  lemma FlaggedChanges(hasMetadata: bool, text: string, md: map<string, MetaValue>)
    ensures var r := Flagged(hasMetadata, text, md);
      && (hasMetadata && Found(ImportantChunk, text) ==> "important" in r && r["important"] == Flag(true))
      && (!(hasMetadata && Found(ImportantChunk, text)) ==> r == md)
      && (forall k :: k != "important" ==> (k in r <==> k in md) && (k in r ==> r[k] == md[k]))
      && ("important" in md ==> "important" in r)
      && ("important" in r && r["important"] != Flag(true) ==> "important" in md && r["important"] == md["important"])
  {
  }

  /** A chunk is important exactly when `1 kap. 1 §` (any spacing),
      `ensamrätt` or `patenterbara` occurs in it, in any letter case. */
  lemma ImportantChunkFound(text: string)
    ensures Found(ImportantChunk, text) <==> exists i: nat :: i < |text| && ImportantAt(text, i)
  {
    if Found(ImportantChunk, text) {
      var i := Search(ImportantChunk, text, 0).value;
      ImportantChunkAccepts(text, i);
    }
    forall i: nat | i < |text| && ImportantAt(text, i)
      ensures Found(ImportantChunk, text)
    {
      ImportantChunkAccepts(text, i);
    }
  }

  /** Looking at a chunk twice flags it as once. */
  lemma FlaggedIdempotent(hasMetadata: bool, text: string, md: map<string, MetaValue>)
    ensures Flagged(hasMetadata, text, Flagged(hasMetadata, text, md)) == Flagged(hasMetadata, text, md)
  {
    if hasMetadata && Found(ImportantChunk, text) {
      var once := Flagged(hasMetadata, text, md);
      assert once["important" := Flag(true)] == once;
    }
  }

  /** The texts of the chunks. */
  function Texts(nodes: seq<Node>): (r: seq<string>)
    ensures |r| == |nodes| && forall k :: 0 <= k < |nodes| ==> r[k] == nodes[k].text
  {
    seq(|nodes|, k requires 0 <= k < |nodes| => nodes[k].text)
  }

  /** How many of the texts the pattern is found in. */
  function CountFound(p: Matcher, texts: seq<string>): (r: nat)
    ensures r <= |texts|
    decreases |texts|
  {
    if texts == [] then 0
    else CountFound(p, texts[..|texts| - 1]) + if Found(p, texts[|texts| - 1]) then 1 else 0
  }

  /** The count is zero exactly when no text matches, and all of them
      exactly when every text does. */
  lemma {:induction false} CountFoundExtremes(p: Matcher, texts: seq<string>)
    ensures CountFound(p, texts) == 0 <==> forall k :: 0 <= k < |texts| ==> !Found(p, texts[k])
    ensures CountFound(p, texts) == |texts| <==> forall k :: 0 <= k < |texts| ==> Found(p, texts[k])
    decreases |texts|
  {
    if texts != [] {
      var init := texts[..|texts| - 1];
      CountFoundExtremes(p, init);
      assert forall k :: 0 <= k < |init| ==> texts[k] == init[k];
    }
  }

  /** One more text adds one to the count exactly when the pattern is
      found in it. */
  lemma CountFoundSnoc(p: Matcher, texts: seq<string>, t: string)
    ensures CountFound(p, texts + [t]) == CountFound(p, texts) + if Found(p, t) then 1 else 0
  {
    assert (texts + [t])[..|texts|] == texts;
  }

  /** The texts of one more chunk. */
  lemma TextsSnoc(nodes: seq<Node>, i: nat)
    requires i < |nodes|
    ensures Texts(nodes[..i + 1]) == Texts(nodes[..i]) + [nodes[i].text]
    ensures nodes[..i + 1] == nodes[..i] + [nodes[i]]
  {
  }

  /** The three counts `create_index` logs. */
  datatype Counts = Counts(patent: nat, section: nat, important: nat)

  function CountsOf(texts: seq<string>): Counts {
    Counts(CountFound(PatentMention, texts), CountFound(ParagraphMarker, texts), CountFound(ImportantChunk, texts))
  }

  /** The retrieval side of the application: the chunk index (absent
      until one is built) and whether a language model is configured. */
  class VectorStore {
    var index: Option<seq<Node>>
    var model: bool

    /** The store as built, before an index is loaded or created: the
        model is there exactly when an API key is configured. */
    constructor(apiKey: string)
      ensures index == None && model == (apiKey != "")
    {
      index := None;
      model := apiKey != "";
    }

    /** `create_index`, given whether the processed directory has files,
        how many documents were read from it, and the chunks the splitter
        made of them. With no files or no documents nothing changes.
        Otherwise every chunk is looked at in order: the three counts are
        taken, the important ones are flagged, and the chunks become the
        index. */
    method CreateIndex(hasFiles: bool, documentCount: nat, nodes: seq<Node>) returns (counts: Option<Counts>)
      modifies this, nodes
      ensures model == old(model)
      ensures !hasFiles || documentCount == 0 ==>
        counts == None && index == old(index) && forall n :: n in nodes ==> n.metadata == old(n.metadata)
      ensures hasFiles && documentCount > 0 ==>
        && counts == Some(CountsOf(Texts(nodes)))
        && index == Some(nodes)
        && forall n :: n in nodes ==> n.metadata == Flagged(n.hasMetadata, n.text, old(n.metadata))
    {
      if !hasFiles || documentCount == 0 {
        return None;
      }
      var patent, section, important := 0, 0, 0;
      for i := 0 to |nodes|
        invariant patent == CountFound(PatentMention, Texts(nodes[..i]))
        invariant section == CountFound(ParagraphMarker, Texts(nodes[..i]))
        invariant important == CountFound(ImportantChunk, Texts(nodes[..i]))
        invariant forall n :: n in nodes ==>
          n.metadata == if n in nodes[..i] then Flagged(n.hasMetadata, n.text, old(n.metadata)) else old(n.metadata)
        invariant model == old(model)
      {
        var node := nodes[i];
        ghost var texts := Texts(nodes[..i]);
        assert Texts(nodes[..i + 1]) == texts + [node.text] && nodes[..i + 1] == nodes[..i] + [node] by {
          TextsSnoc(nodes, i);
        }
        CountFoundSnoc(PatentMention, texts, node.text);
        CountFoundSnoc(ParagraphMarker, texts, node.text);
        CountFoundSnoc(ImportantChunk, texts, node.text);
        label Head:
        var isPatent, isSection, isImportant := Inspect(node);
        if isPatent {
          patent := patent + 1;
        }
        if isSection {
          section := section + 1;
        }
        if isImportant {
          important := important + 1;
        }
        forall n | n in nodes
          ensures n.metadata == if n in nodes[..i + 1] then Flagged(n.hasMetadata, n.text, old(n.metadata)) else old(n.metadata)
        {
          assert n in nodes[..i + 1] <==> n in nodes[..i] || n == node;
          if n == node {
            FlaggedIdempotent(n.hasMetadata, n.text, old(n.metadata));
          } else {
            assert n.metadata == old@Head(n.metadata);
          }
        }
      }
      assert nodes[..|nodes|] == nodes;
      index := Some(nodes);
      counts := Some(Counts(patent, section, important));
    }

    /** The body of the `create_index` loop for one chunk: which of the
        three patterns its text matches, with the chunk flagged when it is
        important and carries metadata. */
    static method Inspect(node: Node) returns (isPatent: bool, isSection: bool, isImportant: bool)
      modifies node
      ensures isPatent == Found(PatentMention, node.text)
      ensures isSection == Found(ParagraphMarker, node.text)
      ensures isImportant == Found(ImportantChunk, node.text)
      ensures node.metadata == Flagged(node.hasMetadata, node.text, old(node.metadata))
    {
      isPatent := Search(PatentMention, node.text, 0).Some?;
      isSection := Search(ParagraphMarker, node.text, 0).Some?;
      isImportant := Search(ImportantChunk, node.text, 0).Some?;
      if isImportant && node.hasMetadata {
        node.metadata := node.metadata["important" := Flag(true)];
      }
    }

    /** `query`: rewrite the question, retrieve hits for it, and have the
        model answer from them. `retrieve` stands for the index's
        retriever and `llm` for the model; either may fail with an error
        message, and a failure of either is recovered by `Recover`. The
        rewrite is the one written in the source, which tries `kap` before
        `kapitel`. */
    function Query(question: string, retrieve: string -> Result<seq<Hit>>, llm: Prompt -> Result<string>): (r: Answer)
      reads this
      ensures index.None? ==> r == Plain(NoIndexMessage)
      ensures index.Some? && !model ==> r.Plain?
      ensures r.Plain? ==> r.message == NoIndexMessage || r.message == NoModelMessage || StartsWith(r.message, ErrorPrefix)
      ensures r.Enhanced? ==>
        && index.Some? && model
        && retrieve(RewriteQuery(false, question)) == Success(r.sources)
        && llm(Grounded(ContextOf(r.sources), RewriteQuery(false, question))) == Success(r.text)
      ensures r.Fallback? ==> index.Some? && model && llm(Direct(RewriteQuery(false, question))) == Success(r.text)
      ensures r.Fallback? <==>
        var q := RewriteQuery(false, question);
        && index.Some? && model && llm(Direct(q)).Success?
        && (retrieve(q).Success? ==> llm(Grounded(ContextOf(retrieve(q).value), q)).Failure?)
      ensures index.Some? ==>
        var q := RewriteQuery(false, question);
        && (retrieve(q).Failure? ==> r == Recover(model, q, retrieve(q).error, llm))
        && (retrieve(q).Success? && !model ==> r == Plain(NoModelMessage))
        && (retrieve(q).Success? && model ==>
              var generated := llm(Grounded(ContextOf(retrieve(q).value), q));
              && (generated.Success? ==> r == Enhanced(generated.value, retrieve(q).value))
              && (generated.Failure? ==> r == Recover(model, q, generated.error, llm)))
    {
      if index.None? then Plain(NoIndexMessage)
      else
        var q := RewriteQuery(false, question);
        match retrieve(q)
        case Failure(e) => Recover(model, q, e, llm)
        case Success(hits) =>
          if !model then Plain(NoModelMessage)
          else
            match llm(Grounded(ContextOf(hits), q))
            case Failure(e) => Recover(model, q, e, llm)
            case Success(text) => Enhanced(text, hits)
    }
  }
}

=== FILE: strings.dfy ===
/** Characters and strings as Python's `str` and `re` see them: the character
    classes `\d`, `\s` and `\w`, case mapping, `in`, `endswith`, `join`,
    `strip`, decimal formatting of integers, and the subsequence order used to
    state that a rewrite only inserts (or only deletes) text. */
module Strings {

  /** `\d`: a decimal digit (ASCII digits only in this model). */
  predicate IsDigit(c: char) {
    '0' <= c <= '9'
  }

  /** `\s` and `str.isspace()`: exactly Python's whitespace characters. */
  predicate IsSpace(c: char) {
    c == ' ' || ('\t' <= c <= '\r') || ('\U{1C}' <= c <= '\U{1F}') || c == '\U{85}' || c == '\U{A0}'
    || c == '\U{1680}' || ('\U{2000}' <= c <= '\U{200A}') || c == '\U{2028}' || c == '\U{2029}'
    || c == '\U{202F}' || c == '\U{205F}' || c == '\U{3000}'
  }

  /** `\w`: a letter, digit or underscore (ASCII and Latin-1 in this model). */
  predicate IsWord(c: char) {
    ('a' <= c <= 'z') || ('A' <= c <= 'Z') || IsDigit(c) || c == '_'
    || c == 'ª' || c == '²' || c == '³' || c == 'µ' || c == '¹' || c == 'º' || ('¼' <= c <= '¾')
    || ('À' <= c <= 'Ö') || ('Ø' <= c <= 'ö') || ('ø' <= c <= 'ÿ')
  }

  /** `str.lower()` on one character (ASCII and Latin-1 capitals). */
  function Lower(c: char): (r: char)
    ensures IsWord(c) <==> IsWord(r)
    ensures IsSpace(c) <==> IsSpace(r)
  {
    if 'A' <= c <= 'Z' || ('À' <= c <= 'Þ' && c != '×') then (c as int + 32) as char else c
  }

  /** `str.upper()` on one character (ASCII and Latin-1 small letters). */
  function Upper(c: char): char {
    if 'a' <= c <= 'z' || ('à' <= c <= 'þ' && c != '÷') then (c as int - 32) as char else c
  }

  function LowerStr(s: string): (r: string)
    ensures |r| == |s|
    ensures forall k :: 0 <= k < |s| ==> r[k] == Lower(s[k])
  {
    if s == [] then [] else [Lower(s[0])] + LowerStr(s[1..])
  }

  function UpperStr(s: string): (r: string)
    ensures |r| == |s|
    ensures forall k :: 0 <= k < |s| ==> r[k] == Upper(s[k])
  {
    if s == [] then [] else [Upper(s[0])] + UpperStr(s[1..])
  }

  /** `t` occurs in `s` starting at index `i`. */
  predicate HasAt(s: string, i: nat, t: string) {
    i + |t| <= |s| && s[i..i + |t|] == t
  }

  /** Like `HasAt`, comparing characters as `re.IGNORECASE` does. */
  predicate HasAtIgnoreCase(s: string, i: nat, t: string) {
    i + |t| <= |s| && forall k :: 0 <= k < |t| ==> Lower(s[i + k]) == Lower(t[k])
  }

  /** Python's `t in s` on strings. */
  predicate Contains(s: string, t: string) {
    exists i :: 0 <= i <= |s| - |t| && HasAt(s, i, t)
  }

  predicate StartsWith(s: string, t: string) {
    HasAt(s, 0, t)
  }

  /** Python's `s.endswith(t)`. */
  predicate EndsWith(s: string, t: string) {
    |t| <= |s| && s[|s| - |t|..] == t
  }

  lemma ContainsAt(s: string, i: nat, t: string)
    requires HasAt(s, i, t)
    ensures Contains(s, t)
  {
  }

  /** What the text before an occurrence is followed by does not matter. */
  lemma {:induction false} ContainsInPrefixed(p: string, s: string, t: string)
    requires Contains(s, t)
    ensures Contains(p + s, t)
  {
    var i :| 0 <= i <= |s| - |t| && HasAt(s, i, t);
    assert (p + s)[|p| + i..|p| + i + |t|] == s[i..i + |t|];
    ContainsAt(p + s, |p| + i, t);
  }

  /** What follows an occurrence does not matter either. */
  lemma ContainsInSuffixed(s: string, q: string, t: string)
    requires Contains(s, t)
    ensures Contains(s + q, t)
  {
    var i :| 0 <= i <= |s| - |t| && HasAt(s, i, t);
    assert (s + q)[i..i + |t|] == s[i..i + |t|];
    ContainsAt(s + q, i, t);
  }

  /** A text occurs in any text built around it. */
  lemma ContainsMiddle(a: string, t: string, b: string)
    ensures Contains(a + t + b, t)
  {
    assert (a + t + b)[|a|..|a| + |t|] == t;
    ContainsAt(a + t + b, |a|, t);
  }

  /** An occurrence inside an occurrence is an occurrence. */
  lemma ContainsTrans(s: string, m: string, t: string)
    requires Contains(s, m) && Contains(m, t)
    ensures Contains(s, t)
  {
    var i :| 0 <= i <= |s| - |m| && HasAt(s, i, m);
    var j :| 0 <= j <= |m| - |t| && HasAt(m, j, t);
    forall k | 0 <= k < |t|
      ensures s[i + j + k] == t[k]
    {
      assert s[i..i + |m|][j + k] == m[j + k];
      assert m[j..j + |t|][k] == t[k];
    }
    assert s[i + j..i + j + |t|] == t;
    ContainsAt(s, i + j, t);
  }

  /** A text that ends with `t` contains everything `t` contains. */
  lemma ContainsViaSuffix(r: string, t: string, b: string)
    requires EndsWith(r, t) && Contains(t, b)
    ensures Contains(r, b)
  {
    assert r == r[..|r| - |t|] + t;
    ContainsInPrefixed(r[..|r| - |t|], t, b);
  }

  /** Ending with is transitive. */
  lemma EndsWithTrans(r: string, m: string, t: string)
    requires EndsWith(r, m) && EndsWith(m, t)
    ensures EndsWith(r, t)
  {
    assert r[|r| - |t|..] == r[|r| - |m|..][|m| - |t|..];
  }

  /** A text ends with itself, prefixed by anything. */
  lemma EndsWithPrefixed(p: string, t: string)
    ensures EndsWith(p + t, t)
  {
    assert (p + t)[|p + t| - |t|..] == t;
  }

  lemma ContainsItself(s: string)
    ensures Contains(s, s)
  {
    ContainsAt(s, 0, s);
  }

  /** Every character of an occurring string is a character of the text. */
  lemma {:induction false} ContainsChar(s: string, t: string, k: nat)
    requires Contains(s, t) && k < |t|
    ensures t[k] in s
  {
    var i :| 0 <= i <= |s| - |t| && HasAt(s, i, t);
    assert s[i..i + |t|][k] == s[i + k];
  }

  /** The last element of a non-empty sequence (`xs[-1]`). */
  function Last<T>(xs: seq<T>): T
    requires xs != []
  {
    xs[|xs| - 1]
  }

  /** One more element in front leaves the last element alone. */
  lemma LastOfCons<T>(x: T, r: seq<T>)
    requires r != []
    ensures Last([x] + r) == Last(r)
  {
  }

  /** A slice cut in three. */
  lemma SliceThree<T>(s: seq<T>, i: nat, j: nat, k: nat, l: nat)
    requires i <= j <= k <= l <= |s|
    ensures s[i..l] == s[i..j] + s[j..k] + s[k..l]
  {
  }

  // ---------------------------------------------------------------------
  // Runs of one character class (the greedy quantifiers `\d+`, `\s*`, ...)

  datatype CharClass = Digit | Space | Word | Except(c: char)

  predicate InClass(cl: CharClass, c: char) {
    match cl
    case Digit => IsDigit(c)
    case Space => IsSpace(c)
    case Word => IsWord(c)
    case Except(x) => c != x
  }

  /** The end of the longest run of `cl` characters starting at `i`. */
  function RunEnd(cl: CharClass, s: string, i: nat): (e: nat)
    requires i <= |s|
    ensures i <= e <= |s|
    ensures forall k :: i <= k < e ==> InClass(cl, s[k])
    ensures e == |s| || !InClass(cl, s[e])
    decreases |s| - i
  {
    if i < |s| && InClass(cl, s[i]) then RunEnd(cl, s, i + 1) else i
  }

  /** A run that stops at a character outside the class ends there. */
  lemma RunEndIs(cl: CharClass, s: string, i: nat, e: nat)
    requires i <= e <= |s|
    requires forall k :: i <= k < e ==> InClass(cl, s[k])
    requires e == |s| || !InClass(cl, s[e])
    ensures RunEnd(cl, s, i) == e
  {
  }

  /** Every character of (a prefix of) a run is in the run's class. */
  lemma RunSlice(cl: CharClass, s: string, i: nat, j: nat)
    requires i <= |s| && i <= j <= RunEnd(cl, s, i)
    ensures forall x :: 0 <= x < |s[i..j]| ==> InClass(cl, s[i..j][x])
  {
    assert forall x :: 0 <= x < |s[i..j]| ==> s[i..j][x] == s[i + x];
  }

  /** A run end is the same from every start position inside the run. */
  lemma {:induction false} RunEndInside(cl: CharClass, s: string, i: nat, j: nat)
    requires i <= |s| && i <= j <= RunEnd(cl, s, i)
    ensures RunEnd(cl, s, j) == RunEnd(cl, s, i)
    decreases j - i
  {
    if i < j {
      RunEndInside(cl, s, i + 1, j);
    }
  }

  /** A run end depends only on the text from the start position on. */
  lemma {:induction false} RunEndShift(cl: CharClass, p: string, s: string, i: nat)
    requires i <= |s|
    ensures RunEnd(cl, p + s, |p| + i) == |p| + RunEnd(cl, s, i)
    decreases |s| - i
  {
    if i < |s| && InClass(cl, s[i]) {
      RunEndShift(cl, p, s, i + 1);
    }
  }

  /** A run end ignores text after the first character outside the class. */
  lemma {:induction false} RunEndPrefix(cl: CharClass, s: string, t: string, i: nat)
    requires i <= |s| && RunEnd(cl, s, i) < |s|
    ensures RunEnd(cl, s + t, i) == RunEnd(cl, s, i)
    decreases |s| - i
  {
    if InClass(cl, s[i]) {
      RunEndPrefix(cl, s, t, i + 1);
    }
  }

  // ---------------------------------------------------------------------
  // join, strip, decimal formatting

  /** `sep.join(parts)`. */
  function Join(parts: seq<string>, sep: string): (r: string)
    ensures parts == [] ==> r == ""
    ensures |parts| == 1 ==> r == parts[0]
  {
    if parts == [] then "" else if |parts| == 1 then parts[0] else parts[0] + sep + Join(parts[1..], sep)
  }

  function StripLeft(s: string): (r: string)
    ensures |r| <= |s| && r == s[|s| - |r|..]
    ensures r == [] || !IsSpace(r[0])
    ensures forall k :: 0 <= k < |s| - |r| ==> IsSpace(s[k])
  {
    if s != [] && IsSpace(s[0]) then StripLeft(s[1..]) else s
  }

  function StripRight(s: string): (r: string)
    ensures |r| <= |s| && r == s[..|r|]
    ensures r == [] || !IsSpace(r[|r| - 1])
    ensures forall k :: |r| <= k < |s| ==> IsSpace(s[k])
  {
    if s != [] && IsSpace(s[|s| - 1]) then StripRight(s[..|s| - 1]) else s
  }

  /** `str.strip()`: the input without whitespace at either end; it is empty
      exactly when the input is all whitespace. */
  function Strip(s: string): (r: string)
    ensures r == [] || (!IsSpace(r[0]) && !IsSpace(r[|r| - 1]))
    ensures forall k :: 0 <= k < |r| ==> r[k] in s
    ensures r == [] <==> forall k :: 0 <= k < |s| ==> IsSpace(s[k])
  {
    var l := StripLeft(s);
    StripParts(s, l, StripRight(l));
    StripRight(l)
  }

  lemma StripParts(s: string, l: string, r: string)
    requires l == StripLeft(s) && r == StripRight(l)
    ensures r == [] || (!IsSpace(r[0]) && !IsSpace(r[|r| - 1]))
    ensures forall k :: 0 <= k < |r| ==> r[k] in s
    ensures r == [] <==> forall k :: 0 <= k < |s| ==> IsSpace(s[k])
  {
    SliceChars(s, |s| - |l|, r);
    if r != [] {
      assert r[0] == l[0] == s[|s| - |l|];
    }
  }

  /** A prefix of a suffix of `s` has only characters of `s`. */
  lemma SliceChars(s: string, d: nat, r: string)
    requires d <= |s| && |r| <= |s| - d && r == s[d..][..|r|]
    ensures forall k :: 0 <= k < |r| ==> r[k] in s
  {
    forall k | 0 <= k < |r| ensures r[k] in s {
      assert r[k] == s[d + k];
    }
  }

  /** Stripping only removes characters. */
  lemma StripSubseq(s: string)
    ensures IsSubseq(Strip(s), s)
  {
    var l := StripLeft(s);
    StripLeftSubseq(s);
    StripRightSubseq(l);
    SubseqTrans(StripRight(l), l, s);
  }

  lemma StripLeftSubseq(s: string)
    ensures IsSubseq(StripLeft(s), s)
  {
    var l := StripLeft(s);
    assert s[..|s| - |l|] + l == s;
    SubseqSuffix(s[..|s| - |l|], l);
  }

  lemma StripRightSubseq(l: string)
    ensures IsSubseq(StripRight(l), l)
  {
    var r := StripRight(l);
    SubseqRefl(r);
    SubseqConcat(r, r, [], l[|r|..]);
    assert r + [] == r && r + l[|r|..] == l;
  }

  function DigitChar(d: nat): (c: char)
    requires d < 10
    ensures IsDigit(c)
  {
    ('0' as int + d) as char
  }

  /** `str(n)` for a natural number. */
  function NatToString(n: nat): (r: string)
    ensures r != [] && forall k :: 0 <= k < |r| ==> IsDigit(r[k])
  {
    if n < 10 then [DigitChar(n)] else NatToString(n / 10) + [DigitChar(n % 10)]
  }

  /** The value of a string of decimal digits. */
  function DigitsValue(s: string): nat {
    if s == [] then 0
    else
      var d := s[|s| - 1] as int - '0' as int;
      DigitsValue(s[..|s| - 1]) * 10 + (if 0 <= d then d else 0)
  }

  function Pow10(n: nat): (r: nat)
    ensures r >= 1
  {
    if n == 0 then 1 else 10 * Pow10(n - 1)
  }

  /** Writing a number in decimal and reading it back gives the number, and
      it takes no more digits than its size requires. */
  lemma {:induction false} NatToStringValue(n: nat, width: nat)
    requires 1 <= width && n < Pow10(width)
    ensures DigitsValue(NatToString(n)) == n
    ensures |NatToString(n)| <= width
  {
    if n >= 10 {
      NatToStringValue(n / 10, width - 1);
      var s := NatToString(n);
      assert s[..|s| - 1] == NatToString(n / 10);
    } else {
      assert DigitsValue(NatToString(n)) == DigitsValue([]) * 10 + n;
    }
  }

  // ---------------------------------------------------------------------
  // The subsequence order

  /** `a` can be obtained from `b` by deleting characters (equivalently, `b`
      from `a` by inserting them). */
  ghost predicate IsSubseq<T>(a: seq<T>, b: seq<T>)
    decreases |b|
  {
    if a == [] then true
    else if b == [] then false
    else (a[0] == b[0] && IsSubseq(a[1..], b[1..])) || IsSubseq(a, b[1..])
  }

  lemma {:induction false} SubseqRefl<T>(a: seq<T>)
    ensures IsSubseq(a, a)
  {
    if a != [] {
      SubseqRefl(a[1..]);
    }
  }

  lemma SubseqDropHead<T>(a: seq<T>, b: seq<T>)
    requires b != [] && IsSubseq(a, b[1..])
    ensures IsSubseq(a, b)
  {
  }

  lemma {:induction false} SubseqPrepend<T>(a: seq<T>, x: seq<T>, b: seq<T>)
    requires IsSubseq(a, b)
    ensures IsSubseq(a, x + b)
    decreases |x|
  {
    if x == [] {
      assert x + b == b;
    } else {
      SubseqPrepend(a, x[1..], b);
      assert (x + b)[1..] == x[1..] + b;
      if a != [] {
        SubseqDropHead(a, x + b);
      }
    }
  }

  lemma {:induction false} SubseqConcat<T>(a1: seq<T>, b1: seq<T>, a2: seq<T>, b2: seq<T>)
    requires IsSubseq(a1, b1) && IsSubseq(a2, b2)
    ensures IsSubseq(a1 + a2, b1 + b2)
    decreases |b1|
  {
    if a1 == [] {
      assert a1 + a2 == a2;
      SubseqPrepend(a2, b1, b2);
    } else {
      assert (b1 + b2)[1..] == b1[1..] + b2;
      if a1[0] == b1[0] && IsSubseq(a1[1..], b1[1..]) {
        SubseqConcat(a1[1..], b1[1..], a2, b2);
        assert (a1 + a2)[1..] == a1[1..] + a2;
      } else {
        SubseqConcat(a1, b1[1..], a2, b2);
      }
    }
  }

  lemma {:induction false} SubseqTrans<T>(a: seq<T>, b: seq<T>, c: seq<T>)
    requires IsSubseq(a, b) && IsSubseq(b, c)
    ensures IsSubseq(a, c)
    decreases |c|
  {
    if a != [] {
      if b[0] == c[0] && IsSubseq(b[1..], c[1..]) {
        if a[0] == b[0] && IsSubseq(a[1..], b[1..]) {
          SubseqTrans(a[1..], b[1..], c[1..]);
        } else {
          SubseqTrans(a, b[1..], c[1..]);
        }
      } else {
        SubseqTrans(a, b, c[1..]);
      }
    }
  }

  lemma {:induction false} SubseqEmptyOnly<T>(a: seq<T>)
    requires IsSubseq(a, [])
    ensures a == []
  {
  }

  /** Inserting `t` at position `p` keeps the original as a subsequence. */
  lemma SubseqInsert<T>(a: seq<T>, p: nat, t: seq<T>)
    requires p <= |a|
    ensures IsSubseq(a, a[..p] + t + a[p..])
  {
    SubseqRefl(a[..p]);
    SubseqRefl(a[p..]);
    SubseqPrepend(a[p..], t, a[p..]);
    SubseqConcat(a[..p], a[..p], a[p..], t + a[p..]);
    assert a[..p] + a[p..] == a;
    assert a[..p] + (t + a[p..]) == a[..p] + t + a[p..];
  }

  /** A suffix is a subsequence. */
  lemma SubseqSuffix<T>(x: seq<T>, b: seq<T>)
    ensures IsSubseq(b, x + b)
  {
    SubseqRefl(b);
    SubseqPrepend(b, x, b);
  }

  /** Text surrounded by inserted text is a subsequence of the result. */
  lemma SubseqInside<T>(x: seq<T>, a: seq<T>, b: seq<T>)
    ensures IsSubseq(x, a + x + b)
  {
    SubseqSuffix(a, x);
    SubseqConcat(x, a + x, [], b);
    assert x + [] == x;
  }

  /** Deleting characters never introduces a new one. */
  lemma {:induction false} SubseqMembers<T>(a: seq<T>, b: seq<T>, k: nat)
    requires IsSubseq(a, b) && k < |a|
    ensures a[k] in b
    decreases |b|
  {
    if a[0] == b[0] && IsSubseq(a[1..], b[1..]) {
      if k > 0 {
        SubseqMembers(a[1..], b[1..], k - 1);
      }
    } else {
      SubseqMembers(a, b[1..], k);
    }
  }

  lemma {:induction false} SubseqLength<T>(a: seq<T>, b: seq<T>)
    requires IsSubseq(a, b)
    ensures |a| <= |b|
    decreases |b|
  {
    if a != [] {
      if a[0] == b[0] && IsSubseq(a[1..], b[1..]) {
        SubseqLength(a[1..], b[1..]);
      } else {
        SubseqLength(a, b[1..]);
      }
    }
  }
  /** A subsequence as long as the whole is the whole. */
  lemma {:induction false} SubseqSameLength<T>(a: seq<T>, b: seq<T>)
    requires IsSubseq(a, b) && |a| == |b|
    ensures a == b
    decreases |b|
  {
    if a != [] {
      if a[0] == b[0] && IsSubseq(a[1..], b[1..]) {
        SubseqSameLength(a[1..], b[1..]);
        assert a == [a[0]] + a[1..] && b == [b[0]] + b[1..];
      } else {
        SubseqLength(a, b[1..]);
      }
    }
  }

  // ---------------------------------------------------------------------
  // The visible characters of a text

  /** The text with every whitespace character removed. */
  function NonSpace(s: string): (r: string)
    ensures |r| <= |s|
  {
    if s == [] then [] else (if IsSpace(s[0]) then [] else [s[0]]) + NonSpace(s[1..])
  }

  lemma {:induction false} NonSpaceConcat(a: string, b: string)
    ensures NonSpace(a + b) == NonSpace(a) + NonSpace(b)
  {
    if a != [] {
      assert (a + b)[1..] == a[1..] + b;
      NonSpaceConcat(a[1..], b);
    } else {
      assert a + b == b;
    }
  }

  /** A text without whitespace is its own visible part. */
  lemma {:induction false} NonSpaceOfVisible(a: string)
    requires forall k :: 0 <= k < |a| ==> !IsSpace(a[k])
    ensures NonSpace(a) == a
  {
    if a != [] {
      NonSpaceOfVisible(a[1..]);
    }
  }

  /** A number is its own visible part. */
  lemma NonSpaceOfDigits(a: string)
    requires forall k :: 0 <= k < |a| ==> IsDigit(a[k])
    ensures NonSpace(a) == a
  {
    NonSpaceOfVisible(a);
  }

  /** A run of whitespace has no visible part. */
  lemma {:induction false} NonSpaceOfBlank(a: string)
    requires forall k :: 0 <= k < |a| ==> IsSpace(a[k])
    ensures NonSpace(a) == []
  {
    if a != [] {
      NonSpaceOfBlank(a[1..]);
    }
  }

  /** Whitespace between two texts is not visible. */
  lemma NonSpaceSkipsBlank(a: string, gap: string, b: string)
    requires forall k :: 0 <= k < |gap| ==> IsSpace(gap[k])
    ensures NonSpace(a + gap + b) == NonSpace(a) + NonSpace(b)
  {
    var x, y, z := NonSpace(a), NonSpace(gap), NonSpace(b);
    NonSpaceConcat(a + gap, b);
    NonSpaceConcat(a, gap);
    NonSpaceOfBlank(gap);
    assert x + y == x;
  }

  /** Inserting text never removes a visible character. */
  lemma {:induction false} NonSpaceSubseq(a: string, b: string)
    requires IsSubseq(a, b)
    ensures IsSubseq(NonSpace(a), NonSpace(b))
    decreases |b|
  {
    if a == [] {
    } else if a[0] == b[0] && IsSubseq(a[1..], b[1..]) {
      NonSpaceSubseq(a[1..], b[1..]);
      assert a == [a[0]] + a[1..] && b == [b[0]] + b[1..];
      NonSpaceConcat([a[0]], a[1..]);
      NonSpaceConcat([b[0]], b[1..]);
      SubseqRefl(NonSpace([a[0]]));
      SubseqConcat(NonSpace([a[0]]), NonSpace([b[0]]), NonSpace(a[1..]), NonSpace(b[1..]));
    } else {
      NonSpaceSubseq(a, b[1..]);
      assert b == [b[0]] + b[1..];
      NonSpaceConcat([b[0]], b[1..]);
      SubseqPrepend(NonSpace(a), NonSpace([b[0]]), NonSpace(b[1..]));
    }
  }
}

=== FILE: tagger.dfy ===
/** Steps 1 to 7 of the legal-text tagger (`LegalTextProcessor.preprocess_legal_text`):
    rewriting passes that mark chapters, link every paragraph reference to the
    chapter it belongs to, emphasise key paragraphs, headers and legal terms,
    and splice explicit chapter/paragraph tags into the text. Step 8 is the
    module LawDefinitions; the whole pipeline is the module LegalText. */
module Tagger {
  import opened Outcomes
  import opened Strings
  import opened Patterns

  // ---------------------------------------------------------------------
  // Step 1: chapter banners

  /** The replacement `\n\n--- KAPITEL \1 ---\n\1 kap. \2`, for chapter
      number `n` and the rest `rest` of the heading. */
  function ChapterBannerText(n: string, rest: string): string {
    "\n\n--- KAPITEL " + n + " ---\n" + (n + " " + "kap." + " " + rest)
  }

  function ChapterBanner(start: nat, m: Match): string {
    ChapterBannerText(GroupText(m, 1), GroupText(m, 2))
  }

  function MarkChapters(s: string): string {
    Sub(ChapterHeading, ChapterBanner, s)
  }

  /** A chapter banner ends with the heading it replaces, respaced. */
  lemma ChapterBannerVisible(n: string, rest: string)
    requires forall k :: 0 <= k < |n| ==> IsDigit(n[k])
    ensures IsSubseq(n + "kap." + NonSpace(rest), NonSpace(ChapterBannerText(n, rest)))
  {
    var head := "\n\n--- KAPITEL " + n + " ---\n";
    var body := n + " " + "kap." + " " + rest;
    assert NonSpace(body) == n + "kap." + NonSpace(rest) by {
      VisibleParts(n, " ", "kap.", " ", rest);
    }
    NonSpaceConcat(head, body);
    SubseqSuffix(NonSpace(head), NonSpace(body));
  }

  /** Step 1 only inserts text, apart from the whitespace around `kap.` that
      it normalises to single spaces: no visible character of the document
      is lost. */
  lemma MarkChaptersVisible(s: string)
    ensures IsSubseq(NonSpace(s), NonSpace(MarkChapters(s)))
  {
    forall j | 0 <= j < |s| && ChapterHeading(s, j).Some?
      ensures IsSubseq(NonSpace(s[j..ChapterHeading(s, j).value.end]),
                       NonSpace(ChapterBanner(j, ChapterHeading(s, j).value)))
    {
      var m := ChapterHeading(s, j).value;
      ChapterHeadingShape(s, j);
      ChapterBannerVisible(m.groups[1], m.groups[2]);
    }
    SubInsertsVisible(ChapterHeading, ChapterBanner, s, 0);
    assert s[0..] == s;
  }

  /** Step 1 puts the banner `--- KAPITEL N ---` in front of the first
      chapter heading, with `N` the heading's own chapter number, rewrites
      the heading as `N kap. ` and the rest of it, and copies the text
      before it; a text without a heading is left as it is. */
  lemma MarkChaptersFirst(s: string)
    ensures !Found(ChapterHeading, s) ==> MarkChapters(s) == s
    ensures Found(ChapterHeading, s) ==>
      var j := Search(ChapterHeading, s, 0).value;
      var m := ChapterHeading(s, j).value;
      && m.groups[1] != [] && (forall k :: 0 <= k < |m.groups[1]| ==> IsDigit(m.groups[1][k]))
      && MarkChapters(s) == s[..j] + ("\n\n--- KAPITEL " + m.groups[1] + " ---\n" + (m.groups[1] + " " + "kap." + " " + m.groups[2]))
                            + SubFrom(ChapterHeading, ChapterBanner, s, m.end)
  {
    if Found(ChapterHeading, s) {
      var j := SubFirst(ChapterHeading, ChapterBanner, s);
      var m := ChapterHeading(s, j).value;
      assert ChapterBanner(j, m) == ChapterBannerText(m.groups[1], m.groups[2]) by {
        assert |m.groups| == 3;
      }
      ChapterHeadingShape(s, j);
    } else {
      SubNoMatch(ChapterHeading, ChapterBanner, s);
    }
  }

  // ---------------------------------------------------------------------
  // Step 2: paragraph references linked to the nearest preceding chapter

  /** The number of the last chapter reference `(\d+)\s*kap\.` that
      `re.finditer` finds in `t`, if there is one. */
  function LastChapter(t: string): Option<string> {
    var ms := FindAll(ChapterMarker, t, 0);
    if ms == [] then None else Some(GroupText(Last(ms), 1))
  }

  /** What follows `\n\nM § ` in the replacement for paragraph number `p`:
      `(i C kap.) M §` when chapter `C` was found before it, `M §` otherwise. */
  function ParagraphLink(chapter: Option<string>, p: string): string {
    match chapter
    case Some(c) => "(i " + c + " kap.) " + p + " §"
    case None => p + " §"
  }

  /** The replacement for paragraph number `p`, given the chapter found before it. */
  function LinkedParagraph(chapter: Option<string>, p: string): string {
    "\n\n" + (p + " " + "§") + (" " + ParagraphLink(chapter, p))
  }

  /** `text[:k]` */
  function Before(t: string, k: nat): string {
    if k <= |t| then t[..k] else t
  }

  /** The replacement function of step 2: the chapter is looked up in the
      text `s` the pass runs over (the step-1 text), never in its own output. */
  function ParagraphLinker(s: string): (nat, Match) -> string {
    (start: nat, m: Match) => LinkedParagraph(LastChapter(Before(s, start)), GroupText(m, 1))
  }

  function LinkParagraphs(s: string): string {
    SubFrom(ParagraphMarker, ParagraphLinker(s), s, 0)
  }

  /** The chapter reference at `j` is the one step 2 links to: it starts a
      number (it is not the tail of a longer one) and no chapter reference
      starts after it. */
  predicate IsNearestChapter(t: string, j: nat) {
    && j < |t| && ChapterMarker(t, j).Some?
    && (j == 0 || !IsDigit(t[j - 1]))
    && forall k :: ChapterMarker(t, j).value.end <= k < |t| ==> ChapterMarker(t, k).None?
  }

  /** A chapter reference after which `finditer` finds nothing more, and
      which does not continue a number from the left, is the nearest one. */
  lemma NearestWhenLast(t: string, i: nat)
    requires i < |t| && ChapterMarker(t, i).Some?
    requires FindAll(ChapterMarker, t, ChapterMarker(t, i).value.end) == []
    requires i == 0 || !IsDigit(t[i - 1]) || ChapterMarker(t, i - 1).None?
    ensures IsNearestChapter(t, i)
    ensures FindAll(ChapterMarker, t, i) == [ChapterMarker(t, i).value]
  {
    FindAllFirst(ChapterMarker, t, ChapterMarker(t, i).value.end);
    if i > 0 && IsDigit(t[i - 1]) {
      ChapterMarkerExtends(t, i);
    }
  }

  /** The last `finditer` match of the chapter pattern, scanning from `i`
      where no number continues from the left, is a nearest chapter reference. */
  lemma {:induction false} LastChapterFound(t: string, i: nat) returns (j: nat)
    requires i <= |t| && FindAll(ChapterMarker, t, i) != []
    requires i == 0 || !IsDigit(t[i - 1]) || ChapterMarker(t, i - 1).None?
    ensures i <= j && IsNearestChapter(t, j)
    ensures ChapterMarker(t, j).value == Last(FindAll(ChapterMarker, t, i))
    decreases |t| - i, 1
  {
    if ChapterMarker(t, i).Some? {
      j := LastChapterAfterMatch(t, i);
    } else {
      j := LastChapterAfterMiss(t, i);
    }
  }

  lemma {:induction false} LastChapterAfterMatch(t: string, i: nat) returns (j: nat)
    requires i < |t| && ChapterMarker(t, i).Some?
    requires i == 0 || !IsDigit(t[i - 1]) || ChapterMarker(t, i - 1).None?
    ensures i <= j && IsNearestChapter(t, j)
    ensures ChapterMarker(t, j).value == Last(FindAll(ChapterMarker, t, i))
    decreases |t| - i, 0
  {
    var m := ChapterMarker(t, i).value;
    var rest := FindAll(ChapterMarker, t, m.end);
    if rest == [] {
      NearestWhenLast(t, i);
      j := i;
    } else {
      assert FindAll(ChapterMarker, t, i) == [m] + rest;
      ChapterMarkerEndsWithDot(t, i);
      j := LastChapterFound(t, m.end);
      LastOfCons(m, rest);
    }
  }

  lemma {:induction false} LastChapterAfterMiss(t: string, i: nat) returns (j: nat)
    requires i <= |t| && FindAll(ChapterMarker, t, i) != [] && ChapterMarker(t, i).None?
    ensures i <= j && IsNearestChapter(t, j)
    ensures ChapterMarker(t, j).value == Last(FindAll(ChapterMarker, t, i))
    decreases |t| - i, 0
  {
    assert FindAll(ChapterMarker, t, i) == FindAll(ChapterMarker, t, i + 1);
    j := LastChapterFound(t, i + 1);
  }

  /** Step 2 links a paragraph to no chapter exactly when the text before it
      has no chapter reference, and otherwise to the number of the nearest
      chapter reference before it. */
  lemma {:induction false} LastChapterIsNearest(t: string)
    ensures LastChapter(t).None? <==> forall j :: 0 <= j <= |t| ==> ChapterMarker(t, j).None?
    ensures LastChapter(t).Some? ==>
      exists j :: IsNearestChapter(t, j) && ChapterMarker(t, j).value.groups[1] == LastChapter(t).value
  {
    FindAllFirst(ChapterMarker, t, 0);
    if LastChapter(t).Some? {
      var j := LastChapterFound(t, 0);
      assert ChapterMarker(t, j).value.groups[1] == LastChapter(t).value;
    }
  }

  /** There is only one nearest chapter reference. */
  lemma NearestChapterUnique(t: string, j1: nat, j2: nat)
    requires IsNearestChapter(t, j1) && IsNearestChapter(t, j2)
    ensures j1 == j2
  {
    if j1 < j2 {
      if j2 < ChapterMarker(t, j1).value.end {
        ChapterMarkerInside(t, j1, j2);
      }
    } else if j2 < j1 {
      if j1 < ChapterMarker(t, j2).value.end {
        ChapterMarkerInside(t, j2, j1);
      }
    }
  }

  /** The visible characters of `M §` are `M§`. */
  lemma VisibleReference(p: string)
    requires forall k :: 0 <= k < |p| ==> IsDigit(p[k])
    ensures NonSpace(p + " " + "§") == p + "§"
  {
    assert NonSpace(p + " " + "§") == NonSpace(p) + NonSpace("§") by {
      assert IsSpace(" "[0]);
      NonSpaceSkipsBlank(p, " ", "§");
    }
    assert NonSpace(p) == p by {
      NonSpaceOfDigits(p);
    }
    SectionSignVisible();
  }

  lemma SectionSignVisible()
    ensures NonSpace("§") == "§"
  {
    NonSpaceOfVisible("§");
  }

  /** The visible characters of a linked paragraph reference contain the
      reference `M§` itself. */
  lemma LinkedParagraphVisible(c: Option<string>, p: string)
    requires forall k :: 0 <= k < |p| ==> IsDigit(p[k])
    ensures IsSubseq(p + "§", NonSpace(LinkedParagraph(c, p)))
  {
    var head := p + " " + "§";
    SubseqInside(head, "\n\n", " " + ParagraphLink(c, p));
    NonSpaceSubseq(head, LinkedParagraph(c, p));
    VisibleReference(p);
  }

  /** Step 2 keeps every visible character: a paragraph reference `M §`
      becomes `M §` followed by the link. */
  lemma LinkParagraphsVisible(s: string)
    ensures IsSubseq(NonSpace(s), NonSpace(LinkParagraphs(s)))
  {
    forall j | 0 <= j < |s| && ParagraphMarker(s, j).Some?
      ensures IsSubseq(NonSpace(s[j..ParagraphMarker(s, j).value.end]),
                       NonSpace(ParagraphLinker(s)(j, ParagraphMarker(s, j).value)))
    {
      var m := ParagraphMarker(s, j).value;
      ParagraphMarkerShape(s, j);
      LinkedParagraphVisible(LastChapter(Before(s, j)), m.groups[1]);
    }
    SubInsertsVisible(ParagraphMarker, ParagraphLinker(s), s, 0);
    assert s[0..] == s;
  }

  /** Step 2 replaces the first paragraph reference `M §` by
      `\n\nM § (i C kap.) M §`, with `C` the last chapter reference in the
      text before it (and by `\n\nM § M §` when there is none), and copies
      the text before it; a text without a paragraph reference is left as
      it is. */
  lemma LinkParagraphsFirst(s: string)
    ensures !Found(ParagraphMarker, s) ==> LinkParagraphs(s) == s
    ensures Found(ParagraphMarker, s) ==>
      var j := Search(ParagraphMarker, s, 0).value;
      var m := ParagraphMarker(s, j).value;
      LinkParagraphs(s) == s[..j] + LinkedParagraph(LastChapter(s[..j]), m.groups[1])
                           + SubFrom(ParagraphMarker, ParagraphLinker(s), s, m.end)
  {
    if Found(ParagraphMarker, s) {
      var j := SubFirst(ParagraphMarker, ParagraphLinker(s), s);
      assert Before(s, j) == s[..j];
    } else {
      SubNoMatch(ParagraphMarker, ParagraphLinker(s), s);
    }
  }

  // ---------------------------------------------------------------------
  // Steps 3, 4 and 6: banners and headers in front of fixed text

  /** A replacement that puts fixed text before and after group 1. */
  function Wrap(pre: string, post: string): (nat, Match) -> string {
    (start: nat, m: Match) => pre + GroupText(m, 1) + post
  }

  /** The text after `\1` in `\n\n--- VIKTIG PARAGRAF ---\n\1 - (Kapitel N, Paragraf 1) - TITLE\n`. */
  function KeyParagraphTitle(n: char, title: string): string {
    " - (Kapitel " + [n] + ", Paragraf 1) - " + title + "\n"
  }

  const KeyParagraphHeader := "\n\n--- VIKTIG PARAGRAF ---\n"

  function EmphasizeKeyParagraph(n: char, title: string, s: string): string {
    Sub(KeyParagraph(n), Wrap(KeyParagraphHeader, KeyParagraphTitle(n, title)), s)
  }

  const Title1 := "DEFINITION AV PATENT OCH ENSAMRÄTT"
  const Title2 := "PATENTERBARA UPPFINNINGAR"
  const Title3 := "ENSAMRÄTTENS OMFATTNING"

  /** Step 3: the first paragraphs of chapters 1, 2 and 3, in that order. */
  function EmphasizeKeyParagraphs(s: string): string {
    EmphasizeKeyParagraph('3', Title3, EmphasizeKeyParagraph('2', Title2, EmphasizeKeyParagraph('1', Title1, s)))
  }

  /** A pass that puts fixed text around each match, keeping the match, only
      inserts text. */
  lemma WrapInserts(p: Matcher, pre: string, post: string, s: string)
    requires forall j :: 0 <= j < |s| && p(s, j).Some? ==>
               MatchFrom(p(s, j), s, j, 1) && p(s, j).value.groups[1] == p(s, j).value.groups[0]
    ensures IsSubseq(s, Sub(p, Wrap(pre, post), s))
  {
    forall j | 0 <= j < |s| && p(s, j).Some?
      ensures IsSubseq(s[j..p(s, j).value.end], Wrap(pre, post)(j, p(s, j).value))
    {
      var m := p(s, j).value;
      SubseqInside(m.groups[0], pre, post);
    }
    SubInserts(p, Wrap(pre, post), s, 0);
    assert s[0..] == s;
  }

  /** Step 3 only inserts text. */
  lemma EmphasizeKeyParagraphsInserts(s: string)
    ensures IsSubseq(s, EmphasizeKeyParagraphs(s))
  {
    var s1 := EmphasizeKeyParagraph('1', Title1, s);
    var s2 := EmphasizeKeyParagraph('2', Title2, s1);
    WrapInserts(KeyParagraph('1'), KeyParagraphHeader, KeyParagraphTitle('1', Title1), s);
    WrapInserts(KeyParagraph('2'), KeyParagraphHeader, KeyParagraphTitle('2', Title2), s1);
    WrapInserts(KeyParagraph('3'), KeyParagraphHeader, KeyParagraphTitle('3', Title3), s2);
    SubseqTrans(s, s1, s2);
    SubseqTrans(s, s2, EmphasizeKeyParagraphs(s));
  }

  /** Step 3 for chapter `n` puts the `VIKTIG PARAGRAF` header in front of
      the first `n kap. 1 §` reference and the label with the chapter number
      and the title after it, keeping the reference as written and the text
      before it; a text without such a reference is left as it is. */
  lemma EmphasizeKeyParagraphFirst(n: char, title: string, s: string)
    ensures !Found(KeyParagraph(n), s) ==> EmphasizeKeyParagraph(n, title, s) == s
    ensures Found(KeyParagraph(n), s) ==>
      var j := Search(KeyParagraph(n), s, 0).value;
      var m := KeyParagraph(n)(s, j).value;
      && m.groups[0] == s[j..m.end]
      && EmphasizeKeyParagraph(n, title, s)
         == s[..j] + ("\n\n--- VIKTIG PARAGRAF ---\n" + s[j..m.end] + (" - (Kapitel " + [n] + ", Paragraf 1) - " + title + "\n"))
            + SubFrom(KeyParagraph(n), Wrap(KeyParagraphHeader, KeyParagraphTitle(n, title)), s, m.end)
  {
    var f := Wrap(KeyParagraphHeader, KeyParagraphTitle(n, title));
    if Found(KeyParagraph(n), s) {
      var j := SubFirst(KeyParagraph(n), f, s);
      var m := KeyParagraph(n)(s, j).value;
      assert f(j, m) == KeyParagraphHeader + s[j..m.end] + KeyParagraphTitle(n, title) by {
        assert |m.groups| == 2 && m.groups[1] == m.groups[0] == s[j..m.end];
      }
    } else {
      SubNoMatch(KeyParagraph(n), f, s);
    }
  }

  /** The header phrases of step 4, in the order the alternation tries them. */
  const SectionHeaders: seq<Phrase> :=
    ["Det patenterbara området", "Patent", "Europeiskt patent"]
    + ["Patenterbara uppfinningar", "Människokroppen", "Växtsorter och djurraser"]
    + ["Mönsterskydd", "Ensamrätt till mönster", "Skyddstiden"]

  /** The header phrases of step 6. */
  const SubsectionHeaders: seq<Phrase> :=
    ["Grundläggande bestämmelser", "Lagens innehåll", "Lagens tillämpningsområde"]
    + ["Svenskt patent", "Registrering av mönster", "Skyddsförutsättningar"]

  const SectionBanner := "\n\n--- AVSNITT ---\n"
  const SubsectionBanner := "\n\n--- SEKTION ---\n"

  /** Step 4: `--- AVSNITT ---` before each listed header phrase. */
  function MarkSections(s: string): string {
    Sub(Phrases(SectionHeaders), Wrap(SectionBanner, ""), s)
  }

  /** Step 6: `--- SEKTION ---` before each listed header phrase. */
  function MarkSubsections(s: string): string {
    Sub(Phrases(SubsectionHeaders), Wrap(SubsectionBanner, ""), s)
  }

  /** Steps 4 and 6 only insert text, and leave a text without the phrases as it is. */
  lemma MarkHeadersInserts(s: string)
    ensures IsSubseq(s, MarkSections(s)) && IsSubseq(s, MarkSubsections(s))
    ensures !Found(Phrases(SectionHeaders), s) ==> MarkSections(s) == s
    ensures !Found(Phrases(SubsectionHeaders), s) ==> MarkSubsections(s) == s
  {
    WrapInserts(Phrases(SectionHeaders), SectionBanner, "", s);
    WrapInserts(Phrases(SubsectionHeaders), SubsectionBanner, "", s);
    if !Found(Phrases(SectionHeaders), s) {
      SubNoMatch(Phrases(SectionHeaders), Wrap(SectionBanner, ""), s);
    }
    if !Found(Phrases(SubsectionHeaders), s) {
      SubNoMatch(Phrases(SubsectionHeaders), Wrap(SubsectionBanner, ""), s);
    }
  }

  /** Step 4 puts `--- AVSNITT ---` on a line of its own in front of the
      first header phrase, the first of the listed phrases that starts
      there, and copies the text before it; a text without a header is
      left as it is. Step 6 does the same with `--- SEKTION ---` and its
      own phrases. */
  lemma MarkSectionsFirst(s: string)
    ensures !Found(Phrases(SectionHeaders), s) ==> MarkSections(s) == s
    ensures Found(Phrases(SectionHeaders), s) ==>
      var j := Search(Phrases(SectionHeaders), s, 0).value;
      var m := Phrases(SectionHeaders)(s, j).value;
      && m.groups[0] in SectionHeaders && HasAt(s, j, m.groups[0])
      && MarkSections(s) == s[..j] + ("\n\n--- AVSNITT ---\n" + m.groups[0] + "")
                            + SubFrom(Phrases(SectionHeaders), Wrap(SectionBanner, ""), s, m.end)
  {
    if Found(Phrases(SectionHeaders), s) {
      var j := SubFirst(Phrases(SectionHeaders), Wrap(SectionBanner, ""), s);
      var m := Phrases(SectionHeaders)(s, j).value;
      assert |m.groups| == 2 && m.groups[1] == m.groups[0];
    } else {
      SubNoMatch(Phrases(SectionHeaders), Wrap(SectionBanner, ""), s);
    }
  }

  lemma MarkSubsectionsFirst(s: string)
    ensures !Found(Phrases(SubsectionHeaders), s) ==> MarkSubsections(s) == s
    ensures Found(Phrases(SubsectionHeaders), s) ==>
      var j := Search(Phrases(SubsectionHeaders), s, 0).value;
      var m := Phrases(SubsectionHeaders)(s, j).value;
      && m.groups[0] in SubsectionHeaders && HasAt(s, j, m.groups[0])
      && MarkSubsections(s) == s[..j] + ("\n\n--- SEKTION ---\n" + m.groups[0] + "")
                               + SubFrom(Phrases(SubsectionHeaders), Wrap(SubsectionBanner, ""), s, m.end)
  {
    if Found(Phrases(SubsectionHeaders), s) {
      var j := SubFirst(Phrases(SubsectionHeaders), Wrap(SubsectionBanner, ""), s);
      var m := Phrases(SubsectionHeaders)(s, j).value;
      assert |m.groups| == 2 && m.groups[1] == m.groups[0];
    } else {
      SubNoMatch(Phrases(SubsectionHeaders), Wrap(SubsectionBanner, ""), s);
    }
  }

  // ---------------------------------------------------------------------
  // Step 5: legal terms repeated

  const LegalTerms: seq<Phrase> := [
    "ensamrätt", "uppfinning", "patenthavaren", "patentskydd", "patentansökan",
    "mönsterskydd", "mönsterhavaren", "designskydd", "bruksmodell"]

  /** The replacement `\n\n\1 \1`. */
  function TermRepetition(start: nat, m: Match): string {
    "\n\n" + GroupText(m, 1) + " " + GroupText(m, 1)
  }

  /** One pass of the term loop: `\b(term)\b`, ignoring case, becomes `\n\nx x`. */
  function RepeatTerm(term: Phrase, s: string): string {
    Sub(WholeWord(term), TermRepetition, s)
  }

  /** The term loop after the passes for `terms`, in order. */
  function RepeatTerms(terms: seq<Phrase>, s: string): string
    decreases |terms|
  {
    if terms == [] then s else RepeatTerm(terms[|terms| - 1], RepeatTerms(terms[..|terms| - 1], s))
  }

  /** Step 5: `for term in legal_terms: enhanced_content = re.sub(...)`. */
  method RepeatLegalTerms(s: string) returns (r: string)
    ensures r == RepeatTerms(LegalTerms, s)
  {
    r := s;
    for i := 0 to |LegalTerms|
      invariant r == RepeatTerms(LegalTerms[..i], s)
    {
      assert LegalTerms[..i + 1][..i] == LegalTerms[..i];
      r := RepeatTerm(LegalTerms[i], r);
    }
    assert LegalTerms[..|LegalTerms|] == LegalTerms;
  }

  /** One pass of the term loop only inserts text. */
  lemma RepeatTermInserts(term: Phrase, s: string)
    ensures IsSubseq(s, RepeatTerm(term, s))
  {
    forall j | 0 <= j < |s| && WholeWord(term)(s, j).Some?
      ensures IsSubseq(s[j..WholeWord(term)(s, j).value.end], TermRepetition(j, WholeWord(term)(s, j).value))
    {
      var m := WholeWord(term)(s, j).value;
      assert TermRepetition(j, m) == "\n\n" + m.groups[0] + (" " + m.groups[1]);
      SubseqInside(m.groups[0], "\n\n", " " + m.groups[1]);
    }
    SubInserts(WholeWord(term), TermRepetition, s, 0);
    assert s[0..] == s;
  }

  /** Step 5 as a whole only inserts text. */
  lemma {:induction false} RepeatTermsInserts(terms: seq<Phrase>, s: string)
    ensures IsSubseq(s, RepeatTerms(terms, s))
    decreases |terms|
  {
    if terms == [] {
      SubseqRefl(s);
    } else {
      var before := RepeatTerms(terms[..|terms| - 1], s);
      RepeatTermsInserts(terms[..|terms| - 1], s);
      RepeatTermInserts(terms[|terms| - 1], before);
      SubseqTrans(s, before, RepeatTerm(terms[|terms| - 1], before));
    }
  }

  /** The repetition of a whole-word term keeps the term and is longer. */
  lemma TermRepetitionGrows(term: Phrase, s: string, j: nat)
    requires j < |s| && WholeWord(term)(s, j).Some?
    ensures IsSubseq(s[j..WholeWord(term)(s, j).value.end], TermRepetition(j, WholeWord(term)(s, j).value))
    ensures |TermRepetition(j, WholeWord(term)(s, j).value)| > WholeWord(term)(s, j).value.end - j
  {
    var m := WholeWord(term)(s, j).value;
    assert TermRepetition(j, m) == "\n\n" + m.groups[0] + (" " + m.groups[1]);
    SubseqInside(m.groups[0], "\n\n", " " + m.groups[1]);
  }

  /** One pass of step 5 replaces the first whole-word occurrence `x` of
      the term, found at `j` in whatever letter case it is written, by
      `\n\nx x`, and copies the text before it. */
  lemma RepeatTermFirst(term: Phrase, s: string, j: nat)
    requires Search(WholeWord(term), s, 0) == Some(j)
    ensures j + |term| <= |s| && HasAtIgnoreCase(s, j, term)
    ensures RepeatTerm(term, s) == s[..j] + ("\n\n" + s[j..j + |term|] + " " + s[j..j + |term|])
                                   + SubFrom(WholeWord(term), TermRepetition, s, j + |term|)
  {
    var x := s[j..j + |term|];
    assert WholeWord(term)(s, j) == WholeWordAt(term, s, j);
    assert j + |term| <= |s| && HasAtIgnoreCase(s, j, term) && WholeWordAt(term, s, j) == Some(Match(j + |term|, [x, x])) by {
      WholeWordAccepts(term, s, j);
    }
    var j' := SubFirst(WholeWord(term), TermRepetition, s);
    assert TermRepetition(j, Match(j + |term|, [x, x])) == "\n\n" + x + " " + x;
  }

  /** A term that occurs as a whole word makes its pass strictly lengthen
      the text. */
  lemma RepeatTermGrows(term: Phrase, s: string)
    requires Found(WholeWord(term), s)
    ensures |RepeatTerm(term, s)| > |s|
  {
    forall j | 0 <= j < |s| && WholeWord(term)(s, j).Some?
      ensures IsSubseq(s[j..WholeWord(term)(s, j).value.end], TermRepetition(j, WholeWord(term)(s, j).value))
      ensures |TermRepetition(j, WholeWord(term)(s, j).value)| > WholeWord(term)(s, j).value.end - j
    {
      TermRepetitionGrows(term, s, j);
    }
    SubGrows(WholeWord(term), TermRepetition, s);
  }

  /** A term written between a line break and a space is a whole word. */
  lemma FramedWholeWord(term: Phrase, x: string, a: string, b: string, c: string)
    requires forall k :: 0 <= k < |term| ==> IsWord(term[k])
    requires HasAtIgnoreCase(x, 0, term) && |x| == |term|
    ensures WholeWord(term)(a + ("\n\n" + x + " " + b) + c, |a| + 2).Some?
  {
    var t := a + ("\n\n" + x + " " + b) + c;
    var q := |a| + 2;
    assert t[q..q + |x|] == x;
    assert t[q - 1] == '\n' && t[q + |x|] == ' ';
    forall k | 0 <= k < |term| ensures Lower(t[q + k]) == Lower(term[k]) {
      assert t[q + k] == x[k];
    }
    var last := |x| - 1;
    assert IsWord(term[0]) && IsWord(term[last]);
    assert Lower(x[0 + 0]) == Lower(term[0]) && Lower(x[0 + last]) == Lower(term[last]);
    assert IsWord(x[0]) && IsWord(x[last]);
  }

  /** A term made of word characters that occurs as a whole word still
      occurs as a whole word after its pass: no text containing a legal term
      is left unchanged by step 5, however often it is applied. */
  lemma RepeatTermFoundAgain(term: Phrase, s: string)
    requires forall k :: 0 <= k < |term| ==> IsWord(term[k])
    requires Found(WholeWord(term), s)
    ensures Found(WholeWord(term), RepeatTerm(term, s))
  {
    var j := Search(WholeWord(term), s, 0).value;
    var x := s[j..j + |term|];
    var rest := SubFrom(WholeWord(term), TermRepetition, s, j + |term|);
    assert j + |term| <= |s| && HasAtIgnoreCase(s, j, term)
      && RepeatTerm(term, s) == s[..j] + ("\n\n" + x + " " + x) + rest by {
      RepeatTermFirst(term, s, j);
    }
    assert HasAtIgnoreCase(x, 0, term) by {
      forall k | 0 <= k < |term| ensures Lower(x[0 + k]) == Lower(term[k]) {
        assert x[k] == s[j + k];
      }
    }
    FramedWholeWord(term, x, s[..j], x, rest);
  }

  // ---------------------------------------------------------------------
  // Step 7: chapter/paragraph tags

  function ChapterParagraphTag(c: string, p: string): string {
    "\n[KAPITEL-PARAGRAF-TAGG: Kapitel " + c + ", Paragraf " + p + "]\n"
  }

  /** `text[start:start + 500]` */
  function Window(t: string, start: nat): string {
    var a := if start <= |t| then start else |t|;
    var b := if start + 500 <= |t| then start + 500 else |t|;
    t[a..b]
  }

  /** The tag for paragraph match `pm` of the window after a chapter
      reference ending at `base`, inserted at `base + pm.end + 10` when that
      position is inside the current text. */
  function InsertTag(t: string, base: nat, c: string, pm: Match): string {
    var pos := base + pm.end + 10;
    if pos < |t| then t[..pos] + ChapterParagraphTag(c, GroupText(pm, 1)) + t[pos..] else t
  }

  /** The inner loop after the paragraph matches `ps`, in order. */
  function InsertTags(t: string, base: nat, c: string, ps: seq<Match>): string
    decreases |ps|
  {
    if ps == [] then t else InsertTag(InsertTags(t, base, c, ps[..|ps| - 1]), base, c, ps[|ps| - 1])
  }

  /** One round of the outer loop: the paragraph references are looked for
      in the 500 characters after the chapter reference, in the current text,
      while the position of that reference comes from the text the loop started with. */
  function TagChapter(t: string, m: Match): string {
    InsertTags(t, m.end, GroupText(m, 1), FindAll(ParagraphMarker, Window(t, m.end), 0))
  }

  /** The outer loop after the chapter matches `ms`, in order. */
  function TagChapters(t: string, ms: seq<Match>): string
    decreases |ms|
  {
    if ms == [] then t else TagChapter(TagChapters(t, ms[..|ms| - 1]), ms[|ms| - 1])
  }

  /** Step 7: the chapter references are those of the text before the step. */
  function TagChapterParagraphs(s: string): string {
    TagChapters(s, FindAll(ChapterMarker, s, 0))
  }

  /** The inner loop of step 7: one tag per paragraph match, spliced in at
      the match's position counted from the chapter reference, as long as
      that position is still inside the text. */
  method InsertParagraphTags(t: string, base: nat, chapter: string, paragraphs: seq<Match>) returns (r: string)
    ensures r == InsertTags(t, base, chapter, paragraphs)
  {
    r := t;
    for j := 0 to |paragraphs|
      invariant r == InsertTags(t, base, chapter, paragraphs[..j])
    {
      var pos := base + paragraphs[j].end + 10;
      if pos < |r| {
        r := r[..pos] + ChapterParagraphTag(chapter, GroupText(paragraphs[j], 1)) + r[pos..];
      }
      assert paragraphs[..j + 1][..j] == paragraphs[..j];
    }
    assert paragraphs[..|paragraphs|] == paragraphs;
  }

  /** Step 7 as the source runs it: two nested loops splicing tags into the text. */
  method AddChapterParagraphTags(s: string) returns (r: string)
    ensures r == TagChapterParagraphs(s)
  {
    var chapters := FindAll(ChapterMarker, s, 0);
    r := s;
    for i := 0 to |chapters|
      invariant r == TagChapters(s, chapters[..i])
    {
      var m := chapters[i];
      var paragraphs := FindAll(ParagraphMarker, Window(r, m.end), 0);
      r := InsertParagraphTags(r, m.end, GroupText(m, 1), paragraphs);
      assert chapters[..i + 1][..i] == chapters[..i];
    }
    assert chapters[..|chapters|] == chapters;
  }

  lemma {:induction false} InsertTagsInserts(t: string, base: nat, c: string, ps: seq<Match>)
    ensures IsSubseq(t, InsertTags(t, base, c, ps))
    decreases |ps|
  {
    if ps == [] {
      SubseqRefl(t);
    } else {
      var before := InsertTags(t, base, c, ps[..|ps| - 1]);
      InsertTagsInserts(t, base, c, ps[..|ps| - 1]);
      var pos := base + ps[|ps| - 1].end + 10;
      if pos < |before| {
        SubseqInsert(before, pos, ChapterParagraphTag(c, GroupText(ps[|ps| - 1], 1)));
        SubseqTrans(t, before, InsertTags(t, base, c, ps));
      }
    }
  }

  /** Step 7 only inserts text. */
  lemma {:induction false} TagChaptersInserts(t: string, ms: seq<Match>)
    ensures IsSubseq(t, TagChapters(t, ms))
    decreases |ms|
  {
    if ms == [] {
      SubseqRefl(t);
    } else {
      var before := TagChapters(t, ms[..|ms| - 1]);
      var m := ms[|ms| - 1];
      TagChaptersInserts(t, ms[..|ms| - 1]);
      InsertTagsInserts(before, m.end, GroupText(m, 1), FindAll(ParagraphMarker, Window(before, m.end), 0));
      SubseqTrans(t, before, TagChapters(t, ms));
    }
  }
}
